=== FILE: README.md ===
# Project boards, modelled in Dafny

This project models the data layer and the view logic of a Monday-style project-management web app. A board holds groups, a group holds items (rows), and an item carries free-form column values such as `status`, `person` and `date`. Items can carry comments that mention team members as `@first.last`. The model covers the following:

- the in-memory board service: boards, items, the mock comment endpoints and the team directory;
- the comment service: a seeded list with search and a mentions query;
- the mention scanner shared by both services and by the comment renderer;
- the kanban projection of a board;
- the board-list page: search, filter, sort, the two task counters and board creation;
- the board page's three item handlers, and the alternative add-item handler;
- the table view's inline cell editor;
- the item dialog's comment box and `@` autocomplete;
- avatar initials and colours;
- the sidebar.

Each service call is one atomic step, so there are no delays and no interleavings. A call takes a store and returns the new store with a `Success` or `Failure` result.

Page handlers change their local copy only after the service call has succeeded. In the model each handler receives the call's outcome as a parameter: a boolean, or the `Result` the service model returns. The outcome of a handler is its new local state together with the request it sent.

Some inputs are parameters in place of their real sources:

- the current time (`now`, in milliseconds);
- the random part of a mock comment id;
- the user's confirmation;
- the `localeCompare` order (any total preorder).

Source modules and the Dafny modules that follow them:

| Dafny module | file | follows |
|---|---|---|
| `Wrappers`, `Text`, `Seqs` | wrappers.dfy, text.dfy, seqs.dfy | shared helpers: `Option`/`Result`; ASCII case, `trim`, `includes`, decimal rendering; filter, find, stable insertion sort |
| `BoardModel` | board_model.dfy | the board, group, item, comment and member records |
| `BoardService` | board_service.dfy | src/services/api/boardService.js |
| `CommentsService` | comments_service.dfy | src/services/api/commentsService.js |
| `Mentions` | mentions.dfy | the expression `@(\w+(?:\.\w+)*)` used by both services and by `renderCommentContent` |
| `Kanban` | kanban.dfy | src/components/organisms/KanbanBoard.jsx |
| `BoardView` | board_view.dfy | src/components/pages/BoardView.jsx |
| `AddItemHandler` | add_item_handler.dfy | src/components/pages/BoardViewHandlers.js |
| `BoardList` | board_list.dfy | src/components/pages/BoardList.jsx |
| `ItemDetail` | item_detail.dfy | src/components/organisms/ItemDetailModal.jsx |
| `PersonAvatar` | person_avatar.dfy | src/components/atoms/PersonAvatar.jsx |
| `Sidebar` | sidebar.dfy | src/components/organisms/Sidebar.jsx |
| `BoardTable` | board_table.dfy | src/components/organisms/BoardTable.jsx |
| `Flows` | flows.dfy | kanban requests carried through the board page and the service |

Behaviours of the code that are easy to misread, modelled as the code has them:

- **`createItem` and the item counter.** `createItem` takes the next item id before it looks for the group, so a failed call still advances the counter.
- **Passed fields in `createItem`.** Every field the caller passes is spread over the defaults, so a passed empty title stays empty.
- **The kanban "Add card" button.** It adds to the board's first group, whatever statuses that group holds.
- **The page's `handleUpdateItem`.** It edits the first match inside the *last* group that holds the id, because its walk over the groups overwrites earlier finds.
- **The `Done` and `In Progress` counters.** They compare the raw status, so an item with no status counts towards neither counter. The kanban view puts such an item under `Not Started`.

## Model

| member | source | states |
|---|---|---|
| BoardService.Init | src/services/api/boardService.js:3-7 | the board counter starts one above the largest seed id, so every seed id is below it; the item counter starts at 100 |
| BoardService.GetById | src/services/api/boardService.js:19-26 | succeeds exactly when some board has the id, returning the first such board; otherwise board-not-found |
| BoardService.GetAllPartners | src/services/api/boardService.js:14-17 | `getAll` lists exactly the boards `getById` can find, and after `create` the new board comes first with the earlier boards after it in order |
| BoardService.Create | src/services/api/boardService.js:28-38 | the new board takes the counter's id, which is above every existing id; it carries the draft's fields and both timestamps, goes first, and the rest follow unchanged |
| BoardService.Update | src/services/api/boardService.js:40-54 | an absent id is not-found and changes nothing; otherwise only the first board with the id changes: named fields replaced, the others kept, `updatedAt` refreshed |
| BoardService.UpdateThenGetById | src/services/api/boardService.js:19-54 | after an update that keeps the id, `getById` returns the updated board |
| BoardService.UpdateKeepsOtherIds | src/services/api/boardService.js:19-54 | an id carried by neither the old nor the patched board finds, after an update, what it found before |
| BoardService.Delete | src/services/api/boardService.js:56-65 | an absent id is not-found and changes nothing; otherwise exactly the first board with the id is removed and returned |
| BoardService.DeleteKeepsOrder | src/services/api/boardService.js:56-65 | after a delete the remaining boards keep their relative order |
| BoardService.CreateItem | src/services/api/boardService.js:68-100 | the item counter always advances; with no group of that `Id` on any board the call fails with group-not-found and the boards are unchanged; otherwise the item gets the counter id and the defaults `New Item <id>`, `Not Started` and `{}` unless fields were passed, and is appended to the first matching group of the first board holding one, whose `updatedAt` is refreshed |
| BoardService.LocateItem | src/services/api/boardService.js:104-125 | finds the first item with the id in board, group, item order, or reports that none exists |
| BoardService.UpdateItem | src/services/api/boardService.js:102-126 | an absent id is item-not-found and changes nothing; otherwise only the first item in scan order is patched, with a fresh `updatedAt` on it and on its board |
| BoardService.DeleteItem | src/services/api/boardService.js:128-148 | an absent id is item-not-found and changes nothing; otherwise exactly the first item in scan order leaves its group and is returned |
| BoardService.ItemCounterIncreases | src/services/api/boardService.js:6-75 | from any seed the first item created gets id 100, and one created after it, across an update and a delete and whether or not either creation fails, gets 101 |
| BoardService.GetComments | src/services/api/boardService.js:151-200 | without an item id there are no comments; with one, three mock comments on that item, oldest first, each with mentions equal to what its text yields |
| BoardService.AddComment | src/services/api/boardService.js:202-225 | the id is 1000 plus a draw below 10000; the text is stored as given and the mentions are those extracted from it |
| BoardService.AddCommentRecordsMention | src/services/api/boardService.js:202-225 | text holding `@username` of a directory member records that username first among the mentions |
| BoardService.DeleteComment | src/services/api/boardService.js:227-230 | always reports success; it takes no store, so no board, item or comment changes |
| BoardService.TeamUsernamesAreTokens | src/services/api/boardService.js:233-244 | every directory username is a complete mention token, so `@username` is read back whole |
| BoardService.TeamUsernamesDistinct | src/services/api/boardService.js:233-244 | the six usernames are pairwise distinct |
| BoardService.GetTeamMembers | src/services/api/boardService.js:233-244 | six members with ids 1 to 6 in order |
| Mentions.Extract | src/services/api/boardService.js:206-207 | every extracted mention is a `word(.word)*` token |
| Mentions.ExtractEmptyIff | src/services/api/boardService.js:206-207 | nothing is extracted exactly when no `@` is directly followed by a word character |
| Mentions.ExtractWithMention | src/services/api/commentsService.js:76-77 | text without `@`, then `@token`, then a break yields that token first, without its `@` |
| Mentions.ExtractAppend | src/services/api/commentsService.js:76-77 | extraction distributes over concatenation when the second part cannot continue a token: matches do not overlap and come out in textual order |
| Mentions.ExtractEmailExample | src/services/api/boardService.js:206-207 | no word boundary is required before `@`: `user@company.com` yields `company.com` |
| Mentions.ExtractTwoMentionsExample | src/services/api/boardService.js:206-207 | two mentions come out in order, and a trailing `.` is not captured |
| Mentions.ExtractTrim | src/services/api/commentsService.js:76-82 | trimming text never changes its mentions |
| Mentions.RenderCommentContentSpec | src/components/organisms/ItemDetailModal.jsx:162-167 | the rendering is the text with each extracted mention, `@` included, wrapped in a span; the mentions wrapped are exactly those extracted, in order |
| Mentions.RenderWithoutMentions | src/components/organisms/ItemDetailModal.jsx:162-167 | text without `@` renders unchanged |
| CommentsService.Seed | src/services/api/commentsService.js:2-47 | three seeded comments whose mentions are exactly those of their text, with the counter at 4 above every id |
| CommentsService.GetAll | src/services/api/commentsService.js:51-58 | exactly the item's comments, each as often as stored, oldest first |
| CommentsService.GetById | src/services/api/commentsService.js:61-69 | the first comment with the id, or comment-not-found exactly when there is none |
| CommentsService.Create | src/services/api/commentsService.js:72-96 | the comment takes the counter id and is appended last; its text is stored trimmed and its mentions are extracted from the text as sent; the store keeps mentions equal to extraction and ids below the counter |
| CommentsService.Update | src/services/api/commentsService.js:99-123 | an absent id is not-found and changes nothing; otherwise the first comment with the id is patched in place; non-empty new text re-derives the mentions, otherwise they are kept, and any mentions the caller passed are ignored |
| CommentsService.UpdateKeepsMentionsConsistent | src/services/api/commentsService.js:108-119 | an update that does not blank the text keeps every comment's mentions equal to its text's |
| CommentsService.UpdateToEmptyKeepsStaleMentions | src/services/api/commentsService.js:108-119 | blanking a seeded comment's text keeps its old mention, so the store no longer matches its texts |
| CommentsService.Delete | src/services/api/commentsService.js:126-136 | an absent id is not-found and changes nothing; otherwise exactly the first comment with the id is removed |
| CommentsService.Search | src/services/api/commentsService.js:195-213 | a blank query returns what `getAll` returns; otherwise the item's comments whose text or author name contains the query ignoring ASCII case, oldest first |
| CommentsService.SearchWithinGetAll | src/services/api/commentsService.js:195-213 | a search never returns a comment `getAll` would not |
| CommentsService.GetMentions | src/services/api/commentsService.js:216-222 | exactly the comments whose mentions include the username, newest first |
| CommentsService.GetMentionsByText | src/services/api/commentsService.js:216-222 | on a consistent store, a comment is found exactly when its text mentions the username |
| CommentsService.CreatedMentionIsFound | src/services/api/commentsService.js:72-96 | a comment created with `@username` of a directory member is found by that member's mentions query |
| CommentsService.GetTeamMembers | src/services/api/commentsService.js:139-192 | the same six members, in the same order, as the board service's directory, each with no avatar |
| Kanban.ItemStatus | src/components/organisms/KanbanBoard.jsx:37 | an item's column is its status, or `Not Started` when that is missing or empty |
| Kanban.AllCards | src/components/organisms/KanbanBoard.jsx:33-44 | one card per item, each tagged with the `Id` and title of the group holding it |
| Kanban.ItemsByStatus | src/components/organisms/KanbanBoard.jsx:33-44 | a card is in a column exactly when its item's status is that column |
| Kanban.ItemsByStatusInOrder | src/components/organisms/KanbanBoard.jsx:33-44 | a column keeps the board's group and item order |
| Kanban.CollectStatuses | src/components/organisms/KanbanBoard.jsx:18-28 | the five canonical statuses first, then each new non-empty status in order of first appearance, with no repeats |
| Kanban.StatusColumns | src/components/organisms/KanbanBoard.jsx:14-29 | without a status column, exactly `Not Started`, `In Progress`, `Done`; with one, the statuses collected over the board's items in group and item order |
| Kanban.StatusColumnsContents | src/components/organisms/KanbanBoard.jsx:18-28 | with a status column: the five canonical statuses first, no repeats, every non-empty status in use listed, and every further column some item's status |
| Kanban.EveryCardInOneBucket | src/components/organisms/KanbanBoard.jsx:14-44 | with a status column, every card falls in exactly one column |
| Kanban.UnlistedStatusHidden | src/components/organisms/KanbanBoard.jsx:15-16 | without a status column, an item whose status is none of the three fallbacks appears in no column |
| Kanban.KanbanShowsEveryItemOnce | src/components/organisms/KanbanBoard.jsx:14-44 | with a status column, the column sizes add up to the number of items |
| Kanban.HandleDrop | src/components/organisms/KanbanBoard.jsx:54-59 | with a dragged card and a handler, one `{status}` update for that card and the drag cleared; otherwise nothing |
| Kanban.AddCard | src/components/organisms/KanbanBoard.jsx:210-218 | asks for an item in the first group titled `New <status> Item` with that status; nothing without groups |
| Kanban.StatusColor | src/components/organisms/KanbanBoard.jsx:61-71 | the six known statuses map to their colours and any other to gray (the dialog's table at src/components/organisms/ItemDetailModal.jsx:169-179 is the same) |
| Kanban.CanonicalColors | src/components/organisms/ItemDetailModal.jsx:169-179 | the colours of the five canonical statuses, `Not Started` sharing gray with unknown statuses |
| Kanban.StatusColorIdentifies | src/components/organisms/KanbanBoard.jsx:61-71 | a colour other than gray names exactly one status; gray means `Not Started` or an unknown status; every canonical column after the first has a colour of its own |
| BoardView.FindTarget | src/components/pages/BoardView.jsx:62-68 | finds nothing exactly when no group holds the id; otherwise the first match in the last group that holds it, with that group's `Id` |
| BoardView.HandleUpdateItem | src/components/pages/BoardView.jsx:56-100 | an unknown id sends nothing; otherwise the target with `updates` spread over its column values is sent (named keys new, others kept), and only on success is every copy of the item replaced |
| BoardView.EmptyUpdatesKeepValues | src/components/pages/BoardView.jsx:73-79 | empty updates send the target unchanged |
| BoardView.UpdateReplacesEveryCopy | src/components/pages/BoardView.jsx:85-93 | after a successful update every item with the id is the edited item and every other item stays put |
| BoardView.HandleDeleteItem | src/components/pages/BoardView.jsx:102-120 | only after the service succeeds does every item with the id leave every group; every other item keeps its order and its number of copies |
| BoardView.AddItemValues | src/components/pages/BoardView.jsx:127-131 | the caller's defaults win over `text: New Item` and `status: Not Started` |
| BoardView.HandleAddItem | src/components/pages/BoardView.jsx:122-151 | the intended handler: the request has the time as position; on success the created item is appended once to every group with that `Id`, on failure nothing changes |
| BoardView.HandleAddItemAsWritten | src/components/pages/BoardView.jsx:122-151 | with the page's groups sharing item lists with the store: the first group with the `Id`, if still shared, gains the item twice, other groups with the `Id` once; those groups stop being shared and every other group is kept |
| BoardView.DuplicateOnFreshLoad | src/components/pages/BoardView.jsx:139-142 | on a freshly loaded board the first add to the first group shows the item twice as written, once as intended |
| BoardView.AsWrittenAgreesOnceRebuilt | src/components/pages/BoardView.jsx:139-142 | once no group with the `Id` shares the store's list, the written handler equals the intended one |
| BoardView.HasItemsIffCount | src/components/pages/BoardView.jsx:207 | the page has items exactly when the item count is positive |
| BoardView.AddFirstItem | src/components/pages/BoardView.jsx:266-271 | an item in the first group with no defaults; nothing without groups |
| BoardView.AddFirstItemMatchesAddCard | src/components/pages/BoardView.jsx:266-271 | the empty board's button asks for an item exactly when the kanban's "Add card" would, in the same group, with no fields where "Add card" passes a title and a status |
| AddItemHandler.Payload | src/components/pages/BoardViewHandlers.js:8-13 | title `New Item <now>`, status `Not Started` and `{}` unless non-empty values are given |
| AddItemHandler.PayloadOverridesServiceDefaults | src/components/pages/BoardViewHandlers.js:8-13 | the created item's title and status are the payload's, never empty |
| AddItemHandler.AppendToBoard | src/components/pages/BoardViewHandlers.js:16-29 | a missing board stays missing; the item is appended to the first group with the `Id` and `updatedAt` refreshed; with no such group the board is unchanged |
| AddItemHandler.Handle | src/components/pages/BoardViewHandlers.js:4-37 | the request's default title uses the click time; the setter runs exactly when the service returned an item, appending it with `updatedAt` set to the later time it returned; a failure leaves the board alone |
| AddItemHandler.HandleOnlyAppends | src/components/pages/BoardViewHandlers.js:16-29 | any one group keeps its items as a prefix and gains at most one |
| AddItemHandler.HandleChangesOneGroup | src/components/pages/BoardViewHandlers.js:16-29 | on success the board keeps its number of groups and at most one group differs from before |
| BoardList.PathFilter | src/components/pages/BoardList.jsx:40-46 | `/recent` and `/favorites` select their filter; any other path keeps the current one |
| BoardList.PathFilterSettles | src/components/pages/BoardList.jsx:40-46 | following a path twice gives what following it once does; on the two routed paths the result no longer depends on the previous filter, on any other path it still does |
| BoardList.FilteredBoards | src/components/pages/BoardList.jsx:79-103 | exactly the boards matching the search (name or description, ignoring case) and the filter (recent within a week, or favourite), each as often as held, ordered by the sort key |
| BoardList.OrdersArePreorders | src/components/pages/BoardList.jsx:93-103 | each sort key orders boards totally, given a total name order |
| BoardList.FilteredWithinBoards | src/components/pages/BoardList.jsx:79-103 | the list never shows more boards than it holds |
| BoardList.EmptySearchKeepsAll | src/components/pages/BoardList.jsx:79-90 | an empty search with the `all` filter shows every board |
| BoardList.CompletedCounter | src/components/pages/BoardList.jsx:224-229 | the Done items over every board, equal to the total of the boards' `Done` kanban columns |
| BoardList.InProgressCounter | src/components/pages/BoardList.jsx:246-251 | the In Progress items over every board, equal to the total of the boards' `In Progress` kanban columns |
| BoardList.GroupCountIsBucket | src/components/pages/BoardList.jsx:226-228 | for a non-empty status other than `Not Started`, a group's count is the size of its kanban bucket for that status |
| BoardList.BoardCountIsKanbanColumn | src/components/pages/BoardList.jsx:224-229 | for a non-empty status other than `Not Started`, a board's count is the size of that kanban column |
| BoardList.CountersMatchKanban | src/components/pages/BoardList.jsx:224-251 | Completed Tasks and In Progress equal the sizes of the `Done` and `In Progress` kanban columns over all boards |
| BoardList.CounterPrepend | src/components/pages/BoardList.jsx:224-229 | a board put in front adds its own count |
| BoardList.NewBoardTemplate | src/components/pages/BoardList.jsx:50-68 | four columns including a status column, and one empty group known only by its lower-case `id` |
| BoardList.HandleCreateBoard | src/components/pages/BoardList.jsx:48-77 | the created board is prepended; a failure leaves the list |
| BoardList.CreateBoardFlow | src/components/pages/BoardList.jsx:48-77 | creating from the template puts the same board first on the page and in the service, and leaves both counters |
| ItemDetail.Submit | src/components/organisms/ItemDetailModal.jsx:75-90 | a blank draft or one already in flight does nothing; otherwise the trimmed draft is sent, and the comment is appended and the draft cleared only on success; in-flight is cleared either way and no other field of the dialog changes |
| ItemDetail.SubmitRecordsDraftMentions | src/components/organisms/ItemDetailModal.jsx:75-90 | the appended comment's mentions are exactly those of the draft as typed |
| ItemDetail.DeleteComment | src/components/organisms/ItemDetailModal.jsx:92-102 | nothing without confirmation; once the service succeeds every comment with the id leaves, and every other comment keeps its order and its number of copies |
| ItemDetail.MentionTrigger | src/components/organisms/ItemDetailModal.jsx:112 | the unique position of `@` followed only by word characters to the end, or none exactly when no such position exists |
| ItemDetail.TextareaChange | src/components/organisms/ItemDetailModal.jsx:104-134 | the dropdown opens exactly when the text before the cursor ends in `@` and word characters, with those characters lower-cased as the query |
| ItemDetail.MentionSelect | src/components/organisms/ItemDetailModal.jsx:136-155 | the draft becomes text before the `@`, `@username `, text after the cursor, with the cursor after the space, and the dropdown closes with nothing else changed; without a trigger only the dropdown closes |
| ItemDetail.MentionSelectCursor | src/components/organisms/ItemDetailModal.jsx:143-148 | the new cursor splits the draft into the kept text with `@username ` and the old text after the cursor |
| ItemDetail.MentionSelectExtracts | src/components/organisms/ItemDetailModal.jsx:136-155 | a choice that is a mention token is read back by extraction between the mentions before and after it |
| ItemDetail.FilteredMembers | src/components/organisms/ItemDetailModal.jsx:157-160 | a member is kept exactly when its lower-cased name or username contains the query, in directory order |
| ItemDetail.EmptyQueryKeepsAll | src/components/organisms/ItemDetailModal.jsx:157-160 | an empty query keeps every member |
| ItemDetail.ShownMembers | src/components/organisms/ItemDetailModal.jsx:364-377 | while the dropdown is open, exactly the first six matches, or all of them when there are fewer; nothing while it is closed |
| ItemDetail.PriorityColor | src/components/organisms/ItemDetailModal.jsx:246 | `High` is red, `Medium` orange, anything else gray |
| ItemDetail.PriorityColorIdentifies | src/components/organisms/ItemDetailModal.jsx:246 | the colour tells `High` and `Medium` apart from each other and from every other priority, in the status pill's red and orange |
| ItemDetail.CommentAvatar | src/components/organisms/ItemDetailModal.jsx:290 | the avatar beside a comment is the one its author's name alone would get, when the name is not empty |
| ItemDetail.MemberAvatar | src/components/organisms/ItemDetailModal.jsx:384 | the avatar beside a dropdown member is the one the member's name alone would get, on one of the six colours |
| ItemDetail.CommentAvatarThrowsAsWritten | src/components/organisms/ItemDetailModal.jsx:290 | as written, the author record passed to the avatar makes it fail, where the corrected avatar draws a badge |
| PersonAvatar.SplitOn | src/components/atoms/PersonAvatar.jsx:17 | the parts joined by the separator give back the name, and no part holds the separator |
| PersonAvatar.FirstCharsAreWordStarts | src/components/atoms/PersonAvatar.jsx:15-22 | the first characters of the space-separated parts are exactly the characters that start a word |
| PersonAvatar.Initials | src/components/atoms/PersonAvatar.jsx:15-22 | the first two word starts, upper-cased, or fewer when the name has fewer words |
| PersonAvatar.TwoWordInitials | src/components/atoms/PersonAvatar.jsx:15-22 | `First Last` gives the two capitals |
| PersonAvatar.HashStepIsTimes31 | src/components/atoms/PersonAvatar.jsx:34-37 | one step of the shift-and-subtract reducer is `31h + code` wrapped to 32 bits |
| PersonAvatar.HashIsWrappedPoly | src/components/atoms/PersonAvatar.jsx:34-37 | the hash is the base-31 polynomial of the character codes wrapped to 32 bits once |
| PersonAvatar.ColorIndex | src/components/atoms/PersonAvatar.jsx:39 | the index is within the six colours for every name, the most negative hash included |
| PersonAvatar.AvatarColor | src/components/atoms/PersonAvatar.jsx:24-40 | one of the six gradients, chosen by the wrapped polynomial alone |
| PersonAvatar.SameColorWhenCongruent | src/components/atoms/PersonAvatar.jsx:24-40 | names whose polynomials agree modulo 2^32 get the same colour |
| PersonAvatar.Render | src/components/atoms/PersonAvatar.jsx:42-62 | an absent or empty name gets the `?` placeholder; otherwise the initials on the name's colour |
| PersonAvatar.RenderAsWritten | src/components/atoms/PersonAvatar.jsx:15-62 | a name renders as `Render` does; a record is truthy and reaches `name.split`, which fails |
| PersonAvatar.RenderPersonExtendsAsWritten | src/components/atoms/PersonAvatar.jsx:15-62 | the corrected avatar never fails, agrees with the written one wherever that one succeeds, and draws a record with a non-empty name as its name alone |
| PersonAvatar.RenderPerson | src/components/atoms/PersonAvatar.jsx:42-62 | the corrected avatar: nothing gives the placeholder, a record always gets a badge |
| PersonAvatar.RecordThrowsAsWritten | src/components/atoms/PersonAvatar.jsx:15-62 | every record fails as written and gets a badge when corrected |
| Sidebar.ToggleSection | src/components/organisms/Sidebar.jsx:60-66 | an expanded section loses every copy, and every other section keeps its order and its number of copies; a collapsed one is appended |
| Sidebar.ToggleTwiceRestoresAbsent | src/components/organisms/Sidebar.jsx:60-66 | toggling a collapsed section twice gives back the same list |
| Sidebar.ToggleTwiceRestoresMembership | src/components/organisms/Sidebar.jsx:60-66 | toggling any section twice restores which sections are expanded |
| Sidebar.InitialToggles | src/components/organisms/Sidebar.jsx:58 | only the workspace starts open: its toggle empties the list, and any other section opens after it |
| Sidebar.HandleCreateBoard | src/components/organisms/Sidebar.jsx:14-56 | a press in flight does nothing; otherwise the template is sent, a throw, a missing result or a zero `Id` is reported without navigating, and a board with an `Id` opens `/board/<Id>`; in-flight is cleared |
| Sidebar.CreateOpensNewBoard | src/components/organisms/Sidebar.jsx:39-48 | with the service, the press opens the new board's page, and the route's number reads back as its `Id` |
| BoardTable.CellClick | src/components/organisms/BoardTable.jsx:16-19 | the editor opens on that item and column with the shown value |
| BoardTable.Save | src/components/organisms/BoardTable.jsx:21-29 | one update with the single key `columnId` set to the editor's text, exactly when a cell is being edited and a handler exists; the editor is cleared in every case |
| BoardTable.Cancel | src/components/organisms/BoardTable.jsx:31-34 | the editor is cleared and nothing is sent |
| BoardTable.EscapeDiscardsEdit | src/components/organisms/BoardTable.jsx:21-34 | after a click and typing, cancelling leaves the editor exactly as saving does, but saving sends the typed text for that cell |
| BoardTable.KeyDown | src/components/organisms/BoardTable.jsx:36-42 | Enter saves, Escape cancels, any other key changes nothing |
| BoardTable.EditThenEnterUpdatesCell | src/components/organisms/BoardTable.jsx:16-42 | edit, type and Enter, through the page, set that column of every copy of the item to the typed text and keep its other columns |
| BoardTable.ShownValue | src/components/organisms/BoardTable.jsx:46 | the stored column value, or empty when the key is missing |
| BoardTable.RenderCell | src/components/organisms/BoardTable.jsx:44-123 | the editor exactly on the edited cell; otherwise an empty status reads `Not Started`, an empty number `0`, an empty person the placeholder, an empty date the prompt |
| BoardTable.ClickOpensEditor | src/components/organisms/BoardTable.jsx:16-19 | after a click the clicked cell renders as the editor holding its shown value |
| BoardTable.ColumnIcon | src/components/organisms/BoardTable.jsx:125-134 | each column type's icon, `Minus` for any other |
| BoardTable.ColumnIconIdentifies | src/components/organisms/BoardTable.jsx:125-134 | each known type has an icon of its own, and `Minus` marks exactly the unknown types |
| BoardTable.ColumnWidth | src/components/organisms/BoardTable.jsx:149-155 | status 160px, person 150px, date 130px, numbers 100px, any other 1fr |
| BoardTable.GridTemplate | src/components/organisms/BoardTable.jsx:149-155 | `1fr` without columns, otherwise the widths joined by spaces |
| BoardTable.GridTemplateTracks | src/components/organisms/BoardTable.jsx:149-155 | splitting the template on spaces gives back one width per column, in order |
| BoardTable.AddRowDefaults | src/components/organisms/BoardTable.jsx:278-281 | a timestamped title and status `Not Started` |
| BoardTable.AddRowCreatesItem | src/components/organisms/BoardTable.jsx:278-281 | through the page and the service, the row's title and status land in the item's column values beside `text`, and the item's own title and status are the service defaults |
| Flows.DropMovesCard | src/components/organisms/KanbanBoard.jsx:54-59 | a drop followed by a successful page update gives every copy of the item the column's status |
| Flows.AddCardLandsInColumn | src/components/organisms/KanbanBoard.jsx:210-218 | a card added to a column, once created, ends the first group and sits in that column |

## Findings

| source | as written | input that shows it | evidently intended | confidence | as-written member | corrected member |
|---|---|---|---|---|---|---|
| src/components/organisms/ItemDetailModal.jsx:290 | the comment's author record is passed as `person`, and the avatar calls `split` on it | any comment, for example one by the author record named `Alex Thompson` | the avatar is drawn from the author's `name` | not executed | ItemDetail.CommentAvatarThrowsAsWritten | ItemDetail.CommentAvatar |
| src/components/organisms/ItemDetailModal.jsx:384 | each dropdown member record is passed as `person`, and the avatar calls `split` on it | typing `@` with the directory loaded, for example the member record `Sarah Chen` | the avatar is drawn from the member's `name` | not executed | PersonAvatar.RecordThrowsAsWritten | ItemDetail.MemberAvatar |
| src/components/pages/BoardView.jsx:139-142 | the page's board is the shallow copy `getById` returns, so an unrebuilt group shares its item list with the store; `createItem` pushes the new item into that list and the handler appends it again | load a board, press "Add First Item" (or "Add item" on the first group) | the item appears once | not executed | BoardView.DuplicateOnFreshLoad | BoardView.HandleAddItem |

## Left out

- **Delays and scheduling.** Network delays, `setTimeout`, and async scheduling between calls are not modelled: each service call is one atomic step.
- **Toasts, rendering and routing.** Toasts, React rendering and animation, focus, and router wiring are out. Navigation is a returned path.
- **The seed boards.** The board seed file is not part of this model. `BoardService.Init` takes the seed boards as a parameter and requires at least one, which is what `Math.max` needs to produce a finite counter.
- **Clocks and randomness.** They are parameters, and time is an integer of milliseconds.
  - ISO and `Date` values are not modelled as text.
  - "Recent" compares `updatedAt` with `now` minus seven days of milliseconds. A calendar-day step across a daylight-saving change is not modelled.
  - The seed comment times are read as UTC, not local time.
- **`parseInt` on ids.** `CommentsService` ids and item ids are integers already. Parsing strings and NaN are not modelled.
- **`localeCompare`.** It is an arbitrary total preorder passed in.
- **Sort stability.** The model's sort is an insertion sort that is also stable, but stability is not proved. Only permutation and order are stated.
- **Case and characters.** `toLowerCase`/`toUpperCase` are ASCII-only, and characters stand for UTF-16 code units. Characters outside the Basic Multilingual Plane, and case mappings that change length, are not modelled.
- **Aliasing.** Apart from the board page's groups sharing item lists with the store, which `BoardView.HandleAddItemAsWritten` models, JavaScript object aliasing is not modelled, for example `BoardViewHandlers` mutating a group shared with the previous state. Every other update builds a new value.
- **Service field spreads.** The service's own spreads of caller objects are modelled field by field:
  - an item request never carries an `Id`;
  - a board draft carries no `Id`;
  - an absent `favorite` is `false`.
- **`handleItemUpdate` in BoardView.jsx.** It maps over a `board.items` field that boards do not have, so it is not modelled.
- **Autocomplete pixel position.** The position arithmetic for the dropdown is not modelled.
- **Date formatting.** Table dates are shown as stored; `date-fns` formatting is not modelled.
- **Avatar size classes.** The size lookup is styling only.
- **Group header count.** The item count in the table's group header is the same count as `Kanban.CountItems`.
- **Other files.** The header, cards, search bar debounce, empty/loading/error screens and styling components are not part of this model.
- BoardList.GroupCountIsBucket: proved only for a non-empty status other than `Not Started`. For `Not Started` the kanban bucket also takes items with no status, which the counters' exact comparison does not count.
- Kanban.StatusColor: the table is a plain object, so a status naming an inherited member (`constructor`, `toString`, `__proto__` and the like) returns that member rather than gray; the model treats every status outside the six keys as gray, because statuses are user text that is not expected to name object members.

=== FILE: add_item_handler.dfy ===
/** The alternative add-item handler the board page can build: it fills in
    every field of the request itself, and after the service answers it
    appends the new item to the first group with the requested `Id`. */
module AddItemHandler {
  import opened Wrappers
  import opened Text
  import opened Seqs
  import opened BoardModel
  import BoardService

  /** What a caller may pass; `None` is an absent (or `undefined`) field. */
  datatype ItemInput = ItemInput(title: Option<string>, status: Option<string>, columnValues: Option<ColumnValues>)

  /** `x || fallback` on an optional string: absent and empty are falsy. */
  function OrElse(x: Option<string>, fallback: string): (r: string)
    ensures x.Some? && x.value != "" ==> r == x.value
    ensures x.None? || x.value == "" ==> r == fallback
  {
    if x.Some? && x.value != "" then x.value else fallback
  }

  /** The request sent to the service: a title (`New Item <now>` unless a
      non-empty one was given), a status (`Not Started` unless a non-empty
      one was given) and the column values (an empty map unless given; a map
      is never falsy). */
  function Payload(groupId: Option<int>, input: ItemInput, now: int): (d: BoardService.ItemData)
    ensures d.groupId == groupId && d.position.None?
    ensures d.title.Some? && d.status.Some? && d.columnValues.Some?
    ensures input.title.None? || input.title.value == "" ==> d.title.value == "New Item " + IntToString(now)
    ensures input.title.Some? && input.title.value != "" ==> d.title.value == input.title.value
    ensures input.status.None? || input.status.value == "" ==> d.status.value == "Not Started"
    ensures input.status.Some? && input.status.value != "" ==> d.status.value == input.status.value
    ensures d.columnValues.value == (if input.columnValues.Some? then input.columnValues.value else map[])
  {
    BoardService.ItemData(groupId, Some(OrElse(input.title, "New Item " + IntToString(now))),
                          Some(OrElse(input.status, "Not Started")),
                          Some(input.columnValues.GetOr(map[])), None)
  }

  /** Because the request names every defaulted field, the service's own
      defaults never apply: the created item's title and status are never
      empty. */
  lemma PayloadOverridesServiceDefaults(st: BoardService.Store, groupId: Option<int>, input: ItemInput, now: int, at: int)
    ensures var rep := BoardService.CreateItem(st, Payload(groupId, input, now), at);
            rep.result.Success? ==>
              && rep.result.value.title == Payload(groupId, input, now).title.value
              && rep.result.value.status == Payload(groupId, input, now).status.value
              && rep.result.value.title != "" && rep.result.value.status != ""
  {
  }

  /** `groups.find(g => g.Id === groupId)`, as an index. */
  function FindGroup(groups: seq<Group>, groupId: Option<int>): (r: Option<nat>)
    ensures r.Some? ==> r.value < |groups| && groups[r.value].Id == groupId
                        && forall j :: 0 <= j < r.value ==> groups[j].Id != groupId
    ensures r.None? <==> forall j :: 0 <= j < |groups| ==> groups[j].Id != groupId
  {
    FindIndex(groups, (g: Group) => g.Id == groupId)
  }

  /** The state-setter's update: a missing board stays missing; otherwise
      the item is appended to the first group with that `Id` and the board's
      `updatedAt` is refreshed, or, with no such group, the board is kept. */
  function AppendToBoard(prev: Option<Board>, groupId: Option<int>, created: Item, now: int): (next: Option<Board>)
    ensures prev.None? ==> next.None?
    ensures prev.Some? ==> next.Some?
    ensures prev.Some? && FindGroup(prev.value.groups, groupId).None? ==> next == prev
    ensures prev.Some? && FindGroup(prev.value.groups, groupId).Some? ==>
              var b := prev.value;
              var k := FindGroup(b.groups, groupId).value;
              && next.value.updatedAt == now
              && next.value == b.(groups := next.value.groups, updatedAt := now)
              && |next.value.groups| == |b.groups|
              && next.value.groups[k] == b.groups[k].(items := b.groups[k].items + [created])
              && forall j :: 0 <= j < |b.groups| && j != k ==> next.value.groups[j] == b.groups[j]
  {
    match prev
    case None => None
    case Some(b) =>
      match FindGroup(b.groups, groupId)
      case None => Some(b)
      case Some(k) =>
        Some(b.(groups := b.groups[k := b.groups[k].(items := b.groups[k].items + [created])], updatedAt := now))
  }

  /** What the handler leaves: the request it sent, whether it called the
      state setter, and the page's board afterwards. */
  datatype Run = Run(request: BoardService.ItemData, setterCalled: bool, board: Option<Board>)

  /** The handler returned by `createAddItemHandler`: one request, whose
      default title reads the clock at `clickTime` before the service is
      awaited; the state setter runs only when the service returned an item,
      and stamps the board with the later reading `at`. */
  function Handle(prev: Option<Board>, groupId: Option<int>, input: ItemInput, clickTime: int, at: int,
                  created: Result<Item, Error>): (r: Run)
    ensures r.request == Payload(groupId, input, clickTime)
    ensures r.setterCalled <==> created.Success?
    ensures created.Failure? ==> r.board == prev
    ensures created.Success? ==> r.board == AppendToBoard(prev, groupId, created.value, at)
  {
    match created
    case Failure(_) => Run(Payload(groupId, input, clickTime), false, prev)
    case Success(it) => Run(Payload(groupId, input, clickTime), true, AppendToBoard(prev, groupId, it, at))
  }

  /** Per group, the handler only ever adds: the group keeps its items as a
      prefix and gains at most one. */
  lemma HandleOnlyAppends(b: Board, groupId: Option<int>, input: ItemInput, clickTime: int, at: int,
                          created: Result<Item, Error>, j: nat)
    requires j < |b.groups|
    ensures var r := Handle(Some(b), groupId, input, clickTime, at, created);
            && r.board.Some? && |r.board.value.groups| == |b.groups|
            && |r.board.value.groups[j].items| >= |b.groups[j].items|
            && r.board.value.groups[j].items[..|b.groups[j].items|] == b.groups[j].items
            && |r.board.value.groups[j].items| <= |b.groups[j].items| + 1
  {
    var r := Handle(Some(b), groupId, input, clickTime, at, created);
    var items := r.board.value.groups[j].items;
    if |items| > |b.groups[j].items| {
      assert items == b.groups[j].items + [created.value];
    }
  }

  /** Of any two groups at least one is left as it was, so with the lemma
      above at most one item is added to the whole board. */
  lemma HandleChangesOneGroup(b: Board, groupId: Option<int>, input: ItemInput, clickTime: int, at: int,
                              created: Result<Item, Error>)
    ensures var r := Handle(Some(b), groupId, input, clickTime, at, created);
            && r.board.Some? && |r.board.value.groups| == |b.groups|
            && forall j1, j2 :: 0 <= j1 < j2 < |b.groups| ==>
                 r.board.value.groups[j1] == b.groups[j1] || r.board.value.groups[j2] == b.groups[j2]
  {
  }
}

=== FILE: board_list.dfy ===
/** The board list page: the search, filter and sort it applies to the
    boards, its two task counters, the filter a path selects, and the board
    it creates. */
module BoardList {
  import opened Wrappers
  import opened Text
  import opened Seqs
  import opened BoardModel
  import BoardService
  import Kanban

  datatype ListFilter = AllBoards | Recent | Favorites

  datatype SortKey = ByName | ByCreated | ByUpdated

  /** The effect on the path: `/recent` and `/favorites` select their filter;
      any other path keeps the current one. */
  function PathFilter(path: string, current: ListFilter): (f: ListFilter)
    ensures path == "/recent" ==> f == Recent
    ensures path == "/favorites" ==> f == Favorites
    ensures path != "/recent" && path != "/favorites" ==> f == current
  {
    if path == "/recent" then Recent
    else if path == "/favorites" then Favorites
    else current
  }

  /** Following the same path twice settles on the first answer, and on the
      two routed paths the filter no longer depends on what was selected
      before. */
  lemma PathFilterSettles(path: string, current: ListFilter, other: ListFilter)
    ensures PathFilter(path, PathFilter(path, current)) == PathFilter(path, current)
    ensures path == "/recent" || path == "/favorites" ==> PathFilter(path, current) == PathFilter(path, other)
    ensures path != "/recent" && path != "/favorites" && current != other ==>
              PathFilter(path, current) != PathFilter(path, other)
  {
  }

  const WeekMs: int := 7 * 24 * 60 * 60 * 1000

  /** The name or the description contains the term, ignoring ASCII case. */
  predicate MatchesSearch(b: Board, term: string) {
    Contains(Lower(b.name), Lower(term)) || Contains(Lower(b.description), Lower(term))
  }

  /** Whether the list keeps a board. */
  predicate Keeps(b: Board, term: string, filter: ListFilter, now: int) {
    MatchesSearch(b, term) &&
    match filter
    case AllBoards => true
    case Recent => b.updatedAt > now - WeekMs
    case Favorites => b.favorite
  }

  /** The comparator of each sort key, as "may come first": `localeCompare`
      is the parameter `nameLe`; dates sort newest first. */
  function Order(key: SortKey, nameLe: (string, string) -> bool): (Board, Board) -> bool {
    match key
    case ByName => (a: Board, b: Board) => nameLe(a.name, b.name)
    case ByCreated => (a: Board, b: Board) => b.createdAt <= a.createdAt
    case ByUpdated => (a: Board, b: Board) => b.updatedAt <= a.updatedAt
  }

  lemma OrdersArePreorders(key: SortKey, nameLe: (string, string) -> bool)
    requires TotalPreorder(nameLe)
    ensures TotalPreorder(Order(key, nameLe))
  {
    var le := Order(key, nameLe);
    if key == ByName {
      forall a: Board, b: Board, c: Board | le(a, b) && le(b, c)
        ensures le(a, c)
      {
        assert nameLe(a.name, b.name) && nameLe(b.name, c.name);
      }
      forall a: Board, b: Board
        ensures le(a, b) || le(b, a)
      {
        assert nameLe(a.name, b.name) || nameLe(b.name, a.name);
      }
    }
  }

  /** `filteredBoards`: the boards the search and filter keep, each as often
      as in the input, ordered by the sort key. */
  function FilteredBoards(boards: seq<Board>, term: string, filter: ListFilter, key: SortKey, now: int,
                          nameLe: (string, string) -> bool): (r: seq<Board>)
    requires TotalPreorder(nameLe)
    ensures forall b :: multiset(r)[b] == if Keeps(b, term, filter, now) then multiset(boards)[b] else 0
    ensures SortedBy(r, Order(key, nameLe))
  {
    OrdersArePreorders(key, nameLe);
    var kept := Filter(boards, (b: Board) => Keeps(b, term, filter, now));
    var r := SortBy(kept, Order(key, nameLe));
    forall b
      ensures multiset(r)[b] == if Keeps(b, term, filter, now) then multiset(boards)[b] else 0
    {
      FilterMultiplicity(boards, (b: Board) => Keeps(b, term, filter, now), b);
    }
    r
  }

  /** The list never shows a board the page does not hold, nor one more
      often. */
  lemma FilteredWithinBoards(boards: seq<Board>, term: string, filter: ListFilter, key: SortKey, now: int,
                             nameLe: (string, string) -> bool)
    requires TotalPreorder(nameLe)
    ensures multiset(FilteredBoards(boards, term, filter, key, now, nameLe)) <= multiset(boards)
    ensures |FilteredBoards(boards, term, filter, key, now, nameLe)| <= |boards|
  {
    var r := FilteredBoards(boards, term, filter, key, now, nameLe);
    assert multiset(r) <= multiset(boards);
    assert |multiset(r)| <= |multiset(boards)| by {
      MultisetSubsetCard(multiset(r), multiset(boards));
    }
  }

  lemma MultisetSubsetCard<T>(a: multiset<T>, b: multiset<T>)
    requires a <= b
    ensures |a| <= |b|
  {
    assert b == a + (b - a);
  }

  /** The empty string occurs in every string. */
  lemma ContainsEmpty(s: string)
    ensures Contains(s, "")
  {
    assert IsPrefix("", s);
  }

  /** An empty search with the "all" filter shows every board: the result
      is a reordering of the input. */
  lemma EmptySearchKeepsAll(boards: seq<Board>, key: SortKey, now: int, nameLe: (string, string) -> bool)
    requires TotalPreorder(nameLe)
    ensures multiset(FilteredBoards(boards, "", AllBoards, key, now, nameLe)) == multiset(boards)
  {
    var r := FilteredBoards(boards, "", AllBoards, key, now, nameLe);
    forall b
      ensures multiset(r)[b] == multiset(boards)[b]
    {
      ContainsEmpty(Lower(b.name));
      assert Lower("") == "";
      assert Keeps(b, "", AllBoards, now);
    }
    assert multiset(r) == multiset(boards);
  }

  /** The items of one group whose `columnValues.status` is exactly `status`. */
  function GroupCount(g: Group, status: string): nat {
    |Filter(g.items, (it: Item) => Kanban.RawStatus(it) == status)|
  }

  function BoardCount(groups: seq<Group>, status: string): nat
    decreases |groups|
  {
    if |groups| == 0 then 0 else GroupCount(groups[0], status) + BoardCount(groups[1..], status)
  }

  /** The counters: over every board and group, the items whose status is
      exactly `status` (`Done` for Completed Tasks, `In Progress` for In
      Progress). */
  function StatusCounter(boards: seq<Board>, status: string): nat
    decreases |boards|
  {
    if |boards| == 0 then 0 else BoardCount(boards[0].groups, status) + StatusCounter(boards[1..], status)
  }

  /** "Completed Tasks": the Done items over every board, which is the
      total of the boards' Done kanban columns. */
  function CompletedCounter(boards: seq<Board>): (n: nat)
    ensures n == KanbanColumnTotal(boards, "Done")
  {
    CountersMatchKanban(boards, "Done");
    StatusCounter(boards, "Done")
  }

  /** "In Progress": the In Progress items over every board, which is the
      total of the boards' In Progress kanban columns. */
  function InProgressCounter(boards: seq<Board>): (n: nat)
    ensures n == KanbanColumnTotal(boards, "In Progress")
  {
    CountersMatchKanban(boards, "In Progress");
    StatusCounter(boards, "In Progress")
  }

  /** A group's count is the size of its slice of the kanban bucket, for
      any status but "Not Started", whose bucket also takes the items
      without a status. */
  lemma {:induction false} GroupCountIsBucket(g: Group, status: string)
    requires status != "" && status != Kanban.NotStarted
    ensures GroupCount(g, status) == |Kanban.Bucket(Kanban.GroupCards(g), status)|
    decreases |g.items|
  {
    if |g.items| > 0 {
      var g' := g.(items := g.items[1..]);
      GroupCountIsBucket(g', status);
      var cs := Kanban.GroupCards(g);
      assert cs[1..] == Kanban.GroupCards(g');
      assert g'.items == g.items[1..];
      assert cs[0].item == g.items[0];
      assert Kanban.RawStatus(g.items[0]) == status <==> Kanban.ItemStatus(g.items[0]) == status;
      assert Kanban.InBucket(cs[0], status) <==> Kanban.ItemStatus(g.items[0]) == status;
    }
  }

  /** For a non-empty status other than "Not Started", a board's count is
      the size of that status's kanban column. */
  lemma {:induction false} BoardCountIsKanbanColumn(groups: seq<Group>, status: string)
    requires status != "" && status != Kanban.NotStarted
    ensures BoardCount(groups, status) == |Kanban.ItemsByStatus(groups, status)|
    decreases |groups|
  {
    if |groups| > 0 {
      GroupCountIsBucket(groups[0], status);
      BoardCountIsKanbanColumn(groups[1..], status);
    }
  }

  /** The sizes of one kanban column summed over the boards. */
  function KanbanColumnTotal(boards: seq<Board>, status: string): nat
    decreases |boards|
  {
    if |boards| == 0 then 0
    else |Kanban.ItemsByStatus(boards[0].groups, status)| + KanbanColumnTotal(boards[1..], status)
  }

  /** Each counter equals the size of the matching kanban column summed over
      all boards: Completed Tasks counts the Done columns, In Progress the In
      Progress columns. */
  lemma {:induction false} CountersMatchKanban(boards: seq<Board>, status: string)
    requires status == "Done" || status == "In Progress"
    ensures StatusCounter(boards, status) == KanbanColumnTotal(boards, status)
    decreases |boards|
  {
    if |boards| > 0 {
      BoardCountIsKanbanColumn(boards[0].groups, status);
      CountersMatchKanban(boards[1..], status);
    }
  }

  /** The counters add over concatenation: a board prepended adds its own
      count. */
  lemma CounterPrepend(b: Board, boards: seq<Board>, status: string)
    ensures StatusCounter([b] + boards, status) == BoardCount(b.groups, status) + StatusCounter(boards, status)
  {
    assert ([b] + boards)[1..] == boards;
  }

  /** The board `handleCreateBoard` asks for: four columns (item, status,
      person, date, of the types text, status, person and date) and one
      empty group identified only by the lower-case `id`. */
  function NewBoardTemplate(): (d: BoardService.BoardDraft)
    ensures |d.columns| == 4 && |d.groups| == 1
    ensures Kanban.HasStatusColumn(d.columns)
    ensures d.groups[0].Id.None? && d.groups[0].id == Some("group1") && d.groups[0].items == []
    ensures !d.favorite
  {
    BoardService.BoardDraft(
      "New Board", "A fresh board ready for your next project",
      [ Column("item", "Item", "text", 200), Column("status", "Status", "status", 150),
        Column("person", "Person", "person", 150), Column("date", "Due Date", "date", 130) ],
      [ Group(None, Some("group1"), "New Group", "#0073ea", false, []) ],
      false)
  }

  /** `handleCreateBoard`: the created board goes to the front of the page's
      list; a failure leaves the list alone. */
  function HandleCreateBoard(boards: seq<Board>, created: Result<Board, Error>): (r: seq<Board>)
    ensures created.Success? ==> |r| == |boards| + 1 && r[0] == created.value && r[1..] == boards
    ensures created.Failure? ==> r == boards
  {
    match created
    case Success(b) =>
      assert ([b] + boards)[1..] == boards;
      [b] + boards
    case Failure(_) => boards
  }

  /** Creating a board from the template, on the service and then on the
      page, puts the same new board first in both lists, and leaves both
      counters unchanged. */
  lemma CreateBoardFlow(st: BoardService.Store, now: int)
    ensures var rep := BoardService.Create(st, NewBoardTemplate(), now);
            var page := HandleCreateBoard(st.boards, rep.result);
            && page == rep.store.boards
            && page[0].name == "New Board"
            && CompletedCounter(page) == CompletedCounter(st.boards)
            && InProgressCounter(page) == InProgressCounter(st.boards)
  {
    var rep := BoardService.Create(st, NewBoardTemplate(), now);
    var b := rep.result.value;
    CounterPrepend(b, st.boards, "Done");
    CounterPrepend(b, st.boards, "In Progress");
    assert b.groups == NewBoardTemplate().groups;
    assert BoardCount(b.groups[1..], "Done") == 0;
    assert GroupCount(b.groups[0], "Done") == 0;
    assert GroupCount(b.groups[0], "In Progress") == 0;
    assert BoardCount(b.groups[1..], "In Progress") == 0;
  }
}

=== FILE: board_model.dfy ===
/** The records the application keeps in memory: boards holding groups
    holding items, comments, and the team directory. Field names follow the
    JavaScript objects, including their inconsistent case: boards, groups,
    items and comments carry a capitalised `Id`, while the group of a
    freshly created board only has a lower-case `id`. Timestamps are
    milliseconds since the epoch; column values are kept as strings. */
module BoardModel {
  import opened Wrappers

  type ColumnValues = map<string, string>

  /** A column of the board schema. The source calls `kind` `type`, which is
      a reserved word here. */
  datatype Column = Column(id: string, title: string, kind: string, width: int)

  datatype Item = Item(
    Id: int,
    groupId: Option<int>,
    title: string,
    status: string,
    columnValues: ColumnValues,
    position: Option<int>,
    createdAt: int,
    updatedAt: int)

  /** A group; `Id` is absent for the group of the new-board template, which
      only sets the lower-case `id`. */
  datatype Group = Group(
    Id: Option<int>,
    id: Option<string>,
    title: string,
    color: string,
    collapsed: bool,
    items: seq<Item>)

  datatype Board = Board(
    Id: int,
    name: string,
    description: string,
    columns: seq<Column>,
    groups: seq<Group>,
    favorite: bool,
    createdAt: int,
    updatedAt: int)

  datatype Author = Author(Id: int, name: string, email: string, avatar: Option<string>)

  datatype Comment = Comment(
    Id: int,
    itemId: int,
    content: string,
    author: Author,
    mentions: seq<string>,
    createdAt: int,
    updatedAt: int)

  datatype TeamMember = TeamMember(Id: int, name: string, username: string, email: string)

  /** The errors the services throw. */
  datatype Error =
    | BoardNotFound(boardId: int)
    | GroupNotFound
    | ItemNotFound(itemId: int)
    | CommentNotFound(commentId: int)

  /** Some group of the list has an item with this `Id`. */
  predicate GroupsHaveItem(groups: seq<Group>, itemId: int) {
    exists g, it :: g in groups && it in g.items && it.Id == itemId
  }

  predicate HasItemId(items: seq<Item>, itemId: int) {
    exists it :: it in items && it.Id == itemId
  }
}

=== FILE: board_service.dfy ===
/** The in-memory board service: a list of boards plus two id counters.
    Every call is one atomic step from a store to a reply; a thrown error
    is a `Failure` in the reply. The simulated network delay and the clock
    are not modelled: the current time is the parameter `now`. */
module BoardService {
  import opened Wrappers
  import opened Text
  import opened Seqs
  import opened Mentions
  import opened BoardModel

  datatype Store = Store(boards: seq<Board>, nextId: int, nextItemId: int)

  /** What a call leaves behind: the store afterwards and its result. */
  datatype Reply<T> = Reply(store: Store, result: Result<T, Error>)

  /** Item ids start here, above the ids of the seed data. */
  const FirstItemId: int := 100

  function MaxBoardId(bs: seq<Board>): (m: int)
    requires |bs| > 0
    ensures forall i :: 0 <= i < |bs| ==> bs[i].Id <= m
    ensures exists i :: 0 <= i < |bs| && bs[i].Id == m
    decreases |bs|
  {
    if |bs| == 1 then bs[0].Id
    else
      var m := MaxBoardId(bs[1..]);
      if bs[0].Id >= m then bs[0].Id else m
  }

  /** Every board id is below the board counter, so the next board created
      gets a fresh id. */
  ghost predicate IdsBelowCounter(st: Store) {
    forall i :: 0 <= i < |st.boards| ==> st.boards[i].Id < st.nextId
  }

  /** The constructor: the seed boards, the board counter one above the
      largest seed id, the item counter at 100. */
  function Init(seed: seq<Board>): (st: Store)
    requires |seed| > 0
    ensures st.boards == seed && st.nextItemId == FirstItemId
    ensures IdsBelowCounter(st)
    ensures exists i :: 0 <= i < |seed| && seed[i].Id == st.nextId - 1
  {
    Store(seed, MaxBoardId(seed) + 1, FirstItemId)
  }

  /** The index of the first board with this id. */
  function FindBoard(bs: seq<Board>, id: int): (r: Option<nat>)
    ensures r.Some? ==> r.value < |bs| && bs[r.value].Id == id
    ensures r.Some? ==> forall j :: 0 <= j < r.value ==> bs[j].Id != id
    ensures r.None? <==> forall j :: 0 <= j < |bs| ==> bs[j].Id != id
  {
    FindIndex(bs, (b: Board) => b.Id == id)
  }

  function GetAll(st: Store): seq<Board> {
    st.boards
  }

  /** `getAll` lists exactly the boards `getById` can find, and after
      `create` it lists the new board first with the earlier ones after it
      in their order. */
  lemma GetAllPartners(st: Store, id: int, draft: BoardDraft, now: int)
    ensures GetById(st, id).Success? <==> exists i :: 0 <= i < |GetAll(st)| && GetAll(st)[i].Id == id
    ensures GetById(st, id).Success? ==> GetById(st, id).value in GetAll(st)
    ensures var rep := Create(st, draft, now);
            GetAll(rep.store) == [rep.result.value] + GetAll(st)
  {
    var all := GetAll(st);
    assert all == st.boards;
    if GetById(st, id).Success? {
      var i :| 0 <= i < |st.boards| && st.boards[i].Id == id;
      assert all[i].Id == id;
    }
    var rep := Create(st, draft, now);
    assert rep.store.boards == [rep.store.boards[0]] + rep.store.boards[1..];
  }

  /** `getById`: the first board with that id, or not-found. */
  function GetById(st: Store, id: int): (r: Result<Board, Error>)
    ensures r.Success? <==> exists i :: 0 <= i < |st.boards| && st.boards[i].Id == id
    ensures r.Success? ==> exists i :: 0 <= i < |st.boards| && st.boards[i] == r.value && r.value.Id == id
                                       && forall j :: 0 <= j < i ==> st.boards[j].Id != id
    ensures r.Failure? ==> r.error == BoardNotFound(id)
  {
    match FindBoard(st.boards, id)
    case None => Failure(BoardNotFound(id))
    case Some(i) => Success(st.boards[i])
  }

  /** The fields a caller passes to `create`. */
  datatype BoardDraft = BoardDraft(
    name: string,
    description: string,
    columns: seq<Column>,
    groups: seq<Group>,
    favorite: bool)

  /** `create`: takes the next board id, stamps both times, and puts the new
      board first. */
  function Create(st: Store, draft: BoardDraft, now: int): (rep: Reply<Board>)
    ensures rep.result.Success?
    ensures var b := rep.result.value;
            && b.Id == st.nextId
            && (IdsBelowCounter(st) ==> forall i :: 0 <= i < |st.boards| ==> st.boards[i].Id < b.Id)
            && b.name == draft.name && b.description == draft.description
            && b.columns == draft.columns && b.groups == draft.groups && b.favorite == draft.favorite
            && b.createdAt == now && b.updatedAt == now
            && |rep.store.boards| == |st.boards| + 1
            && rep.store.boards[0] == b && rep.store.boards[1..] == st.boards
    ensures rep.store.nextId == st.nextId + 1 && rep.store.nextItemId == st.nextItemId
    ensures IdsBelowCounter(st) ==> IdsBelowCounter(rep.store)
  {
    var b := Board(st.nextId, draft.name, draft.description, draft.columns, draft.groups,
                   draft.favorite, now, now);
    var boards := [b] + st.boards;
    assert boards[1..] == st.boards;
    Reply(Store(boards, st.nextId + 1, st.nextItemId), Success(b))
  }

  /** The fields `update` may spread over a board. */
  datatype BoardPatch = BoardPatch(
    Id: Option<int>,
    name: Option<string>,
    description: Option<string>,
    columns: Option<seq<Column>>,
    groups: Option<seq<Group>>,
    favorite: Option<bool>,
    createdAt: Option<int>)

  /** `{...b, ...p, updatedAt: now}`. */
  function PatchBoard(b: Board, p: BoardPatch, now: int): Board {
    Board(
      p.Id.GetOr(b.Id), p.name.GetOr(b.name), p.description.GetOr(b.description),
      p.columns.GetOr(b.columns), p.groups.GetOr(b.groups), p.favorite.GetOr(b.favorite),
      p.createdAt.GetOr(b.createdAt), now)
  }

  /** `r` is `b` with the fields named in `p` replaced and the others kept. */
  ghost predicate BoardPatchApplied(b: Board, p: BoardPatch, r: Board) {
    && r.Id == (if p.Id.Some? then p.Id.value else b.Id)
    && r.name == (if p.name.Some? then p.name.value else b.name)
    && r.description == (if p.description.Some? then p.description.value else b.description)
    && r.columns == (if p.columns.Some? then p.columns.value else b.columns)
    && r.groups == (if p.groups.Some? then p.groups.value else b.groups)
    && r.favorite == (if p.favorite.Some? then p.favorite.value else b.favorite)
    && r.createdAt == (if p.createdAt.Some? then p.createdAt.value else b.createdAt)
  }

  /** `update`: the first board with that id gets the patch and a fresh
      `updatedAt`; every other board is left as it was. */
  function Update(st: Store, id: int, p: BoardPatch, now: int): (rep: Reply<Board>)
    ensures rep.result.Failure? <==> forall j :: 0 <= j < |st.boards| ==> st.boards[j].Id != id
    ensures rep.result.Failure? ==> rep.store == st && rep.result.error == BoardNotFound(id)
    ensures rep.result.Success? ==>
              && rep.store.nextId == st.nextId && rep.store.nextItemId == st.nextItemId
              && |rep.store.boards| == |st.boards|
              && exists i :: 0 <= i < |st.boards| && st.boards[i].Id == id
                   && (forall j :: 0 <= j < i ==> st.boards[j].Id != id)
                   && rep.store.boards[i] == rep.result.value
                   && BoardPatchApplied(st.boards[i], p, rep.result.value)
                   && rep.result.value.updatedAt == now
                   && (forall j :: 0 <= j < |st.boards| && j != i ==> rep.store.boards[j] == st.boards[j])
  {
    match FindBoard(st.boards, id)
    case None => Reply(st, Failure(BoardNotFound(id)))
    case Some(i) =>
      var b := PatchBoard(st.boards[i], p, now);
      Reply(st.(boards := st.boards[i := b]), Success(b))
  }

  /** Two lists that agree, position by position, on which boards carry an
      id find the same position for it. */
  lemma FindBoardAgrees(bs: seq<Board>, cs: seq<Board>, id: int)
    requires |bs| == |cs|
    requires forall j :: 0 <= j < |bs| ==> (bs[j].Id == id <==> cs[j].Id == id)
    ensures FindBoard(bs, id) == FindBoard(cs, id)
  {
    var r, q := FindBoard(bs, id), FindBoard(cs, id);
    if r.Some? && q.Some? {
      assert !(r.value < q.value) && !(q.value < r.value);
    }
  }

  /** A successful `update` writes the patched board at the position of the
      first match. */
  lemma UpdateAt(st: Store, id: int, p: BoardPatch, now: int, i: nat)
    requires FindBoard(st.boards, id) == Some(i)
    ensures Update(st, id, p, now).store.boards == st.boards[i := PatchBoard(st.boards[i], p, now)]
    ensures Update(st, id, p, now).result == Success(PatchBoard(st.boards[i], p, now))
  {
  }

  /** `getById` reads the position `FindBoard` gives. */
  lemma GetByIdAt(st: Store, id: int)
    ensures FindBoard(st.boards, id).Some? ==> GetById(st, id) == Success(st.boards[FindBoard(st.boards, id).value])
    ensures FindBoard(st.boards, id).None? ==> GetById(st, id) == Failure(BoardNotFound(id))
  {
  }

  /** Writing one board leaves `FindBoard` unchanged for an id that the old
      and the new board both carry or both lack. */
  lemma FindBoardAfterWrite(bs: seq<Board>, i: nat, b: Board, x: int)
    requires i < |bs| && (bs[i].Id == x <==> b.Id == x)
    ensures FindBoard(bs[i := b], x) == FindBoard(bs, x)
  {
    var cs := bs[i := b];
    forall j | 0 <= j < |bs|
      ensures bs[j].Id == x <==> cs[j].Id == x
    {
      if j != i { assert cs[j] == bs[j]; }
    }
    FindBoardAgrees(bs, cs, x);
  }

  /** After a successful `update` that keeps the id, `getById` finds the
      updated board under it. */
  lemma UpdateThenGetById(st: Store, id: int, p: BoardPatch, now: int)
    requires FindBoard(st.boards, id).Some?
    ensures p.Id.None? || p.Id == Some(id) ==>
              GetById(Update(st, id, p, now).store, id) == Success(Update(st, id, p, now).result.value)
  {
    if p.Id.None? || p.Id == Some(id) {
      var i := FindBoard(st.boards, id).value;
      var b := PatchBoard(st.boards[i], p, now);
      assert b.Id == id;
      UpdateAt(st, id, p, now, i);
      FindBoardAfterWrite(st.boards, i, b, id);
      GetByIdAt(Update(st, id, p, now).store, id);
    }
  }

  /** An `update` leaves `getById` unchanged for any id that neither the old
      nor the patched board carries. */
  lemma UpdateKeepsOtherIds(st: Store, id: int, p: BoardPatch, now: int, other: int)
    requires FindBoard(st.boards, id).Some?
    ensures other != id && (p.Id.None? || p.Id.value != other) ==>
              GetById(Update(st, id, p, now).store, other) == GetById(st, other)
  {
    if other != id && (p.Id.None? || p.Id.value != other) {
      var i := FindBoard(st.boards, id).value;
      var b := PatchBoard(st.boards[i], p, now);
      assert b.Id != other;
      UpdateAt(st, id, p, now, i);
      FindBoardAfterWrite(st.boards, i, b, other);
      GetByIdAt(Update(st, id, p, now).store, other);
      GetByIdAt(st, other);
    }
  }

  /** `delete`: removes the first board with that id and returns it. */
  function Delete(st: Store, id: int): (rep: Reply<Board>)
    ensures rep.result.Failure? <==> forall j :: 0 <= j < |st.boards| ==> st.boards[j].Id != id
    ensures rep.result.Failure? ==> rep.store == st && rep.result.error == BoardNotFound(id)
    ensures rep.result.Success? ==>
              && rep.store.nextId == st.nextId && rep.store.nextItemId == st.nextItemId
              && |rep.store.boards| == |st.boards| - 1
              && exists i :: 0 <= i < |st.boards| && st.boards[i].Id == id
                   && (forall j :: 0 <= j < i ==> st.boards[j].Id != id)
                   && rep.result.value == st.boards[i]
                   && rep.store.boards == st.boards[..i] + st.boards[i + 1..]
    ensures IdsBelowCounter(st) ==> IdsBelowCounter(rep.store)
  {
    match FindBoard(st.boards, id)
    case None => Reply(st, Failure(BoardNotFound(id)))
    case Some(i) =>
      var rest := st.boards[..i] + st.boards[i + 1..];
      assert forall j :: 0 <= j < |rest| ==> rest[j] in st.boards;
      Reply(st.(boards := rest), Success(st.boards[i]))
  }

  /** Deleting keeps the other boards in their relative order. */
  lemma DeleteKeepsOrder(st: Store, id: int)
    requires Delete(st, id).result.Success?
    ensures IsSubseq(Delete(st, id).store.boards, st.boards)
    ensures |Delete(st, id).store.boards| == |st.boards| - 1
  {
    var i :| 0 <= i < |st.boards| && st.boards[i].Id == id
             && Delete(st, id).store.boards == st.boards[..i] + st.boards[i + 1..];
    SliceOutIsSubseq(st.boards, i);
  }

  lemma {:induction false} SliceOutIsSubseq<T>(s: seq<T>, i: nat)
    requires i < |s|
    ensures IsSubseq(s[..i] + s[i + 1..], s)
    decreases i
  {
    if i == 0 {
      assert s[..0] + s[1..] == s[1..];
      SubseqDropFirst(s);
    } else {
      var r := s[..i] + s[i + 1..];
      assert r[0] == s[0];
      assert r[1..] == s[1..][..i - 1] + s[1..][i..];
      SliceOutIsSubseq(s[1..], i - 1);
    }
  }

  lemma {:induction false} SubseqRefl<T>(s: seq<T>)
    ensures IsSubseq(s, s)
    decreases |s|
  {
    if |s| > 0 {
      SubseqRefl(s[1..]);
    }
  }

  lemma {:induction false} SubseqDropFirst<T>(s: seq<T>)
    requires |s| > 0
    ensures IsSubseq(s[1..], s)
    decreases |s|
  {
    var a := s[1..];
    if |a| > 0 {
      if a[0] == s[0] {
        SubseqDropFirst(s[1..]);
        assert a[1..] == s[1..][1..];
      } else {
        SubseqRefl(a);
      }
    }
  }

  /** The fields a caller passes to `createItem`. */
  datatype ItemData = ItemData(
    groupId: Option<int>,
    title: Option<string>,
    status: Option<string>,
    columnValues: Option<ColumnValues>,
    position: Option<int>)

  function DefaultItemTitle(id: int): string {
    "New Item " + IntToString(id)
  }

  /** The object `createItem` builds: defaults first, then every field the
      caller passed spread over them, then both timestamps. A passed field
      wins even when it is empty. */
  function NewItem(id: int, data: ItemData, now: int): Item {
    Item(id, data.groupId, data.title.GetOr(DefaultItemTitle(id)), data.status.GetOr("Not Started"),
         data.columnValues.GetOr(map[]), data.position, now, now)
  }

  predicate HasGroupWithId(groups: seq<Group>, groupId: Option<int>) {
    exists g :: g in groups && g.Id == groupId
  }

  /** Board `bi` of `before` is replaced by itself with group `gi` holding
      `items` and `updatedAt` set to `now`; nothing else differs. */
  ghost predicate GroupItemsReplaced(before: seq<Board>, after: seq<Board>, bi: nat, gi: nat, items: seq<Item>, now: int) {
    && bi < |before| && gi < |before[bi].groups| && |after| == |before|
    && (forall j :: 0 <= j < |before| && j != bi ==> after[j] == before[j])
    && after[bi] == before[bi].(groups := before[bi].groups[gi := before[bi].groups[gi].(items := items)], updatedAt := now)
  }

  function SetGroupItems(bs: seq<Board>, bi: nat, gi: nat, items: seq<Item>, now: int): (r: seq<Board>)
    requires bi < |bs| && gi < |bs[bi].groups|
    ensures GroupItemsReplaced(bs, r, bi, gi, items, now)
  {
    var b := bs[bi];
    bs[bi := b.(groups := b.groups[gi := b.groups[gi].(items := items)], updatedAt := now)]
  }

  /** `createItem`: the item takes the next item id (the counter advances
      even when the call then fails), is appended to the first group whose
      `Id` equals `groupId`, in board order, and that board's `updatedAt` is
      refreshed. */
  function CreateItem(st: Store, data: ItemData, now: int): (rep: Reply<Item>)
    ensures rep.store.nextItemId == st.nextItemId + 1 && rep.store.nextId == st.nextId
    ensures rep.result.Failure? <==> forall j :: 0 <= j < |st.boards| ==> !HasGroupWithId(st.boards[j].groups, data.groupId)
    ensures rep.result.Failure? ==> rep.store.boards == st.boards && rep.result.error == GroupNotFound
    ensures rep.result.Success? ==>
              var it := rep.result.value;
              && it.Id == st.nextItemId && it.createdAt == now && it.updatedAt == now
              && it.groupId == data.groupId && it.position == data.position
              && it.title == (if data.title.Some? then data.title.value else "New Item " + IntToString(st.nextItemId))
              && it.status == (if data.status.Some? then data.status.value else "Not Started")
              && it.columnValues == (if data.columnValues.Some? then data.columnValues.value else map[])
              && exists bi: nat, gi: nat ::
                   && bi < |st.boards| && gi < |st.boards[bi].groups|
                   && st.boards[bi].groups[gi].Id == data.groupId
                   && (forall j :: 0 <= j < bi ==> !HasGroupWithId(st.boards[j].groups, data.groupId))
                   && (forall k :: 0 <= k < gi ==> st.boards[bi].groups[k].Id != data.groupId)
                   && GroupItemsReplaced(st.boards, rep.store.boards, bi, gi, st.boards[bi].groups[gi].items + [it], now)
  {
    var id := st.nextItemId;
    var it := NewItem(id, data, now);
    var st1 := st.(nextItemId := id + 1);
    match FindIndex(st.boards, (b: Board) => HasGroupWithId(b.groups, data.groupId))
    case None => Reply(st1, Failure(GroupNotFound))
    case Some(bi) =>
      var groups := st.boards[bi].groups;
      match FindIndex(groups, (g: Group) => g.Id == data.groupId)
      case None =>
        assert false;
        Reply(st1, Failure(GroupNotFound))
      case Some(gi) =>
        Reply(st1.(boards := SetGroupItems(st.boards, bi, gi, groups[gi].items + [it], now)), Success(it))
  }

  /** Board `bi`, group `gi`, item `ii` is the first item with this id when
      boards, then groups, then items are scanned in order. */
  ghost predicate FirstItemAt(bs: seq<Board>, itemId: int, bi: nat, gi: nat, ii: nat) {
    && bi < |bs| && gi < |bs[bi].groups| && ii < |bs[bi].groups[gi].items|
    && bs[bi].groups[gi].items[ii].Id == itemId
    && (forall j :: 0 <= j < bi ==> !GroupsHaveItem(bs[j].groups, itemId))
    && (forall k :: 0 <= k < gi ==> !HasItemId(bs[bi].groups[k].items, itemId))
    && (forall m :: 0 <= m < ii ==> bs[bi].groups[gi].items[m].Id != itemId)
  }

  predicate NoItemWithId(bs: seq<Board>, itemId: int) {
    forall j :: 0 <= j < |bs| ==> !GroupsHaveItem(bs[j].groups, itemId)
  }

  datatype Location = Location(board: nat, group: nat, item: nat)

  /** The scan `updateItem` and `deleteItem` perform. */
  function LocateItem(bs: seq<Board>, itemId: int): (r: Option<Location>)
    ensures r.None? <==> NoItemWithId(bs, itemId)
    ensures r.Some? ==> FirstItemAt(bs, itemId, r.value.board, r.value.group, r.value.item)
  {
    match FindIndex(bs, (b: Board) => GroupsHaveItem(b.groups, itemId))
    case None => None
    case Some(bi) =>
      var groups := bs[bi].groups;
      match FindIndex(groups, (g: Group) => HasItemId(g.items, itemId))
      case None =>
        assert false;
        None
      case Some(gi) =>
        var items := groups[gi].items;
        match FindIndex(items, (it: Item) => it.Id == itemId)
        case None =>
          assert false;
          None
        case Some(ii) => Some(Location(bi, gi, ii))
  }

  /** The fields `updateItem` may spread over an item. */
  datatype ItemPatch = ItemPatch(
    Id: Option<int>,
    groupId: Option<Option<int>>,
    title: Option<string>,
    status: Option<string>,
    columnValues: Option<ColumnValues>,
    position: Option<Option<int>>,
    createdAt: Option<int>)

  /** A patch naming every field of `it`: what the board view sends. */
  function WholeItem(it: Item): ItemPatch {
    ItemPatch(Some(it.Id), Some(it.groupId), Some(it.title), Some(it.status), Some(it.columnValues),
              Some(it.position), Some(it.createdAt))
  }

  /** `{...it, ...p, updatedAt: now}`. */
  function PatchItem(it: Item, p: ItemPatch, now: int): Item {
    Item(p.Id.GetOr(it.Id), p.groupId.GetOr(it.groupId), p.title.GetOr(it.title), p.status.GetOr(it.status),
         p.columnValues.GetOr(it.columnValues), p.position.GetOr(it.position), p.createdAt.GetOr(it.createdAt), now)
  }

  /** `r` is `it` with the fields named in `p` replaced and the others kept. */
  ghost predicate ItemPatchApplied(it: Item, p: ItemPatch, r: Item) {
    && r.Id == (if p.Id.Some? then p.Id.value else it.Id)
    && r.groupId == (if p.groupId.Some? then p.groupId.value else it.groupId)
    && r.title == (if p.title.Some? then p.title.value else it.title)
    && r.status == (if p.status.Some? then p.status.value else it.status)
    && r.columnValues == (if p.columnValues.Some? then p.columnValues.value else it.columnValues)
    && r.position == (if p.position.Some? then p.position.value else it.position)
    && r.createdAt == (if p.createdAt.Some? then p.createdAt.value else it.createdAt)
  }

  /** `updateItem`: patches the first item with that id in scan order,
      refreshes its and its board's `updatedAt`, and changes nothing else. */
  function UpdateItem(st: Store, itemId: int, p: ItemPatch, now: int): (rep: Reply<Item>)
    ensures rep.result.Failure? <==> NoItemWithId(st.boards, itemId)
    ensures rep.result.Failure? ==> rep.store == st && rep.result.error == ItemNotFound(itemId)
    ensures rep.result.Success? ==>
              && rep.store.nextId == st.nextId && rep.store.nextItemId == st.nextItemId
              && exists bi: nat, gi: nat, ii: nat ::
                   && FirstItemAt(st.boards, itemId, bi, gi, ii)
                   && var items := st.boards[bi].groups[gi].items;
                   && ItemPatchApplied(items[ii], p, rep.result.value)
                   && rep.result.value.updatedAt == now
                   && GroupItemsReplaced(st.boards, rep.store.boards, bi, gi, items[ii := rep.result.value], now)
  {
    match LocateItem(st.boards, itemId)
    case None => Reply(st, Failure(ItemNotFound(itemId)))
    case Some(loc) =>
      var items := st.boards[loc.board].groups[loc.group].items;
      var it := PatchItem(items[loc.item], p, now);
      Reply(st.(boards := SetGroupItems(st.boards, loc.board, loc.group, items[loc.item := it], now)), Success(it))
  }

  /** `deleteItem`: removes the first item with that id in scan order and
      refreshes its board's `updatedAt`. */
  function DeleteItem(st: Store, itemId: int, now: int): (rep: Reply<Item>)
    ensures rep.result.Failure? <==> NoItemWithId(st.boards, itemId)
    ensures rep.result.Failure? ==> rep.store == st && rep.result.error == ItemNotFound(itemId)
    ensures rep.result.Success? ==>
              && rep.store.nextId == st.nextId && rep.store.nextItemId == st.nextItemId
              && exists bi: nat, gi: nat, ii: nat ::
                   && FirstItemAt(st.boards, itemId, bi, gi, ii)
                   && var items := st.boards[bi].groups[gi].items;
                   && rep.result.value == items[ii]
                   && GroupItemsReplaced(st.boards, rep.store.boards, bi, gi, items[..ii] + items[ii + 1..], now)
  {
    match LocateItem(st.boards, itemId)
    case None => Reply(st, Failure(ItemNotFound(itemId)))
    case Some(loc) =>
      var items := st.boards[loc.board].groups[loc.group].items;
      Reply(st.(boards := SetGroupItems(st.boards, loc.board, loc.group, items[..loc.item] + items[loc.item + 1..], now)),
            Success(items[loc.item]))
  }

  /** Every item the store hands out takes a counter value that no earlier
      call handed out: from any seed, the first item created is 100, and an
      item created after it, with any update and delete in between, gets a
      larger id, even when either creation fails. */
  lemma ItemCounterIncreases(seed: seq<Board>, d1: ItemData, d2: ItemData, now: int, itemId: int, p: ItemPatch)
    requires |seed| > 0
    ensures var a := CreateItem(Init(seed), d1, now);
            var u := DeleteItem(UpdateItem(a.store, itemId, p, now).store, itemId, now);
            var b := CreateItem(u.store, d2, now);
            && (a.result.Success? ==> a.result.value.Id == FirstItemId)
            && (b.result.Success? ==> b.result.value.Id == FirstItemId + 1)
            && b.store.nextItemId == FirstItemId + 2
  {
    var a := CreateItem(Init(seed), d1, now);
    var m := UpdateItem(a.store, itemId, p, now);
    assert m.store.nextItemId == FirstItemId + 1;
    var u := DeleteItem(m.store, itemId, now);
    assert u.store.nextItemId == FirstItemId + 1;
  }

  const DayMs: int := 24 * 60 * 60 * 1000

  /** The author every comment built by `addComment` carries. */
  function CurrentUser(authorId: int): Author {
    Author(authorId, "Current User", "user@company.com", None)
  }

  const MockContent1: string :=
    "Initial task setup completed. " + "@" + "sarah.chen" + (" please review " + "the requirements.")
  const MockContent2: string := "Thanks " + "@" + "alex.thompson" + MockContent2Rest
  const MockContent2Rest: string := MockContent2Mid + "@" + "mike.rodriguez" + MockContent2Tail
  const MockContent2Mid: string := "! I've reviewed and " + "added some feedback. "
  const MockContent2Tail: string := " can you handle the " + "backend integration?"
  const MockContent3: string := "Working on it now. " + "Should have this ready by EOD."

  lemma MockMentions1()
    ensures Extract(MockContent1) == ["sarah.chen"]
  {
    SarahToken();
    NoAtNoMention(" please review " + "the requirements.");
    ExtractWithMention("Initial task setup completed. ", "sarah.chen", " please review " + "the requirements.");
  }

  /** The plain-text pieces of the second comment hold no `@`, and neither
      piece after a mention continues it. */
  lemma MockContent2Pieces()
    ensures '@' !in "Thanks " && '@' !in MockContent2Mid && '@' !in MockContent2Tail
    ensures MockContent2Rest[0] == '!' && MockContent2Tail[0] == ' '
  {
  }

  lemma MockMentions2()
    ensures Extract(MockContent2) == ["alex.thompson", "mike.rodriguez"]
  {
    MikeToken();
    AlexToken();
    MockContent2Pieces();
    NoAtNoMention(MockContent2Tail);
    ExtractWithMention(MockContent2Mid, "mike.rodriguez", MockContent2Tail);
    ExtractWithMention("Thanks ", "alex.thompson", MockContent2Rest);
  }

  lemma MockMentions3()
    ensures Extract(MockContent3) == []
  {
    NoAtNoMention(MockContent3);
  }

  /** `getComments`: three fixed comments stamped two days, one day and four
      hours before `now`, kept when their item id equals the parsed
      argument. Each is built with the parsed id, so all three come back;
      `None` stands for an argument `parseInt` turns into `NaN`, which equals
      nothing, so then none do. The stored mentions are exactly those the
      extraction finds in each text. */
  function GetComments(itemId: Option<int>, now: int): (cs: seq<Comment>)
    ensures itemId.None? ==> cs == []
    ensures itemId.Some? ==> |cs| == 3
    ensures forall i :: 0 <= i < |cs| ==> cs[i].itemId == itemId.value && cs[i].Id == i + 1
    ensures forall i :: 0 <= i < |cs| ==> cs[i].mentions == Extract(cs[i].content)
    ensures forall i, j :: 0 <= i < j < |cs| ==> cs[i].createdAt < cs[j].createdAt <= now
  {
    match itemId
    case None => []
    case Some(id) =>
      MockMentions1();
      MockMentions2();
      MockMentions3();
      [
        Comment(1, id, MockContent1, Author(1, "Alex Thompson", "alex@company.com", None),
                ["sarah.chen"], now - 2 * DayMs, now - 2 * DayMs),
        Comment(2, id, MockContent2, Author(2, "Sarah Chen", "sarah@company.com", None),
                ["alex.thompson", "mike.rodriguez"], now - DayMs, now - DayMs),
        Comment(3, id, MockContent3, Author(3, "Mike Rodriguez", "mike@company.com", None),
                [], now - 4 * 60 * 60 * 1000, now - 4 * 60 * 60 * 1000)
      ]
  }

  /** `addComment`: a comment with a random id in [1000, 11000) (the random
      draw `Math.floor(Math.random() * 10000)` is the parameter `random`), the
      text stored as given, and its mentions extracted from it. The service
      does not keep the comment. */
  function AddComment(itemId: int, content: string, authorId: int, random: nat, now: int): (c: Comment)
    requires random < 10000
    ensures 1000 <= c.Id < 11000
    ensures c.itemId == itemId && c.content == content && c.author.Id == authorId
    ensures c.mentions == Extract(content)
    ensures forall i :: 0 <= i < |c.mentions| ==> IsToken(c.mentions[i])
    ensures c.createdAt == now && c.updatedAt == now
  {
    Comment(random + 1000, itemId, content, CurrentUser(authorId), Extract(content), now, now)
  }

  /** A comment added with a mention of a directory member records that
      member's username. */
  lemma AddCommentRecordsMention(itemId: int, pre: string, k: nat, rest: string, random: nat, now: int)
    requires random < 10000 && k < |GetTeamMembers()|
    requires '@' !in pre
    requires |rest| == 0 || IsSpace(rest[0])
    ensures var u := GetTeamMembers()[k].username;
            AddComment(itemId, pre + "@" + u + rest, 1, random, now).mentions == [u] + Extract(rest)
  {
    var u := GetTeamMembers()[k].username;
    TeamUsernamesAreTokens();
    if |rest| > 0 {
      SpaceIsInert(rest[0]);
    }
    ExtractWithMention(pre, u, rest);
  }

  /** `deleteComment` always reports success and changes nothing. */
  function DeleteComment(commentId: int): (success: bool)
    ensures success
  {
    true
  }

  /** `getTeamMembers`: the fixed directory of six people. */
  function GetTeamMembers(): (ms: seq<TeamMember>)
    ensures |ms| == 6
    ensures forall i :: 0 <= i < |ms| ==> ms[i].Id == i + 1
  {
    [
      TeamMember(1, "Alex Thompson", "alex.thompson", "alex@company.com"),
      TeamMember(2, "Sarah Chen", "sarah.chen", "sarah@company.com"),
      TeamMember(3, "Mike Rodriguez", "mike.rodriguez", "mike@company.com"),
      TeamMember(4, "Emily Davis", "emily.davis", "emily@company.com"),
      TeamMember(5, "David Wilson", "david.wilson", "david@company.com"),
      TeamMember(6, "Lisa Garcia", "lisa.garcia", "lisa@company.com")
    ]
  }

  /** Every username in the directory is a whole match of the mention
      expression, so `@username` inserted into a comment is extracted back. */
  lemma TeamUsernamesAreTokens()
    ensures forall i :: 0 <= i < |GetTeamMembers()| ==> IsToken(GetTeamMembers()[i].username)
  {
    AlexToken();
    SarahToken();
    MikeToken();
    EmilyToken();
    DavidToken();
    LisaToken();
  }

  /** Each directory username is `first.last`, a token. */
  lemma AlexToken()
    ensures IsToken("alex.thompson")
  {
    assert "alex.thompson" == "alex" + "." + "thompson";
    DottedToken("alex", "thompson");
  }

  lemma SarahToken()
    ensures IsToken("sarah.chen")
  {
    assert "sarah.chen" == "sarah" + "." + "chen";
    DottedToken("sarah", "chen");
  }

  lemma MikeToken()
    ensures IsToken("mike.rodriguez")
  {
    assert "mike.rodriguez" == "mike" + "." + "rodriguez";
    DottedToken("mike", "rodriguez");
  }

  lemma EmilyToken()
    ensures IsToken("emily.davis")
  {
    assert "emily.davis" == "emily" + "." + "davis";
    DottedToken("emily", "davis");
  }

  lemma DavidToken()
    ensures IsToken("david.wilson")
  {
    assert "david.wilson" == "david" + "." + "wilson";
    DottedToken("david", "wilson");
  }

  lemma LisaToken()
    ensures IsToken("lisa.garcia")
  {
    assert "lisa.garcia" == "lisa" + "." + "garcia";
    DottedToken("lisa", "garcia");
  }

  /** No two directory entries share a username; the initial letters already
      differ. */
  lemma TeamUsernamesDistinct()
    ensures forall i, j :: 0 <= i < j < |GetTeamMembers()| ==> GetTeamMembers()[i].username != GetTeamMembers()[j].username
  {
    var ms := GetTeamMembers();
    assert ms[0].username[0] == 'a' && ms[1].username[0] == 's' && ms[2].username[0] == 'm';
    assert ms[3].username[0] == 'e' && ms[4].username[0] == 'd' && ms[5].username[0] == 'l';
  }
}

=== FILE: board_table.dfy ===
/** The table view of a board: the inline cell editor, what each cell shows,
    the column headers' icons and widths, and the "Add item" row. */
module BoardTable {
  import opened Wrappers
  import opened Text
  import opened BoardModel
  import BoardService
  import BoardView
  import PersonAvatar

  /** The cell being edited, if any, and the editor's text. */
  datatype Editor = Editor(cell: Option<(int, string)>, value: string)

  const Idle: Editor := Editor(None, "")

  /** `handleCellClick`: edit this cell, starting from its shown value (an
      empty string when it has none). */
  function CellClick(itemId: int, columnId: string, current: string): (e: Editor)
    ensures e.cell == Some((itemId, columnId)) && e.value == current
  {
    Editor(Some((itemId, columnId)), current)
  }

  /** Typing into the editor changes its text only. */
  function Typed(e: Editor, text: string): (r: Editor)
    ensures r.cell == e.cell && r.value == text
  {
    e.(value := text)
  }

  /** The update a save sends: the item and a single column value. */
  type CellUpdate = (int, ColumnValues)

  /** `handleCellSave`: when a cell is being edited and the page passed an
      update handler, one update with the single entry `columnId -> text`
      is sent. The editor is cleared in every case, even when nothing was
      being edited. */
  function Save(e: Editor, hasHandler: bool): (r: (Editor, Option<CellUpdate>))
    ensures r.0 == Idle
    ensures r.1.Some? <==> e.cell.Some? && hasHandler
    ensures r.1.Some? ==> var (itemId, columnId) := e.cell.value;
                          && r.1.value.0 == itemId
                          && r.1.value.1.Keys == {columnId}
                          && r.1.value.1[columnId] == e.value
  {
    if e.cell.Some? && hasHandler then
      var (itemId, columnId) := e.cell.value;
      (Idle, Some((itemId, map[columnId := e.value])))
    else (Idle, None)
  }

  /** `handleCellCancel`: the editor is cleared and nothing is sent. */
  function Cancel(e: Editor): (r: Editor)
    ensures r.cell.None? && r.value == ""
  {
    Idle
  }

  /** Escape after typing throws the text away and sends nothing, where
      Enter would have sent exactly that text for the cell; either way the
      editor ends idle. */
  lemma EscapeDiscardsEdit(itemId: int, columnId: string, current: string, text: string)
    ensures var e := Typed(CellClick(itemId, columnId, current), text);
            && Cancel(e) == Save(e, true).0 == Idle
            && Save(e, true).1 == Some((itemId, map[columnId := text]))
  {
  }

  /** `handleKeyDown`: Enter saves, Escape cancels, any other key leaves the
      editor as it is. */
  function KeyDown(e: Editor, key: string, hasHandler: bool): (r: (Editor, Option<CellUpdate>))
    ensures key == "Enter" ==> r == Save(e, hasHandler)
    ensures key == "Escape" ==> r == (Cancel(e), None)
    ensures key != "Enter" && key != "Escape" ==> r == (e, None)
  {
    if key == "Enter" then Save(e, hasHandler)
    else if key == "Escape" then (Cancel(e), None)
    else (e, None)
  }

  /** Editing a cell and pressing Enter on the board page writes the typed
      text into that column of every copy of the item, and leaves the other
      columns of the target as they were. */
  lemma EditThenEnterUpdatesCell(b: Board, itemId: int, columnId: string, current: string, text: string)
    requires GroupsHaveItem(b.groups, itemId)
    ensures var (e, upd) := KeyDown(Typed(CellClick(itemId, columnId, current), text), "Enter", true);
            && e == Idle && upd.Some? && upd.value.0 == itemId
            && var s := BoardView.HandleUpdateItem(b, itemId, upd.value.1, true);
               var sent := s.request.value.1;
               var target := BoardView.FindTarget(b.groups, itemId).value.0;
               && sent.columnValues[columnId] == text
               && (forall k :: k in target.columnValues && k != columnId ==> sent.columnValues[k] == target.columnValues[k])
               && s.board.groups == BoardView.ReplaceAll(b.groups, itemId, sent)
  {
  }

  /** `item.columnValues?.[column.id] || ""`: the stored value, or the empty
      string when the key is missing. */
  function ShownValue(it: Item, columnId: string): (v: string)
    ensures columnId in it.columnValues ==> v == it.columnValues[columnId]
    ensures columnId !in it.columnValues ==> v == ""
  {
    if columnId in it.columnValues then it.columnValues[columnId] else ""
  }

  /** What a cell renders. Dates are shown as stored; their formatting is
      not modelled. */
  datatype Cell =
    | Input(text: string)
    | StatusPill(status: string)
    | Person(avatar: PersonAvatar.Avatar, name: Option<string>)
    | DateCell(date: Option<string>)
    | NumberCell(text: string)
    | TextCell(text: string)

  /** `renderCellContent`: the editor's input on the cell being edited;
      otherwise by column type, an empty status reading `Not Started`, an
      empty number `0`, an empty person the placeholder avatar and an empty
      date the `Select date` prompt. */
  function RenderCell(e: Editor, it: Item, c: Column): (r: Cell)
    ensures e.cell == Some((it.Id, c.id)) <==> r.Input?
    ensures r.Input? ==> r.text == e.value
    ensures !r.Input? && c.kind == "status" ==>
              r == StatusPill(if ShownValue(it, c.id) == "" then "Not Started" else ShownValue(it, c.id))
    ensures !r.Input? && c.kind == "numbers" ==>
              r == NumberCell(if ShownValue(it, c.id) == "" then "0" else ShownValue(it, c.id))
    ensures !r.Input? && c.kind == "person" ==>
              && r.Person?
              && (r.avatar.Placeholder? <==> ShownValue(it, c.id) == "")
              && (r.name.Some? <==> ShownValue(it, c.id) != "")
    ensures !r.Input? && c.kind == "date" ==> r == DateCell(if ShownValue(it, c.id) == "" then None else Some(ShownValue(it, c.id)))
    ensures !r.Input? && c.kind !in {"status", "numbers", "person", "date"} ==> r == TextCell(ShownValue(it, c.id))
  {
    var v := ShownValue(it, c.id);
    if e.cell == Some((it.Id, c.id)) then Input(e.value)
    else if c.kind == "status" then StatusPill(if v == "" then "Not Started" else v)
    else if c.kind == "person" then Person(PersonAvatar.Render(Some(v)), if v == "" then None else Some(v))
    else if c.kind == "date" then DateCell(if v == "" then None else Some(v))
    else if c.kind == "numbers" then NumberCell(if v == "" then "0" else v)
    else TextCell(v)
  }

  /** Clicking a rendered cell opens the editor on exactly that cell with
      its shown value, and the next render of that cell is the editor. */
  lemma ClickOpensEditor(it: Item, c: Column)
    ensures var e := CellClick(it.Id, c.id, ShownValue(it, c.id));
            RenderCell(e, it, c) == Input(ShownValue(it, c.id))
  {
  }

  /** `getColumnIcon`. */
  function ColumnIcon(kind: string): (icon: string)
    ensures kind == "status" ==> icon == "CircleDot"
    ensures kind == "person" ==> icon == "User"
    ensures kind == "date" ==> icon == "Calendar"
    ensures kind == "numbers" ==> icon == "Hash"
    ensures kind == "text" ==> icon == "Type"
    ensures kind !in {"status", "person", "date", "numbers", "text"} ==> icon == "Minus"
  {
    match kind
    case "status" => "CircleDot"
    case "person" => "User"
    case "date" => "Calendar"
    case "numbers" => "Hash"
    case "text" => "Type"
    case _ => "Minus"
  }

  /** The icon names the column type: each known type has its own icon,
      and "Minus" marks exactly the types the table does not know. */
  lemma ColumnIconIdentifies(k1: string, k2: string)
    ensures ColumnIcon(k1) == ColumnIcon(k2) && ColumnIcon(k1) != "Minus" ==> k1 == k2
    ensures ColumnIcon(k1) == "Minus" <==> k1 !in {"status", "person", "date", "numbers", "text"}
  {
  }

  /** The grid track of one column. */
  function ColumnWidth(kind: string): (w: string)
    ensures kind == "status" ==> w == "160px"
    ensures kind == "person" ==> w == "150px"
    ensures kind == "date" ==> w == "130px"
    ensures kind == "numbers" ==> w == "100px"
    ensures kind !in {"status", "person", "date", "numbers"} ==> w == "1fr"
    ensures |w| > 0
  {
    if kind == "status" then "160px"
    else if kind == "person" then "150px"
    else if kind == "date" then "130px"
    else if kind == "numbers" then "100px"
    else "1fr"
  }

  function JoinTracks(tracks: seq<string>): string
    requires |tracks| > 0
    decreases |tracks|
  {
    if |tracks| == 1 then tracks[0] else tracks[0] + " " + JoinTracks(tracks[1..])
  }

  /** The widths of the columns, in order. */
  function Tracks(cols: seq<Column>): (ts: seq<string>)
    ensures |ts| == |cols|
    ensures forall i :: 0 <= i < |cols| ==> ts[i] == ColumnWidth(cols[i].kind)
  {
    seq(|cols|, i requires 0 <= i < |cols| => ColumnWidth(cols[i].kind))
  }

  /** `gridTemplateColumns`: the column widths joined by spaces, or `1fr`
      when the board has no columns (the empty join is falsy). */
  function GridTemplate(cols: seq<Column>): (t: string)
    ensures |cols| == 0 ==> t == "1fr"
    ensures |cols| > 0 ==> t == JoinTracks(Tracks(cols))
    ensures |t| > 0
  {
    if |cols| == 0 then "1fr" else JoinTracks(Tracks(cols))
  }

  /** The template has one track per column: splitting it on spaces gives
      back each column's width, in order. */
  lemma {:induction false} GridTemplateTracks(cols: seq<Column>)
    requires |cols| > 0
    ensures PersonAvatar.SplitOn(GridTemplate(cols), ' ') == Tracks(cols)
    decreases |cols|
  {
    TracksSplit(Tracks(cols));
  }

  lemma {:induction false} TracksSplit(ts: seq<string>)
    requires |ts| > 0
    requires forall i :: 0 <= i < |ts| ==> ' ' !in ts[i]
    ensures PersonAvatar.SplitOn(JoinTracks(ts), ' ') == ts
    decreases |ts|
  {
    if |ts| == 1 {
      NoSeparatorOnePart(ts[0]);
    } else {
      TracksSplit(ts[1..]);
      SplitAfterPart(ts[0], JoinTracks(ts[1..]));
      assert ts == [ts[0]] + ts[1..];
    }
  }

  lemma {:induction false} NoSeparatorOnePart(s: string)
    requires ' ' !in s
    ensures PersonAvatar.SplitOn(s, ' ') == [s]
    decreases |s|
  {
    if |s| > 0 {
      assert ' ' !in s[1..] by {
        assert forall i :: 0 <= i < |s[1..]| ==> s[1..][i] == s[i + 1];
      }
      NoSeparatorOnePart(s[1..]);
      assert s == [s[0]] + s[1..];
    }
  }

  /** Splitting `part + " " + rest`, when `part` has no space, gives `part`
      followed by the pieces of `rest`. */
  lemma {:induction false} SplitAfterPart(part: string, rest: string)
    requires ' ' !in part
    ensures PersonAvatar.SplitOn(part + " " + rest, ' ') == [part] + PersonAvatar.SplitOn(rest, ' ')
    decreases |part|
  {
    var x := part + " " + rest;
    if |part| == 0 {
      assert x == [' '] + rest;
      assert x[1..] == rest;
    } else {
      assert ' ' !in part[1..] by {
        assert forall i :: 0 <= i < |part[1..]| ==> part[1..][i] == part[i + 1];
      }
      assert x[0] == part[0] && x[0] != ' ';
      assert x[1..] == part[1..] + " " + rest;
      SplitAfterPart(part[1..], rest);
      var r := PersonAvatar.SplitOn(x[1..], ' ');
      PersonAvatar.SplitOnWordChar(x, ' ');
      assert r[0] == part[1..] && r[1..] == PersonAvatar.SplitOn(rest, ' ');
      assert [x[0]] + part[1..] == part;
    }
  }


  /** The defaults the "Add item" row hands to the page's add handler: a
      timestamped title and the `Not Started` status. */
  function AddRowDefaults(clickTime: int): (cv: ColumnValues)
    ensures cv.Keys == {"title", "status"}
    ensures cv["title"] == "New Item " + IntToString(clickTime) && cv["status"] == "Not Started"
  {
    map["title" := "New Item " + IntToString(clickTime), "status" := "Not Started"]
  }

  /** Through the page's `handleAddItem` the row's defaults land in the new
      item's column values (beside the page's `text` default); the item's
      own title and status are the service's defaults. */
  lemma AddRowCreatesItem(st: BoardService.Store, b: Board, groupId: Option<int>, clickTime: int, now: int, at: int)
    ensures var req := BoardView.HandleAddItem(b, groupId, AddRowDefaults(clickTime), now,
                                               BoardService.CreateItem(st, BoardView.AddItemRequest(groupId, AddRowDefaults(clickTime), now), at).result).request.value;
            var rep := BoardService.CreateItem(st, req, at);
            rep.result.Success? ==>
              var it := rep.result.value;
              && it.columnValues.Keys == {"text", "status", "title"}
              && it.columnValues["text"] == "New Item"
              && it.columnValues["status"] == "Not Started"
              && it.columnValues["title"] == "New Item " + IntToString(clickTime)
              && it.title == "New Item " + IntToString(st.nextItemId)
              && it.status == "Not Started"
  {
  }
}

=== FILE: board_view.dfy ===
/** The board page's local copy of a board and the three handlers that
    change it. Each handler first calls the service and changes the copy only
    once that call has succeeded; the outcome of the call is a parameter. */
module BoardView {
  import opened Wrappers
  import opened Seqs
  import opened BoardModel
  import BoardService
  import Kanban

  /** The first item of `items` with this id. */
  function FirstWithId(items: seq<Item>, itemId: int): (r: Option<Item>)
    ensures r.None? <==> !HasItemId(items, itemId)
    ensures r.Some? ==> exists i :: 0 <= i < |items| && items[i] == r.value && r.value.Id == itemId
                                    && forall j :: 0 <= j < i ==> items[j].Id != itemId
  {
    match FindIndex(items, (it: Item) => it.Id == itemId)
    case None => None
    case Some(i) => Some(items[i])
  }

  /** The item `handleUpdateItem` edits and its group's `Id`: the walk over
      the groups overwrites its choice, so it is the first match in the LAST
      group holding the id. */
  /** `v` is the first item with this id in group `k`, no later group holds
      the id, and `v.1` is group `k`'s `Id`. */
  predicate TargetIn(groups: seq<Group>, itemId: int, v: (Item, Option<int>), k: int) {
    && 0 <= k < |groups|
    && FirstWithId(groups[k].items, itemId) == Some(v.0)
    && v.1 == groups[k].Id
    && forall m :: k < m < |groups| ==> !HasItemId(groups[m].items, itemId)
  }

  function FindTarget(groups: seq<Group>, itemId: int): (r: Option<(Item, Option<int>)>)
    ensures r.None? <==> !GroupsHaveItem(groups, itemId)
    ensures r.Some? ==> exists k :: TargetIn(groups, itemId, r.value, k)
    decreases |groups|
  {
    if |groups| == 0 then None
    else
      var later := FindTarget(groups[1..], itemId);
      if later.Some? then
        TargetShifts(groups, itemId, later.value);
        later
      else
        match FirstWithId(groups[0].items, itemId)
        case None =>
          NotInAnyGroup(groups, itemId);
          None
        case Some(it) =>
          TargetInFirst(groups, itemId, it);
          Some((it, groups[0].Id))
  }

  /** A target found among the later groups is still the target once the
      first group is put back in front. */
  lemma TargetShifts(groups: seq<Group>, itemId: int, v: (Item, Option<int>))
    requires |groups| > 0 && exists k :: TargetIn(groups[1..], itemId, v, k)
    ensures exists k :: TargetIn(groups, itemId, v, k)
    ensures GroupsHaveItem(groups, itemId)
  {
    var k :| TargetIn(groups[1..], itemId, v, k);
    assert groups[1..][k] == groups[k + 1];
    forall m | k + 1 < m < |groups|
      ensures !HasItemId(groups[m].items, itemId)
    {
      assert groups[m] == groups[1..][m - 1];
    }
    assert TargetIn(groups, itemId, v, k + 1);
    var it :| it in groups[k + 1].items && it.Id == itemId;
    assert groups[k + 1] in groups;
  }

  /** No later group and not the first: no group at all. */
  lemma NotInAnyGroup(groups: seq<Group>, itemId: int)
    requires |groups| > 0 && !GroupsHaveItem(groups[1..], itemId)
    requires !HasItemId(groups[0].items, itemId)
    ensures !GroupsHaveItem(groups, itemId)
  {
    forall g, it | g in groups && it in g.items
      ensures it.Id != itemId
    {
      var k :| 0 <= k < |groups| && groups[k] == g;
      if k > 0 {
        assert groups[1..][k - 1] == g;
      }
    }
  }

  /** The first group holds the target when no later group has the id. */
  lemma TargetInFirst(groups: seq<Group>, itemId: int, it: Item)
    requires |groups| > 0 && !GroupsHaveItem(groups[1..], itemId)
    requires FirstWithId(groups[0].items, itemId) == Some(it)
    ensures TargetIn(groups, itemId, (it, groups[0].Id), 0)
    ensures GroupsHaveItem(groups, itemId)
  {
    forall m | 0 < m < |groups|
      ensures !HasItemId(groups[m].items, itemId)
    {
      assert groups[m] == groups[1..][m - 1];
      assert groups[m] in groups[1..];
    }
    assert groups[0] in groups;
  }

  /** Every item with this id, in every group, replaced by `it`. */
  function ReplaceAll(groups: seq<Group>, itemId: int, it: Item): (r: seq<Group>)
    ensures |r| == |groups|
    ensures forall k :: 0 <= k < |r| ==>
              && r[k] == groups[k].(items := r[k].items)
              && |r[k].items| == |groups[k].items|
              && forall i :: 0 <= i < |r[k].items| ==>
                   r[k].items[i] == (if groups[k].items[i].Id == itemId then it else groups[k].items[i])
  {
    seq(|groups|, k requires 0 <= k < |groups| =>
      groups[k].(items := seq(|groups[k].items|, i requires 0 <= i < |groups[k].items| =>
        if groups[k].items[i].Id == itemId then it else groups[k].items[i])))
  }

  /** What a handler leaves: the page's board afterwards and the service
      request it made, if any. */
  datatype Step<Req> = Step(board: Board, request: Option<Req>)

  /** `handleUpdateItem`: the target's column values with `updates` spread
      over them are sent to the service; once that succeeds every item with
      the id, in every group, becomes the edited item. An unknown id sends
      nothing; a failed call changes nothing. */
  function HandleUpdateItem(b: Board, itemId: int, updates: ColumnValues, ok: bool): (s: Step<(int, Item)>)
    ensures !GroupsHaveItem(b.groups, itemId) ==> s.request.None? && s.board == b
    ensures GroupsHaveItem(b.groups, itemId) ==>
              && s.request.Some? && s.request.value.0 == itemId
              && var sent := s.request.value.1;
              && (exists target :: FindTarget(b.groups, itemId) == Some(target) && sent == target.0.(columnValues := sent.columnValues))
              && (forall key :: key in sent.columnValues <==> key in FindTarget(b.groups, itemId).value.0.columnValues || key in updates)
              && (forall key :: key in updates ==> sent.columnValues[key] == updates[key])
              && (forall key :: key in FindTarget(b.groups, itemId).value.0.columnValues && key !in updates ==>
                    sent.columnValues[key] == FindTarget(b.groups, itemId).value.0.columnValues[key])
              && (ok ==> s.board == b.(groups := ReplaceAll(b.groups, itemId, sent)))
              && (!ok ==> s.board == b)
  {
    match FindTarget(b.groups, itemId)
    case None => Step(b, None)
    case Some(target) =>
      var item := target.0;
      var edited := item.(columnValues := item.columnValues + updates);
      var board := if ok then b.(groups := ReplaceAll(b.groups, itemId, edited)) else b;
      Step(board, Some((itemId, edited)))
  }

  /** An empty `updates` sends the target unchanged. */
  lemma EmptyUpdatesKeepValues(b: Board, itemId: int, ok: bool)
    requires GroupsHaveItem(b.groups, itemId)
    ensures HandleUpdateItem(b, itemId, map[], ok).request.value.1 == FindTarget(b.groups, itemId).value.0
  {
    var t := FindTarget(b.groups, itemId).value.0;
    assert t.columnValues + map[] == t.columnValues;
  }

  /** After a successful update no item with the id is left as it was: each
      is the edited item, and the groups and all other items stay where they
      were. */
  lemma UpdateReplacesEveryCopy(b: Board, itemId: int, updates: ColumnValues, k: nat, i: nat)
    requires GroupsHaveItem(b.groups, itemId)
    requires k < |b.groups| && i < |b.groups[k].items|
    ensures var s := HandleUpdateItem(b, itemId, updates, true);
            && |s.board.groups| == |b.groups|
            && |s.board.groups[k].items| == |b.groups[k].items|
            && (b.groups[k].items[i].Id == itemId ==> s.board.groups[k].items[i] == s.request.value.1)
            && (b.groups[k].items[i].Id != itemId ==> s.board.groups[k].items[i] == b.groups[k].items[i])
  {
  }

  /** The items of each group without those carrying this id. */
  function RemoveAll(groups: seq<Group>, itemId: int): (r: seq<Group>)
    ensures |r| == |groups|
    ensures forall k :: 0 <= k < |r| ==>
              && r[k] == groups[k].(items := r[k].items)
              && IsSubseq(r[k].items, groups[k].items)
              && (forall x :: x in r[k].items <==> x in groups[k].items && x.Id != itemId)
              && forall x :: multiset(r[k].items)[x] == if x.Id != itemId then multiset(groups[k].items)[x] else 0
  {
    var keep := (x: Item) => x.Id != itemId;
    forall k | 0 <= k < |groups| {
      FilterCounts(groups[k].items, keep);
    }
    seq(|groups|, k requires 0 <= k < |groups| => groups[k].(items := Filter(groups[k].items, keep)))
  }

  /** `handleDeleteItem`: once the service has deleted the item, every item
      with that id leaves every group; the rest keep their order. */
  function HandleDeleteItem(b: Board, itemId: int, ok: bool): (s: Step<int>)
    ensures s.request == Some(itemId)
    ensures !ok ==> s.board == b
    ensures ok ==> s.board == b.(groups := RemoveAll(b.groups, itemId)) && !GroupsHaveItem(s.board.groups, itemId)
  {
    var board := if ok then b.(groups := RemoveAll(b.groups, itemId)) else b;
    forall g, it | ok && g in board.groups && it in g.items
      ensures it.Id != itemId
    {
      var k :| 0 <= k < |board.groups| && board.groups[k] == g;
    }
    Step(board, Some(itemId))
  }

  /** The column values `handleAddItem` sends: a text and a status, then the
      caller's defaults spread over them. */
  function AddItemValues(defaults: ColumnValues): (cv: ColumnValues)
    ensures cv.Keys == {"text", "status"} + defaults.Keys
    ensures forall key :: key in defaults ==> cv[key] == defaults[key]
    ensures "text" !in defaults ==> cv["text"] == "New Item"
    ensures "status" !in defaults ==> cv["status"] == "Not Started"
  {
    map["text" := "New Item", "status" := "Not Started"] + defaults
  }

  /** The request `handleAddItem` makes: the group, the time as position, and
      the column values; title and status are left to the service. */
  function AddItemRequest(groupId: Option<int>, defaults: ColumnValues, now: int): (d: BoardService.ItemData)
    ensures d.groupId == groupId && d.position == Some(now)
    ensures d.title.None? && d.status.None?
    ensures d.columnValues == Some(AddItemValues(defaults))
  {
    BoardService.ItemData(groupId, None, None, Some(AddItemValues(defaults)), Some(now))
  }

  /** `handleAddItem`: once the service returns the created item, it is
      appended to every group whose `Id` equals `groupId`; a failure changes
      nothing. */
  function HandleAddItem(b: Board, groupId: Option<int>, defaults: ColumnValues, now: int,
                         created: Result<Item, Error>): (s: Step<BoardService.ItemData>)
    ensures s.request == Some(AddItemRequest(groupId, defaults, now))
    ensures created.Failure? ==> s.board == b
    ensures created.Success? ==>
              && s.board == b.(groups := s.board.groups)
              && |s.board.groups| == |b.groups|
              && forall k :: 0 <= k < |b.groups| ==>
                   s.board.groups[k] == (if b.groups[k].Id == groupId
                                         then b.groups[k].(items := b.groups[k].items + [created.value])
                                         else b.groups[k])
  {
    var req := Some(AddItemRequest(groupId, defaults, now));
    match created
    case Failure(_) => Step(b, req)
    case Success(it) =>
      var groups := seq(|b.groups|, k requires 0 <= k < |b.groups| =>
        if b.groups[k].Id == groupId then b.groups[k].(items := b.groups[k].items + [it]) else b.groups[k]);
      Step(b.(groups := groups), req)
  }

  /** The first position whose group has the `Id`, if any: the group the
      service pushes a created item into when the page's board is the one it
      finds. */
  function FirstGroupWith(groups: seq<Group>, groupId: Option<int>): (r: Option<nat>)
    ensures r.Some? ==> r.value < |groups| && groups[r.value].Id == groupId
    ensures r.Some? ==> forall j :: 0 <= j < r.value ==> groups[j].Id != groupId
    ensures r.None? <==> forall j :: 0 <= j < |groups| ==> groups[j].Id != groupId
  {
    FindIndex(groups, (g: Group) => g.Id == groupId)
  }

  /** The groups the page sees once the service has pushed `it`: when the
      first group with the `Id` still shares its item list with the store,
      the push shows through; otherwise nothing changes. */
  function SeenAfterPush(groups: seq<Group>, shared: set<nat>, groupId: Option<int>, it: Item): (r: seq<Group>)
    ensures |r| == |groups|
    ensures forall k :: 0 <= k < |groups| ==>
              r[k] == (if k in shared && FirstGroupWith(groups, groupId) == Some(k)
                       then groups[k].(items := groups[k].items + [it]) else groups[k])
  {
    match FirstGroupWith(groups, groupId)
    case Some(f) => if f in shared then groups[f := groups[f].(items := groups[f].items + [it])] else groups
    case None => groups
  }

  /** `handleAddItem` with the page's state shared with the store, as the
      code has it. The page's board is the shallow copy `getById` returns,
      so a group the page has not rebuilt since loading shares its item list
      with the store; `shared` holds the positions of those groups, and
      `handleUpdateItem` and `handleDeleteItem` rebuild every group. The
      service pushes the created item into the first group with the `Id` of
      the first board holding one, taken here to be the page's board; the
      page sees that push through a shared list, and the handler then
      appends the item once more. Every group the handler appends to is a new
      object afterwards and no longer shared. */
  function HandleAddItemAsWritten(b: Board, shared: set<nat>, groupId: Option<int>, defaults: ColumnValues,
                                  now: int, created: Result<Item, Error>): (r: (Step<BoardService.ItemData>, set<nat>))
    ensures r.0.request == Some(AddItemRequest(groupId, defaults, now))
    ensures created.Failure? ==> r.0.board == b && r.1 == shared
    ensures created.Success? ==>
              && r.0.board == b.(groups := r.0.board.groups)
              && |r.0.board.groups| == |b.groups|
              && (forall k :: 0 <= k < |b.groups| && b.groups[k].Id != groupId ==> r.0.board.groups[k] == b.groups[k])
              && (forall k :: 0 <= k < |b.groups| && b.groups[k].Id == groupId ==>
                    r.0.board.groups[k].items ==
                      b.groups[k].items + (if k in shared && FirstGroupWith(b.groups, groupId) == Some(k)
                                           then [created.value, created.value] else [created.value]))
              && forall k :: k in r.1 <==> k in shared && (k < |b.groups| ==> b.groups[k].Id != groupId)
  {
    var req := Some(AddItemRequest(groupId, defaults, now));
    match created
    case Failure(_) => (Step(b, req), shared)
    case Success(it) =>
      var seen := SeenAfterPush(b.groups, shared, groupId, it);
      var groups := seq(|seen|, k requires 0 <= k < |seen| =>
        if seen[k].Id == groupId then seen[k].(items := seen[k].items + [it]) else seen[k]);
      (Step(b.(groups := groups), req), set k | k in shared && (k < |b.groups| ==> b.groups[k].Id != groupId))
  }

  /** The positions `0 .. n-1`: on a freshly loaded board, every group. */
  function Positions(n: nat): (r: set<nat>)
    ensures forall k: nat :: k in r <==> k < n
  {
    if n == 0 then {} else Positions(n - 1) + {n - 1}
  }

  /** On a freshly loaded board every group is shared, so the first add to
      the first group shows the created item twice, where the intended
      handler shows it once. This is what "Add First Item" and the kanban's
      "Add card" do. */
  lemma DuplicateOnFreshLoad(b: Board, defaults: ColumnValues, now: int, it: Item)
    requires |b.groups| > 0
    ensures var loaded := Positions(|b.groups|);
            var groupId := b.groups[0].Id;
            && HandleAddItemAsWritten(b, loaded, groupId, defaults, now, Success(it)).0.board.groups[0].items
                 == b.groups[0].items + [it, it]
            && HandleAddItem(b, groupId, defaults, now, Success(it)).board.groups[0].items
                 == b.groups[0].items + [it]
  {
    var loaded := Positions(|b.groups|);
    assert 0 in loaded;
    assert FirstGroupWith(b.groups, b.groups[0].Id) == Some(0);
  }

  /** Once no group with the `Id` shares the store's list, as after an update
      or a delete, or after the first add to that group, the written handler
      does what the intended one does. */
  lemma AsWrittenAgreesOnceRebuilt(b: Board, shared: set<nat>, groupId: Option<int>, defaults: ColumnValues,
                                   now: int, created: Result<Item, Error>)
    requires forall k :: k in shared && k < |b.groups| ==> b.groups[k].Id != groupId
    ensures HandleAddItemAsWritten(b, shared, groupId, defaults, now, created).0
            == HandleAddItem(b, groupId, defaults, now, created)
  {
    if created.Success? {
      var r := HandleAddItemAsWritten(b, shared, groupId, defaults, now, created).0;
      var s := HandleAddItem(b, groupId, defaults, now, created);
      assert r.board.groups == s.board.groups;
    }
  }

  /** `hasItems`: some group holds an item. */
  predicate HasItems(b: Board) {
    exists g :: g in b.groups && |g.items| > 0
  }

  /** The page shows the board exactly when it has something to count. */
  lemma {:induction false} HasItemsIffCount(groups: seq<Group>)
    ensures HasItems(Board(0, "", "", [], groups, false, 0, 0)) <==> Kanban.CountItems(groups) > 0
    decreases |groups|
  {
    var b := Board(0, "", "", [], groups, false, 0, 0);
    if |groups| > 0 {
      var b' := Board(0, "", "", [], groups[1..], false, 0, 0);
      HasItemsIffCount(groups[1..]);
      if HasItems(b') {
        var g :| g in groups[1..] && |g.items| > 0;
        assert g in groups;
      }
      if HasItems(b) && |groups[0].items| == 0 {
        var g :| g in groups && |g.items| > 0;
        assert g in groups[1..];
      }
    }
  }

  /** "Add First Item" on an empty board: an item in the first group, with
      no defaults; nothing when there is no group. */
  function AddFirstItem(b: Board): (req: Option<(Option<int>, ColumnValues)>)
    ensures |b.groups| == 0 <==> req.None?
    ensures req.Some? ==> req.value == (b.groups[0].Id, map[])
  {
    if |b.groups| == 0 then None else Some((b.groups[0].Id, map[]))
  }

  /** The empty board's button asks for an item exactly when the kanban's
      "Add card" would, in the same first group, but passes no fields where
      "Add card" passes a title and a status. */
  lemma AddFirstItemMatchesAddCard(b: Board, status: string)
    ensures AddFirstItem(b).Some? <==> Kanban.AddCard(b.groups, status).Some?
    ensures AddFirstItem(b).Some? ==>
              && AddFirstItem(b).value.0 == Kanban.AddCard(b.groups, status).value.0
              && AddFirstItem(b).value.1.Keys == {}
              && Kanban.AddCard(b.groups, status).value.1.Keys == {"title", "status"}
  {
  }
}

=== FILE: comments_service.dfy ===
/** The in-memory comment service: a mutable list of comments and an id
    counter, seeded with three comments. Each call is one atomic step; the
    simulated delay is not modelled and the current time is `now`. Item
    and comment ids arrive already parsed to integers. */
module CommentsService {
  import opened Wrappers
  import opened Text
  import opened Seqs
  import opened Mentions
  import opened BoardModel
  import BoardService

  datatype CommentStore = CommentStore(comments: seq<Comment>, nextId: int)

  /** What a call leaves behind: the store afterwards and its result. */
  datatype Outcome<T> = Outcome(store: CommentStore, result: Result<T, Error>)

  /** Every stored comment's mentions are exactly what the extraction finds
      in its stored text. */
  ghost predicate MentionsConsistent(cs: seq<Comment>) {
    forall i :: 0 <= i < |cs| ==> cs[i].mentions == Extract(cs[i].content)
  }

  /** Every comment id is below the counter, so `create` hands out fresh ids. */
  ghost predicate IdsBelowCounter(st: CommentStore) {
    forall i :: 0 <= i < |st.comments| ==> st.comments[i].Id < st.nextId
  }

  /** The seed timestamps, read as UTC: 2024-01-10 09:30, 2024-01-11 14:15
      and 2024-01-11 16:45. */
  const Seed1At: int := 1704879000000
  const Seed2At: int := 1704982500000
  const Seed3At: int := 1704991500000

  const SeedContent1: string :=
    "Initial task setup completed. " + "@" + "sarah.chen" + (" please review the " + "requirements document.")
  const SeedContent2: string := BoardService.MockContent2
  const SeedContent3: string := "Working on the API endpoints " + "now. Should have this ready " + "by EOD today."

  lemma SeedMentions1()
    ensures Extract(SeedContent1) == ["sarah.chen"]
  {
    BoardService.SarahToken();
    NoAtNoMention(" please review the " + "requirements document.");
    ExtractWithMention("Initial task setup completed. ", "sarah.chen", " please review the " + "requirements document.");
  }

  lemma SeedMentions3()
    ensures Extract(SeedContent3) == []
  {
    NoAtNoMention(SeedContent3);
  }

  /** The module's initial state: three comments, two on item 1 and one on
      item 2, and the counter at 4. */
  function Seed(): (st: CommentStore)
    ensures |st.comments| == 3 && st.nextId == 4
    ensures MentionsConsistent(st.comments)
    ensures IdsBelowCounter(st)
  {
    SeedMentions1();
    BoardService.MockMentions2();
    SeedMentions3();
    CommentStore([
      Comment(1, 1, SeedContent1, Author(1, "Alex Thompson", "alex@company.com", None),
              ["sarah.chen"], Seed1At, Seed1At),
      Comment(2, 1, SeedContent2, Author(2, "Sarah Chen", "sarah@company.com", None),
              ["alex.thompson", "mike.rodriguez"], Seed2At, Seed2At),
      Comment(3, 2, SeedContent3, Author(3, "Mike Rodriguez", "mike@company.com", None),
              [], Seed3At, Seed3At)
    ], 4)
  }

  /** The comparator `new Date(a.createdAt) - new Date(b.createdAt)`: oldest first. */
  predicate OlderFirst(a: Comment, b: Comment) {
    a.createdAt <= b.createdAt
  }

  /** The reversed comparator: newest first. */
  predicate NewerFirst(a: Comment, b: Comment) {
    b.createdAt <= a.createdAt
  }

  lemma ComparatorsArePreorders()
    ensures TotalPreorder(OlderFirst) && TotalPreorder(NewerFirst)
  {
  }

  function OnItem(cs: seq<Comment>, itemId: int): seq<Comment> {
    Filter(cs, (c: Comment) => c.itemId == itemId)
  }

  /** `getAll`: the comments of one item, oldest first. */
  function GetAll(st: CommentStore, itemId: int): (r: seq<Comment>)
    ensures forall c :: multiset(r)[c] == if c.itemId == itemId then multiset(st.comments)[c] else 0
    ensures SortedBy(r, OlderFirst)
  {
    ComparatorsArePreorders();
    var own := OnItem(st.comments, itemId);
    var r := SortBy(own, OlderFirst);
    assert forall c :: multiset(r)[c] == multiset(own)[c];
    forall c
      ensures multiset(r)[c] == if c.itemId == itemId then multiset(st.comments)[c] else 0
    {
      FilterMultiplicity(st.comments, (c: Comment) => c.itemId == itemId, c);
    }
    r
  }

  function FindComment(cs: seq<Comment>, id: int): (r: Option<nat>)
    ensures r.Some? ==> r.value < |cs| && cs[r.value].Id == id
    ensures r.Some? ==> forall j :: 0 <= j < r.value ==> cs[j].Id != id
    ensures r.None? <==> forall j :: 0 <= j < |cs| ==> cs[j].Id != id
  {
    FindIndex(cs, (c: Comment) => c.Id == id)
  }

  /** `getById`: a copy of the first comment with that id, or not-found. */
  function GetById(st: CommentStore, id: int): (r: Result<Comment, Error>)
    ensures r.Success? <==> exists i :: 0 <= i < |st.comments| && st.comments[i].Id == id
    ensures r.Success? ==> exists i :: 0 <= i < |st.comments| && st.comments[i] == r.value && r.value.Id == id
                                       && forall j :: 0 <= j < i ==> st.comments[j].Id != id
    ensures r.Failure? ==> r.error == CommentNotFound(id)
  {
    match FindComment(st.comments, id)
    case None => Failure(CommentNotFound(id))
    case Some(i) => Success(st.comments[i])
  }

  datatype CommentDraft = CommentDraft(itemId: int, content: string, author: Option<Author>)

  /** `create`: the next id, the text trimmed, the author defaulted to the
      current user, and the mentions extracted from the text as submitted;
      the comment goes to the end of the list. */
  function Create(st: CommentStore, d: CommentDraft, now: int): (r: (CommentStore, Comment))
    ensures var (after, c) := r;
            && c.Id == st.nextId && after.nextId == st.nextId + 1
            && c.itemId == d.itemId && c.content == Trim(d.content)
            && c.author == (if d.author.Some? then d.author.value else BoardService.CurrentUser(1))
            && c.mentions == Extract(d.content)
            && c.createdAt == now && c.updatedAt == now
            && after.comments == st.comments + [c]
    ensures IdsBelowCounter(st) ==> IdsBelowCounter(r.0)
    ensures MentionsConsistent(st.comments) ==> MentionsConsistent(r.0.comments)
  {
    var c := Comment(st.nextId, d.itemId, Trim(d.content), d.author.GetOr(BoardService.CurrentUser(1)),
                     Extract(d.content), now, now);
    ExtractTrim(d.content);
    (CommentStore(st.comments + [c], st.nextId + 1), c)
  }

  /** The fields `update` may spread over a comment. Any `mentions` the
      caller passes are overwritten by the service. */
  datatype CommentPatch = CommentPatch(
    Id: Option<int>,
    itemId: Option<int>,
    content: Option<string>,
    author: Option<Author>,
    mentions: Option<seq<string>>,
    createdAt: Option<int>)

  /** `updateData.content` is truthy. */
  predicate NewContent(p: CommentPatch) {
    p.content.Some? && |p.content.value| > 0
  }

  function PatchComment(c: Comment, p: CommentPatch, now: int): Comment {
    var mentions := if NewContent(p) then Extract(p.content.value) else c.mentions;
    Comment(p.Id.GetOr(c.Id), p.itemId.GetOr(c.itemId), p.content.GetOr(c.content), p.author.GetOr(c.author),
            mentions, p.createdAt.GetOr(c.createdAt), now)
  }

  /** `r` is `c` with the fields named in `p` replaced and the others kept. */
  ghost predicate CommentPatchApplied(c: Comment, p: CommentPatch, r: Comment) {
    && r.Id == (if p.Id.Some? then p.Id.value else c.Id)
    && r.itemId == (if p.itemId.Some? then p.itemId.value else c.itemId)
    && r.content == (if p.content.Some? then p.content.value else c.content)
    && r.author == (if p.author.Some? then p.author.value else c.author)
    && r.createdAt == (if p.createdAt.Some? then p.createdAt.value else c.createdAt)
  }

  /** `update`: patches the first comment with that id in place; its
      mentions are re-extracted from new non-empty text and kept otherwise,
      whatever the caller passed. The new text is not trimmed. */
  function Update(st: CommentStore, id: int, p: CommentPatch, now: int): (o: Outcome<Comment>)
    ensures o.result.Failure? <==> forall j :: 0 <= j < |st.comments| ==> st.comments[j].Id != id
    ensures o.result.Failure? ==> o.store == st && o.result.error == CommentNotFound(id)
    ensures o.result.Success? ==>
              && o.store.nextId == st.nextId && |o.store.comments| == |st.comments|
              && exists i :: 0 <= i < |st.comments| && st.comments[i].Id == id
                   && (forall j :: 0 <= j < i ==> st.comments[j].Id != id)
                   && o.store.comments == st.comments[i := o.result.value]
                   && CommentPatchApplied(st.comments[i], p, o.result.value)
                   && o.result.value.mentions == (if NewContent(p) then Extract(p.content.value) else st.comments[i].mentions)
                   && o.result.value.updatedAt == now
  {
    match FindComment(st.comments, id)
    case None => Outcome(st, Failure(CommentNotFound(id)))
    case Some(i) =>
      var c := PatchComment(st.comments[i], p, now);
      Outcome(st.(comments := st.comments[i := c]), Success(c))
  }

  /** An update that leaves the text alone, or replaces it with non-empty
      text, keeps every comment's mentions in step with its text. */
  lemma UpdateKeepsMentionsConsistent(st: CommentStore, id: int, p: CommentPatch, now: int)
    requires MentionsConsistent(st.comments)
    requires p.content != Some("")
    ensures MentionsConsistent(Update(st, id, p, now).store.comments)
  {
  }

  /** Replacing a text with the empty string is not truthy, so the old
      mentions stay on a comment whose text no longer has any. */
  lemma UpdateToEmptyKeepsStaleMentions()
    ensures var o := Update(Seed(), 1, CommentPatch(None, None, Some(""), None, None, None), 0);
            && o.result.Success?
            && o.result.value.content == ""
            && o.result.value.mentions == ["sarah.chen"]
            && !MentionsConsistent(o.store.comments)
  {
    var o := Update(Seed(), 1, CommentPatch(None, None, Some(""), None, None, None), 0);
    assert Extract("") == [];
    assert o.store.comments[0].mentions != Extract(o.store.comments[0].content);
  }

  /** `delete`: removes the first comment with that id. */
  function Delete(st: CommentStore, id: int): (o: Outcome<bool>)
    ensures o.result.Failure? <==> forall j :: 0 <= j < |st.comments| ==> st.comments[j].Id != id
    ensures o.result.Failure? ==> o.store == st && o.result.error == CommentNotFound(id)
    ensures o.result.Success? ==>
              && o.result.value
              && o.store.nextId == st.nextId
              && exists i :: 0 <= i < |st.comments| && st.comments[i].Id == id
                   && (forall j :: 0 <= j < i ==> st.comments[j].Id != id)
                   && o.store.comments == st.comments[..i] + st.comments[i + 1..]
    ensures MentionsConsistent(st.comments) ==> MentionsConsistent(o.store.comments)
    ensures IdsBelowCounter(st) ==> IdsBelowCounter(o.store)
  {
    match FindComment(st.comments, id)
    case None => Outcome(st, Failure(CommentNotFound(id)))
    case Some(i) =>
      var rest := st.comments[..i] + st.comments[i + 1..];
      assert forall j :: 0 <= j < |rest| ==> rest[j] == st.comments[if j < i then j else j + 1];
      Outcome(st.(comments := rest), Success(true))
  }

  /** The filter `search` applies to a non-blank query. */
  predicate MatchesQuery(c: Comment, lowerQuery: string) {
    Contains(Lower(c.content), lowerQuery) || Contains(Lower(c.author.name), lowerQuery)
  }

  /** `search`: a query that is blank after trimming returns all of the
      item's comments; otherwise the comments whose text or author name
      contains the lower-cased (untrimmed) query, ignoring case. Oldest first
      either way. */
  function Search(st: CommentStore, itemId: int, query: string): (r: seq<Comment>)
    ensures |Trim(query)| == 0 ==> r == GetAll(st, itemId)
    ensures |Trim(query)| > 0 ==>
              forall c :: multiset(r)[c] ==
                if c.itemId == itemId && MatchesQuery(c, Lower(query)) then multiset(st.comments)[c] else 0
    ensures SortedBy(r, OlderFirst)
  {
    if |Trim(query)| == 0 then GetAll(st, itemId)
    else
      ComparatorsArePreorders();
      var lq := Lower(query);
      var own := OnItem(st.comments, itemId);
      var hits := Filter(own, (c: Comment) => MatchesQuery(c, lq));
      var r := SortBy(hits, OlderFirst);
      forall c
        ensures multiset(r)[c] ==
                if c.itemId == itemId && MatchesQuery(c, lq) then multiset(st.comments)[c] else 0
      {
        FilterMultiplicity(own, (c: Comment) => MatchesQuery(c, lq), c);
        FilterMultiplicity(st.comments, (c: Comment) => c.itemId == itemId, c);
      }
      r
  }

  /** Searching never returns a comment that listing the item would not. */
  lemma SearchWithinGetAll(st: CommentStore, itemId: int, query: string)
    ensures multiset(Search(st, itemId, query)) <= multiset(GetAll(st, itemId))
  {
    var r := Search(st, itemId, query);
    var all := GetAll(st, itemId);
    if |Trim(query)| > 0 {
      forall c
        ensures multiset(r)[c] <= multiset(all)[c]
      {
      }
    }
  }

  /** `getMentions`: every comment whose mentions list the username, newest
      first. */
  function GetMentions(st: CommentStore, username: string): (r: seq<Comment>)
    ensures forall c :: multiset(r)[c] == if username in c.mentions then multiset(st.comments)[c] else 0
    ensures SortedBy(r, NewerFirst)
  {
    ComparatorsArePreorders();
    var hits := Filter(st.comments, (c: Comment) => username in c.mentions);
    var r := SortBy(hits, NewerFirst);
    forall c
      ensures multiset(r)[c] == if username in c.mentions then multiset(st.comments)[c] else 0
    {
      FilterMultiplicity(st.comments, (c: Comment) => username in c.mentions, c);
    }
    r
  }

  /** While mentions are consistent, `getMentions` finds exactly the
      comments whose text mentions the username. */
  lemma GetMentionsByText(st: CommentStore, username: string, c: Comment)
    requires MentionsConsistent(st.comments)
    ensures c in GetMentions(st, username) <==> c in st.comments && username in Extract(c.content)
  {
    var r := GetMentions(st, username);
    assert c in r <==> multiset(r)[c] > 0;
    if c in st.comments {
      var i :| 0 <= i < |st.comments| && st.comments[i] == c;
    }
  }

  /** A comment created with a mention of a directory member is found by
      `getMentions` for that member. */
  lemma CreatedMentionIsFound(st: CommentStore, itemId: int, pre: string, k: nat, rest: string, now: int)
    requires k < |BoardService.GetTeamMembers()|
    requires '@' !in pre
    requires |rest| == 0 || IsSpace(rest[0])
    ensures var u := BoardService.GetTeamMembers()[k].username;
            var (after, c) := Create(st, CommentDraft(itemId, pre + "@" + u + rest, None), now);
            c in GetMentions(after, u)
  {
    var u := BoardService.GetTeamMembers()[k].username;
    BoardService.TeamUsernamesAreTokens();
    if |rest| > 0 {
      SpaceIsInert(rest[0]);
    }
    ExtractWithMention(pre, u, rest);
    var (after, c) := Create(st, CommentDraft(itemId, pre + "@" + u + rest, None), now);
    assert u in c.mentions;
    assert c == after.comments[|after.comments| - 1];
    var r := GetMentions(after, u);
    assert multiset(after.comments)[c] > 0;
    assert multiset(r)[c] > 0;
  }

  /** A directory entry as this service returns it: a team member with an
      avatar and a role. */
  datatype Profile = Profile(member: TeamMember, avatar: Option<string>, role: string)

  /** `getTeamMembers`: the same six people as the board service's
      directory, each with a role and no avatar. */
  function GetTeamMembers(): (ps: seq<Profile>)
    ensures |ps| == |BoardService.GetTeamMembers()|
    ensures forall i :: 0 <= i < |ps| ==> ps[i].member == BoardService.GetTeamMembers()[i] && ps[i].avatar.None?
  {
    var ms := BoardService.GetTeamMembers();
    [
      Profile(ms[0], None, "Project Manager"),
      Profile(ms[1], None, "Frontend Developer"),
      Profile(ms[2], None, "Backend Developer"),
      Profile(ms[3], None, "Designer"),
      Profile(ms[4], None, "QA Engineer"),
      Profile(ms[5], None, "DevOps Engineer")
    ]
  }
}

=== FILE: flows.dfy ===
/** How the kanban view's requests play out through the board page's
    handlers and the service: a dropped card lands in the column it was
    dropped on, and a card added to a column shows up in it. */
module Flows {
  import opened Wrappers
  import opened BoardModel
  import BoardService
  import BoardView
  import Kanban

  /** Dropping a card on a status column and the page's update succeeding
      moves every copy of the item to that column: each now has exactly
      that status. */
  lemma DropMovesCard(b: Board, card: Kanban.Card, status: string, k: nat, i: nat)
    requires status != ""
    requires GroupsHaveItem(b.groups, card.item.Id)
    requires k < |b.groups| && i < |b.groups[k].items| && b.groups[k].items[i].Id == card.item.Id
    ensures var d := Kanban.HandleDrop(Some(card), true, status);
            && d.update.Some? && d.dragged.None?
            && var s := BoardView.HandleUpdateItem(b, d.update.value.0, d.update.value.1, true);
               && |s.board.groups| == |b.groups| && i < |s.board.groups[k].items|
               && Kanban.RawStatus(s.board.groups[k].items[i]) == status
               && Kanban.ItemStatus(s.board.groups[k].items[i]) == status
  {
    var d := Kanban.HandleDrop(Some(card), true, status);
    var s := BoardView.HandleUpdateItem(b, card.item.Id, d.update.value.1, true);
    BoardView.UpdateReplacesEveryCopy(b, card.item.Id, d.update.value.1, k, i);
    assert s.board.groups[k].items[i] == s.request.value.1;
    assert "status" in d.update.value.1;
  }

  /** "Add card" on a column, through the page's `handleAddItem` and the
      service's `createItem`: when the service finds the first group, the
      new item sits at the end of that group and its status is the
      column's. */
  lemma AddCardLandsInColumn(st: BoardService.Store, b: Board, status: string, now: int, at: int)
    requires |b.groups| > 0 && status != ""
    ensures var req := Kanban.AddCard(b.groups, status);
            && req.Some?
            && var (gid, defaults) := req.value;
               var rep := BoardService.CreateItem(st, BoardView.AddItemRequest(gid, defaults, now), at);
               var s := BoardView.HandleAddItem(b, gid, defaults, now, rep.result);
               rep.result.Success? ==>
                 && |s.board.groups| == |b.groups|
                 && |s.board.groups[0].items| == |b.groups[0].items| + 1
                 && var it := s.board.groups[0].items[|b.groups[0].items|];
                    && it == rep.result.value
                    && Kanban.ItemStatus(it) == status
                    && it.columnValues["title"] == "New " + status + " Item"
  {
    var (gid, defaults) := Kanban.AddCard(b.groups, status).value;
    var rep := BoardService.CreateItem(st, BoardView.AddItemRequest(gid, defaults, now), at);
    var s := BoardView.HandleAddItem(b, gid, defaults, now, rep.result);
    if rep.result.Success? {
      assert s.board.groups[0] == b.groups[0].(items := b.groups[0].items + [rep.result.value]);
      var cv := rep.result.value.columnValues;
      assert cv == BoardView.AddItemValues(defaults);
      assert cv["status"] == status;
    }
  }
}

=== FILE: item_detail.dfy ===
/** The item detail dialog: the comment draft and its submission, comment
    deletion, the `@` autocomplete (when it opens, what it filters, how a
    choice is spliced into the draft), and the priority colour. */
module ItemDetail {
  import opened Wrappers
  import opened Text
  import opened Seqs
  import opened Mentions
  import opened BoardModel
  import BoardService
  import PersonAvatar
  import Kanban

  /** The dialog's comment state. */
  datatype Dialog = Dialog(
    comments: seq<Comment>,
    draft: string,
    submitting: bool,
    cursor: nat,
    showMentions: bool,
    mentionQuery: string)

  /** What a handler leaves: the dialog afterwards and the request it sent. */
  datatype Effect<Req> = Effect(dialog: Dialog, request: Option<Req>)

  /** `handleCommentSubmit`: nothing when the trimmed draft is empty or a
      submission is in flight. Otherwise the trimmed draft is sent; when the
      service returns a comment it is appended and the draft cleared, and
      when it throws the draft is kept. Either way the dialog is no longer
      submitting. */
  function Submit(d: Dialog, itemId: int, reply: Option<Comment>): (e: Effect<(int, string)>)
    ensures |Trim(d.draft)| == 0 || d.submitting ==> e.dialog == d && e.request.None?
    ensures |Trim(d.draft)| > 0 && !d.submitting ==>
              && e.request == Some((itemId, Trim(d.draft)))
              && e.dialog == d.(comments := e.dialog.comments, draft := e.dialog.draft, submitting := false)
              && (reply.Some? ==> e.dialog.comments == d.comments + [reply.value] && e.dialog.draft == "")
              && (reply.None? ==> e.dialog.comments == d.comments && e.dialog.draft == d.draft)
  {
    var content := Trim(d.draft);
    if |content| == 0 || d.submitting then Effect(d, None)
    else
      match reply
      case Some(c) => Effect(d.(comments := d.comments + [c], draft := "", submitting := false), Some((itemId, content)))
      case None => Effect(d.(submitting := false), Some((itemId, content)))
  }

  /** A submitted draft, once the service has built the comment, records
      every mention of the draft as typed: trimming drops no mention. */
  lemma SubmitRecordsDraftMentions(d: Dialog, itemId: int, random: nat, now: int)
    requires random < 10000
    requires |Trim(d.draft)| > 0 && !d.submitting
    ensures var c := BoardService.AddComment(itemId, Trim(d.draft), 1, random, now);
            var e := Submit(d, itemId, Some(c));
            && e.dialog.comments[|e.dialog.comments| - 1].mentions == Extract(d.draft)
            && e.dialog.draft == ""
  {
    ExtractTrim(d.draft);
  }

  /** `handleDeleteComment`: nothing unless the user confirms; then the
      comment id is sent, and once the service succeeds every comment with
      that id leaves the list. */
  function DeleteComment(d: Dialog, commentId: int, confirmed: bool, ok: bool): (e: Effect<int>)
    ensures !confirmed ==> e.dialog == d && e.request.None?
    ensures confirmed ==> e.request == Some(commentId)
    ensures confirmed && !ok ==> e.dialog == d
    ensures confirmed && ok ==>
              && e.dialog == d.(comments := e.dialog.comments)
              && IsSubseq(e.dialog.comments, d.comments)
              && (forall c :: c in e.dialog.comments <==> c in d.comments && c.Id != commentId)
              && forall c :: multiset(e.dialog.comments)[c] == if c.Id != commentId then multiset(d.comments)[c] else 0
  {
    var keep := (c: Comment) => c.Id != commentId;
    if !confirmed then Effect(d, None)
    else if !ok then Effect(d, Some(commentId))
    else
      FilterCounts(d.comments, keep);
      Effect(d.(comments := Filter(d.comments, keep)), Some(commentId))
  }

  /** `substring(0, n)`: the prefix of length `n`, or all of `s` when `n` is
      past its end. */
  function Before(s: string, n: nat): (r: string)
    ensures |r| == (if n <= |s| then n else |s|) && r == s[..|r|]
  {
    if n <= |s| then s[..n] else s
  }

  function After(s: string, n: nat): (r: string)
    ensures Before(s, n) + r == s
  {
    if n <= |s| then s[n..] else ""
  }

  /** Start of the run of word characters that ends `s`. */
  function WordRunStart(s: string): (k: nat)
    ensures k <= |s|
    ensures forall i :: k <= i < |s| ==> IsWordChar(s[i])
    ensures k == 0 || !IsWordChar(s[k - 1])
    decreases |s|
  {
    if |s| > 0 && IsWordChar(s[|s| - 1]) then WordRunStart(s[..|s| - 1]) else |s|
  }

  /** `/@(\w*)$/` matches `s` at `i`: an `@` there and nothing but word
      characters after it. */
  ghost predicate TriggerAt(s: string, i: int) {
    0 <= i < |s| && s[i] == '@' && forall j :: i < j < |s| ==> IsWordChar(s[j])
  }

  /** The match of `/@(\w*)$/` in `s`: where the `@` is, if anywhere. */
  function MentionTrigger(s: string): (r: Option<nat>)
    ensures r.Some? ==> TriggerAt(s, r.value) && forall i :: TriggerAt(s, i) ==> i == r.value
    ensures r.None? <==> forall i :: !TriggerAt(s, i)
  {
    var k := WordRunStart(s);
    if k > 0 && s[k - 1] == '@' then
      assert forall i :: TriggerAt(s, i) ==> i == k - 1 by {
        forall i | TriggerAt(s, i)
          ensures i == k - 1
        {
          assert !IsWordChar(s[i]) && !IsWordChar(s[k - 1]);
        }
      }
      Some(k - 1)
    else
      assert forall i :: !TriggerAt(s, i) by {
        forall i | 0 <= i < |s| && s[i] == '@'
          ensures !TriggerAt(s, i)
        {
          assert !IsWordChar(s[i]);
          assert i < k - 1 || i == k - 1 || i >= k;
          if i < k - 1 {
            assert !IsWordChar(s[k - 1]);
          }
        }
      }
      None
  }

  /** `handleTextareaChange`: the draft and cursor follow the text area; the
      dropdown opens iff the text before the cursor ends in `@` and word
      characters, and its query is those characters lower-cased. With no
      match the dropdown closes and the query is left as it was. */
  function TextareaChange(d: Dialog, value: string, cursor: nat): (r: Dialog)
    ensures r.draft == value && r.cursor == cursor
    ensures r.comments == d.comments && r.submitting == d.submitting
    ensures r.showMentions <==> exists i :: TriggerAt(Before(value, cursor), i)
    ensures r.showMentions ==>
              exists i :: TriggerAt(Before(value, cursor), i) && r.mentionQuery == Lower(Before(value, cursor)[i + 1..])
    ensures !r.showMentions ==> r.mentionQuery == d.mentionQuery
  {
    var before := Before(value, cursor);
    match MentionTrigger(before)
    case Some(i) => d.(draft := value, cursor := cursor, showMentions := true, mentionQuery := Lower(before[i + 1..]))
    case None => d.(draft := value, cursor := cursor, showMentions := false)
  }

  /** `handleMentionSelect`: with the trigger still before the cursor, the
      `@` and partial word are replaced by `@username ` and the cursor moves
      just past the inserted space; the dropdown closes either way. */
  function MentionSelect(d: Dialog, username: string): (r: (Dialog, Option<nat>))
    ensures !r.0.showMentions
    ensures MentionTrigger(Before(d.draft, d.cursor)).None? ==> r.0 == d.(showMentions := false) && r.1.None?
    ensures MentionTrigger(Before(d.draft, d.cursor)).Some? ==>
              var i := MentionTrigger(Before(d.draft, d.cursor)).value;
              var beforeMention := Before(d.draft, d.cursor)[..i];
              && r.0 == d.(draft := r.0.draft, showMentions := false)
              && r.0.draft == beforeMention + "@" + username + " " + After(d.draft, d.cursor)
              && r.1 == Some(|beforeMention| + |username| + 2)
  {
    var before := Before(d.draft, d.cursor);
    var after := After(d.draft, d.cursor);
    match MentionTrigger(before)
    case None => (d.(showMentions := false), None)
    case Some(i) =>
      var text := before[..i] + "@" + username + " " + after;
      (d.(draft := text, showMentions := false), Some(i + |username| + 2))
  }

  /** The new cursor sits right after `@username `: what precedes it is the
      text before the `@` and the inserted mention, and what follows is the
      text that was after the old cursor. */
  lemma MentionSelectCursor(d: Dialog, username: string)
    requires MentionTrigger(Before(d.draft, d.cursor)).Some?
    ensures var (r, cur) := MentionSelect(d, username);
            var i := MentionTrigger(Before(d.draft, d.cursor)).value;
            && cur.Some? && cur.value <= |r.draft|
            && r.draft[..cur.value] == d.draft[..i] + "@" + username + " "
            && r.draft[cur.value..] == After(d.draft, d.cursor)
  {
    var (r, cur) := MentionSelect(d, username);
    var before := Before(d.draft, d.cursor);
    var i := MentionTrigger(before).value;
    var head := before[..i] + "@" + username + " ";
    assert r.draft == head + After(d.draft, d.cursor);
    assert |head| == cur.value;
    assert before[..i] == d.draft[..i];
  }

  /** Splicing `@t ` between two texts adds exactly the mention `t` to
      what is extracted: the space ends the token and starts no match. */
  lemma SpliceExtracts(kept: string, t: string, after: string)
    requires IsToken(t)
    ensures Extract(kept + "@" + t + " " + after) == Extract(kept) + [t] + Extract(after)
  {
    var tail := "@" + t + (" " + after);
    assert kept + "@" + t + " " + after == kept + tail;
    assert tail[0] == '@';
    ExtractAppend(kept, tail);
    assert (" " + after)[0] == ' ';
    ExtractMentionFront(t, " " + after);
    assert "@" + t + (" " + after) == tail;
    ExtractSkipsPrefix(" ", after);
  }

  /** Choosing a username that is a whole mention token writes a mention the
      extraction reads back: the draft's mentions are those of the text
      before the `@`, then the username, then those of the text after the
      cursor. Every directory username qualifies (`TeamUsernamesAreTokens`). */
  lemma MentionSelectExtracts(d: Dialog, username: string)
    requires IsToken(username)
    requires MentionTrigger(Before(d.draft, d.cursor)).Some?
    ensures var i := MentionTrigger(Before(d.draft, d.cursor)).value;
            Extract(MentionSelect(d, username).0.draft)
              == Extract(d.draft[..i]) + [username] + Extract(After(d.draft, d.cursor))
  {
    var before := Before(d.draft, d.cursor);
    var i := MentionTrigger(before).value;
    assert before[..i] == d.draft[..i];
    SpliceExtracts(d.draft[..i], username, After(d.draft, d.cursor));
  }

  /** `filteredMembers`: the members whose lower-cased name or username
      contains the (already lower-cased) query, in directory order. */
  function FilteredMembers(members: seq<TeamMember>, query: string): (r: seq<TeamMember>)
    ensures IsSubseq(r, members)
    ensures forall m :: m in r <==> m in members && (Contains(Lower(m.name), query) || Contains(Lower(m.username), query))
  {
    Filter(members, (m: TeamMember) => Contains(Lower(m.name), query) || Contains(Lower(m.username), query))
  }

  /** An empty query keeps every member. */
  lemma EmptyQueryKeepsAll(members: seq<TeamMember>)
    ensures FilteredMembers(members, "") == members
  {
    forall m | m in members
      ensures Contains(Lower(m.name), "")
    {
      assert IsPrefix("", Lower(m.name));
    }
    FilterAll(members, (m: TeamMember) => Contains(Lower(m.name), "") || Contains(Lower(m.username), ""));
  }

  function Min(a: int, b: int): int {
    if a < b then a else b
  }

  /** The dropdown: at most the first six matching members, shown only while
      the trigger is active and something matches. */
  function ShownMembers(d: Dialog, members: seq<TeamMember>): (r: seq<TeamMember>)
    ensures |r| <= 6 && |r| <= |FilteredMembers(members, d.mentionQuery)|
    ensures !d.showMentions ==> r == []
    ensures d.showMentions ==> r == FilteredMembers(members, d.mentionQuery)[..|r|]
    ensures d.showMentions ==> |r| == Min(6, |FilteredMembers(members, d.mentionQuery)|)
  {
    var fm := FilteredMembers(members, d.mentionQuery);
    if !d.showMentions || |fm| == 0 then []
    else if |fm| <= 6 then fm
    else fm[..6]
  }

  /** The avatar beside a comment, drawn from its author's name. */
  function CommentAvatar(c: Comment): (a: PersonAvatar.Avatar)
    ensures a == PersonAvatar.RenderPerson(Some(PersonAvatar.Record(c.author.name)))
    ensures c.author.name != "" ==> a == PersonAvatar.Render(Some(c.author.name))
  {
    PersonAvatar.RenderPersonExtendsAsWritten(Some(PersonAvatar.Record(c.author.name)));
    PersonAvatar.RenderPerson(Some(PersonAvatar.Record(c.author.name)))
  }

  /** The avatar beside a member in the dropdown, drawn from the member's
      name. */
  function MemberAvatar(m: TeamMember): (a: PersonAvatar.Avatar)
    ensures m.name != "" ==> a == PersonAvatar.Render(Some(m.name))
    ensures a.Badge? && a.color in PersonAvatar.AvatarColors
  {
    PersonAvatar.RenderPersonExtendsAsWritten(Some(PersonAvatar.Record(m.name)));
    PersonAvatar.RenderPerson(Some(PersonAvatar.Record(m.name)))
  }

  /** As written, every comment's author is passed as a record, so its
      avatar, and with it the comment list, fails to render. */
  lemma CommentAvatarThrowsAsWritten(c: Comment)
    ensures PersonAvatar.RenderAsWritten(Some(PersonAvatar.Record(c.author.name))).Failure?
    ensures CommentAvatar(c).Badge?
  {
  }

  /** The colour of the priority pill. */
  function PriorityColor(priority: string): (c: string)
    ensures priority == "High" ==> c == "red"
    ensures priority == "Medium" ==> c == "orange"
    ensures priority != "High" && priority != "Medium" ==> c == "gray"
  {
    if priority == "High" then "red" else if priority == "Medium" then "orange" else "gray"
  }

  /** The priority pill's colour tells High and Medium apart from each other
      and from every other priority, and its red and orange are the status
      pill's colours for "Blocked" and "Review". */
  lemma PriorityColorIdentifies(p1: string, p2: string)
    ensures PriorityColor(p1) == PriorityColor(p2) && PriorityColor(p1) != "gray" ==> p1 == p2
    ensures PriorityColor(p1) == "gray" <==> p1 != "High" && p1 != "Medium"
    ensures PriorityColor("High") == Kanban.StatusColor("Blocked")
    ensures PriorityColor("Medium") == Kanban.StatusColor("Review")
  {
  }
}

=== FILE: kanban.dfy ===
/** The kanban view: which status columns a board shows, which cards go
    into each, what a drop and the "Add card" button ask of the page, and
    the colour of a status. */
module Kanban {
  import opened Wrappers
  import opened Seqs
  import opened BoardModel

  const NotStarted: string := "Not Started"

  /** The columns of a board without a status-typed column. */
  const FallbackColumns: seq<string> := ["Not Started", "In Progress", "Done"]

  /** The statuses a board with a status-typed column always shows, in order. */
  const CanonicalStatuses: seq<string> := ["Not Started", "In Progress", "Review", "Done", "Blocked"]

  predicate HasStatusColumn(cols: seq<Column>) {
    exists c :: c in cols && c.kind == "status"
  }

  /** `item.columnValues?.status`, with an absent key read as the empty
      string: both are falsy and treated alike everywhere. */
  function RawStatus(it: Item): string {
    if "status" in it.columnValues then it.columnValues["status"] else ""
  }

  /** The bucket an item goes to: its status, or "Not Started" when that is
      missing or empty. */
  function ItemStatus(it: Item): (s: string)
    ensures |s| > 0
    ensures RawStatus(it) == "" ==> s == NotStarted
    ensures RawStatus(it) != "" ==> s == RawStatus(it)
  {
    var raw := RawStatus(it);
    if raw == "" then NotStarted else raw
  }

  /** An item as the kanban view shows it, tagged with the `Id` and title of
      the group it sits in. */
  datatype Card = Card(item: Item, groupId: Option<int>, groupTitle: string)

  function GroupCards(g: Group): (cs: seq<Card>)
    ensures |cs| == |g.items|
    ensures forall i :: 0 <= i < |cs| ==> cs[i] == Card(g.items[i], g.Id, g.title)
  {
    seq(|g.items|, i requires 0 <= i < |g.items| => Card(g.items[i], g.Id, g.title))
  }

  function CountItems(groups: seq<Group>): nat {
    if |groups| == 0 then 0 else |groups[0].items| + CountItems(groups[1..])
  }

  /** Every item of the board, groups in order and items in order within
      each group, each carrying its own group's `Id` and title. */
  function AllCards(groups: seq<Group>): (cs: seq<Card>)
    ensures |cs| == CountItems(groups)
    ensures forall c :: c in cs ==> exists k :: 0 <= k < |groups| && c.item in groups[k].items
                                            && c.groupId == groups[k].Id && c.groupTitle == groups[k].title
    decreases |groups|
  {
    if |groups| == 0 then []
    else
      var rest := AllCards(groups[1..]);
      var r := GroupCards(groups[0]) + rest;
      forall c | c in r
        ensures exists k :: 0 <= k < |groups| && c.item in groups[k].items
                            && c.groupId == groups[k].Id && c.groupTitle == groups[k].title
      {
        if c in GroupCards(groups[0]) {
          var i :| 0 <= i < |groups[0].items| && GroupCards(groups[0])[i] == c;
          assert c.item == groups[0].items[i];
        } else {
          assert c in rest;
          var k :| 0 <= k < |groups[1..]| && c.item in groups[1..][k].items
                   && c.groupId == groups[1..][k].Id && c.groupTitle == groups[1..][k].title;
          assert groups[1..][k] == groups[k + 1];
        }
      }
      r
  }

  /** Every item of the board shows up as a card of its group. */
  lemma {:induction false} EveryItemHasCard(groups: seq<Group>, k: nat, i: nat)
    requires k < |groups| && i < |groups[k].items|
    ensures Card(groups[k].items[i], groups[k].Id, groups[k].title) in AllCards(groups)
    decreases k
  {
    if k == 0 {
      assert GroupCards(groups[0])[i] == Card(groups[0].items[i], groups[0].Id, groups[0].title);
    } else {
      EveryItemHasCard(groups[1..], k - 1, i);
      assert groups[1..][k - 1] == groups[k];
    }
  }

  predicate InBucket(c: Card, status: string) {
    ItemStatus(c.item) == status
  }

  function Bucket(cs: seq<Card>, status: string): seq<Card> {
    Filter(cs, (c: Card) => InBucket(c, status))
  }

  /** `getItemsByStatus`: group by group, the cards whose item status is the
      bucket's. */
  function ItemsByStatus(groups: seq<Group>, status: string): (r: seq<Card>)
    ensures forall c :: c in r <==> c in AllCards(groups) && ItemStatus(c.item) == status
    decreases |groups|
  {
    if |groups| == 0 then []
    else Bucket(GroupCards(groups[0]), status) + ItemsByStatus(groups[1..], status)
  }

  /** The group-by-group collection keeps the board's order: it is the
      filter of the whole card list. */
  lemma {:induction false} ItemsByStatusInOrder(groups: seq<Group>, status: string)
    ensures ItemsByStatus(groups, status) == Bucket(AllCards(groups), status)
    ensures IsSubseq(ItemsByStatus(groups, status), AllCards(groups))
    decreases |groups|
  {
    if |groups| > 0 {
      ItemsByStatusInOrder(groups[1..], status);
      FilterAppend(GroupCards(groups[0]), AllCards(groups[1..]), (c: Card) => InBucket(c, status));
    }
  }

  /** One step of the status collection: a truthy status not yet present is
      added at the end, as `Set.prototype.add` does. */
  function AddStatus(acc: seq<string>, s: string): seq<string> {
    if s == "" || s in acc then acc else acc + [s]
  }

  function RawStatuses(cs: seq<Card>): (xs: seq<string>)
    ensures |xs| == |cs|
    ensures forall i :: 0 <= i < |cs| ==> xs[i] == RawStatus(cs[i].item)
  {
    seq(|cs|, i requires 0 <= i < |cs| => RawStatus(cs[i].item))
  }

  /** In `xs`, `a` occurs at some position before any occurrence of `b`. */
  predicate MetBefore(xs: seq<string>, a: string, b: string) {
    exists p :: 0 <= p < |xs| && xs[p] == a && b !in xs[..p + 1]
  }

  /** Adding one more status keeps the statuses after the canonical five in
      the order their first occurrences are met. */
  lemma AddStatusKeepsOrder(init: seq<string>, x: string, acc: seq<string>, xs: seq<string>, r: seq<string>)
    requires xs == init + [x] && r == AddStatus(acc, x)
    requires |acc| >= 5 && acc[..5] == CanonicalStatuses && NoDuplicates(acc)
    requires forall s :: s in acc <==> s in CanonicalStatuses || (s != "" && s in init)
    requires forall i, j :: 5 <= i < j < |acc| ==> MetBefore(init, acc[i], acc[j])
    ensures forall i, j :: 5 <= i < j < |r| ==> MetBefore(xs, r[i], r[j])
  {
    forall i, j | 5 <= i < j < |r|
      ensures MetBefore(xs, r[i], r[j])
    {
      assert i < |acc| && r[i] == acc[i];
      if j < |acc| {
        assert r[j] == acc[j];
        assert MetBefore(init, acc[i], acc[j]);
        var p :| 0 <= p < |init| && init[p] == acc[i] && acc[j] !in init[..p + 1];
        assert xs[..p + 1] == init[..p + 1];
        assert xs[p] == r[i];
      } else {
        assert r == acc + [x] && r[j] == x;
        assert acc[i] !in CanonicalStatuses by {
          assert forall k :: 0 <= k < 5 ==> CanonicalStatuses[k] == acc[k];
          assert forall k :: 0 <= k < 5 ==> acc[k] != acc[i];
        }
        assert acc[i] in acc;
        var p :| 0 <= p < |init| && init[p] == acc[i];
        assert x !in init;
        assert xs[..p + 1] == init[..p + 1];
        assert xs[p] == r[i];
      }
    }
  }

  /** The canonical statuses followed by the statuses of `xs`, each added in
      turn. */
  function CollectStatuses(xs: seq<string>): (cols: seq<string>)
    ensures |cols| >= 5 && cols[..5] == CanonicalStatuses
    ensures NoDuplicates(cols)
    ensures forall s :: s in cols <==> s in CanonicalStatuses || (s != "" && s in xs)
    ensures forall i, j :: 5 <= i < j < |cols| ==> MetBefore(xs, cols[i], cols[j])
    decreases |xs|
  {
    if |xs| == 0 then CanonicalStatuses
    else
      var init := xs[..|xs| - 1];
      var x := xs[|xs| - 1];
      var acc := CollectStatuses(init);
      var r := AddStatus(acc, x);
      assert xs == init + [x];
      AddStatusKeepsOrder(init, x, acc, xs, r);
      r
  }

  /** `getStatusColumns`. */
  function StatusColumns(b: Board): (cols: seq<string>)
    ensures !HasStatusColumn(b.columns) ==> cols == FallbackColumns
    ensures HasStatusColumn(b.columns) ==> cols == CollectStatuses(RawStatuses(AllCards(b.groups)))
  {
    if !HasStatusColumn(b.columns) then FallbackColumns
    else CollectStatuses(RawStatuses(AllCards(b.groups)))
  }

  /** With a status-typed column the columns are the canonical five, in
      order, then every other non-empty status of the board's items in the
      order first met, none twice. */
  lemma StatusColumnsContents(b: Board)
    requires HasStatusColumn(b.columns)
    ensures var cols := StatusColumns(b);
            && cols[..5] == CanonicalStatuses
            && NoDuplicates(cols)
            && (forall c :: c in AllCards(b.groups) && RawStatus(c.item) != "" ==> RawStatus(c.item) in cols)
            && (forall k :: 5 <= k < |cols| ==> exists c :: c in AllCards(b.groups) && RawStatus(c.item) == cols[k])
  {
    var cs := AllCards(b.groups);
    var xs := RawStatuses(cs);
    var cols := StatusColumns(b);
    forall c | c in cs && RawStatus(c.item) != ""
      ensures RawStatus(c.item) in cols
    {
      var i :| 0 <= i < |cs| && cs[i] == c;
      assert xs[i] == RawStatus(c.item);
    }
    forall k | 5 <= k < |cols|
      ensures exists c :: c in cs && RawStatus(c.item) == cols[k]
    {
      assert cols[k] !in CanonicalStatuses by {
        assert cols[..5] == CanonicalStatuses;
        forall m | 0 <= m < 5
          ensures cols[m] != cols[k]
        {
        }
      }
      assert cols[k] in xs;
      var i :| 0 <= i < |xs| && xs[i] == cols[k];
      assert cs[i] in cs;
    }
  }

  /** With a status-typed column every card sits in exactly one column's
      bucket. */
  lemma EveryCardInOneBucket(b: Board, c: Card)
    requires HasStatusColumn(b.columns)
    requires c in AllCards(b.groups)
    ensures var cols := StatusColumns(b);
            exists k :: 0 <= k < |cols| && c in ItemsByStatus(b.groups, cols[k])
                        && forall m :: 0 <= m < |cols| && m != k ==> c !in ItemsByStatus(b.groups, cols[m])
  {
    var cols := StatusColumns(b);
    var s := ItemStatus(c.item);
    StatusColumnsContents(b);
    assert NoDuplicates(cols);
    assert s in cols by {
      if RawStatus(c.item) == "" {
        assert cols[..5][0] == s;
      }
    }
    var k :| 0 <= k < |cols| && cols[k] == s;
    assert c in ItemsByStatus(b.groups, cols[k]);
    forall m | 0 <= m < |cols| && m != k
      ensures c !in ItemsByStatus(b.groups, cols[m])
    {
      assert cols[m] != s;
    }
  }

  /** Without a status-typed column an item whose status is none of the three
      fallback columns is in no bucket. */
  lemma UnlistedStatusHidden(b: Board, c: Card)
    requires !HasStatusColumn(b.columns)
    requires ItemStatus(c.item) !in FallbackColumns
    ensures forall k :: 0 <= k < |StatusColumns(b)| ==> c !in ItemsByStatus(b.groups, StatusColumns(b)[k])
  {
  }

  /** The total size of the buckets of `cols` over `cs`. */
  function BucketSizes(cols: seq<string>, cs: seq<Card>): nat
    decreases |cols|
  {
    if |cols| == 0 then 0 else |Bucket(cs, cols[0])| + BucketSizes(cols[1..], cs)
  }

  function Occurrences(cols: seq<string>, s: string): nat
    decreases |cols|
  {
    if |cols| == 0 then 0 else (if cols[0] == s then 1 else 0) + Occurrences(cols[1..], s)
  }

  lemma {:induction false} OccursOnce(cols: seq<string>, s: string)
    requires NoDuplicates(cols) && s in cols
    ensures Occurrences(cols, s) == 1
    decreases |cols|
  {
    if cols[0] == s {
      OccursNever(cols[1..], s);
    } else {
      OccursOnce(cols[1..], s);
    }
  }

  lemma {:induction false} OccursNever(cols: seq<string>, s: string)
    requires s !in cols
    ensures Occurrences(cols, s) == 0
    decreases |cols|
  {
    if |cols| > 0 {
      OccursNever(cols[1..], s);
    }
  }

  lemma {:induction false} BucketSizesCons(cols: seq<string>, cs: seq<Card>)
    requires |cs| > 0
    ensures BucketSizes(cols, cs) == BucketSizes(cols, cs[1..]) + Occurrences(cols, ItemStatus(cs[0].item))
    decreases |cols|
  {
    if |cols| > 0 {
      BucketSizesCons(cols[1..], cs);
    }
  }

  /** When every card's status is one of `cols` and no column repeats, the
      buckets split the cards: their sizes add up to the number of cards. */
  lemma {:induction false} BucketsPartition(cols: seq<string>, cs: seq<Card>)
    requires NoDuplicates(cols)
    requires forall c :: c in cs ==> ItemStatus(c.item) in cols
    ensures BucketSizes(cols, cs) == |cs|
    decreases |cs|
  {
    if |cs| == 0 {
      EmptyBuckets(cols);
    } else {
      BucketSizesCons(cols, cs);
      OccursOnce(cols, ItemStatus(cs[0].item));
      BucketsPartition(cols, cs[1..]);
    }
  }

  lemma {:induction false} EmptyBuckets(cols: seq<string>)
    ensures BucketSizes(cols, []) == 0
    decreases |cols|
  {
    if |cols| > 0 {
      EmptyBuckets(cols[1..]);
    }
  }

  /** With a status-typed column the columns' buckets hold every item of the
      board exactly once between them. */
  lemma KanbanShowsEveryItemOnce(b: Board)
    requires HasStatusColumn(b.columns)
    ensures BucketSizes(StatusColumns(b), AllCards(b.groups)) == CountItems(b.groups)
  {
    var cols := StatusColumns(b);
    forall c | c in AllCards(b.groups)
      ensures ItemStatus(c.item) in cols
    {
      EveryCardInOneBucket(b, c);
    }
    BucketsPartition(cols, AllCards(b.groups));
  }

  /** What a drop leaves: the update requested of the page, if any, and the
      drag state afterwards. */
  datatype Drop = Drop(update: Option<(int, ColumnValues)>, dragged: Option<Card>)

  /** `handleDrop`: with a card being dragged and an update handler, one
      update `{status}` for that card, and the drag state cleared; otherwise
      nothing. */
  function HandleDrop(dragged: Option<Card>, hasHandler: bool, status: string): (d: Drop)
    ensures dragged.Some? && hasHandler ==>
              d.update == Some((dragged.value.item.Id, map["status" := status])) && d.dragged.None?
    ensures !(dragged.Some? && hasHandler) ==> d.update.None? && d.dragged == dragged
  {
    if dragged.Some? && hasHandler then Drop(Some((dragged.value.item.Id, map["status" := status])), None)
    else Drop(None, dragged)
  }

  /** The fields the "Add card" button passes as defaults. */
  function CardDefaults(status: string): (d: ColumnValues)
    ensures d.Keys == {"title", "status"} && d["status"] == status
  {
    map["title" := "New " + status + " Item", "status" := status]
  }

  /** "Add card": asks for an item in the board's first group (whatever its
      statuses), with title `New <status> Item` and that status; nothing
      when the board has no group. */
  function AddCard(groups: seq<Group>, status: string): (req: Option<(Option<int>, ColumnValues)>)
    ensures |groups| == 0 <==> req.None?
    ensures req.Some? ==> req.value.0 == groups[0].Id && req.value.1 == CardDefaults(status)
  {
    if |groups| == 0 then None else Some((groups[0].Id, CardDefaults(status)))
  }

  const StatusColors: map<string, string> := map[
    "Not Started" := "gray", "In Progress" := "blue", "Review" := "orange",
    "Done" := "green", "Blocked" := "red", "On Hold" := "yellow"]

  /** `getStatusColor`: the colour of the six known statuses, gray for any
      other. */
  function StatusColor(status: string): (c: string)
    ensures status !in StatusColors.Keys ==> c == "gray"
    ensures status in StatusColors.Keys ==> c == StatusColors[status]
    ensures c in {"gray", "blue", "orange", "green", "red", "yellow"}
  {
    if status in StatusColors then StatusColors[status] else "gray"
  }

  /** Every canonical status has its own colour except "Not Started", which
      shares gray with unknown statuses. */
  lemma CanonicalColors()
    ensures StatusColor("Not Started") == "gray" && StatusColor("In Progress") == "blue"
    ensures StatusColor("Review") == "orange" && StatusColor("Done") == "green"
    ensures StatusColor("Blocked") == "red"
  {
  }

  /** A colour other than gray names exactly one status, and gray means "Not
      Started" or a status outside the known six; so every kanban column
      but the first is told apart by its colour. */
  lemma StatusColorIdentifies(s1: string, s2: string)
    ensures StatusColor(s1) == StatusColor(s2) && StatusColor(s1) != "gray" ==> s1 == s2
    ensures StatusColor(s1) == "gray" <==> s1 == NotStarted || s1 !in StatusColors.Keys
    ensures forall i :: 1 <= i < |CanonicalStatuses| ==> StatusColor(CanonicalStatuses[i]) != "gray"
  {
  }
}

=== FILE: mentions.dfy ===
/** Mention extraction: the global regular expression `@(\w+(?:\.\w+)*)`
    as `String.prototype.match` and `replace` apply it, written as a
    left-to-right scanner. A match starts at any `@` that is directly
    followed by a word character (no word boundary is needed before the
    `@`), takes the longest run of word characters, and then keeps taking a
    `.` with the next run of word characters for as long as a word
    character follows the `.`. Scanning resumes right after a match, so
    matches never overlap and come out in textual order. */
module Mentions {
  import opened Text

  /** The shape of a captured token: `word(.word)*`. Every `.` sits between
      two characters and is followed by a word character, so a token never
      starts or ends with `.` and never holds `..`. */
  predicate IsToken(t: string) {
    && |t| > 0
    && IsWordChar(t[0])
    && forall i :: 0 <= i < |t| ==> TokenCharOk(t, i)
  }

  /** Position `i` of a token: a word character, or a `.` strictly inside
      and followed by a word character. */
  predicate TokenCharOk(t: string, i: nat)
    requires i < |t|
  {
    IsWordChar(t[i]) || (t[i] == '.' && 0 < i && i + 1 < |t| && IsWordChar(t[i + 1]))
  }

  /** End of the run of word characters starting at `k`. */
  function WordEnd(s: string, k: nat): (e: nat)
    requires k <= |s|
    ensures k <= e <= |s|
    ensures forall j :: k <= j < e ==> IsWordChar(s[j])
    ensures e == |s| || !IsWordChar(s[e])
    decreases |s| - k
  {
    if k < |s| && IsWordChar(s[k]) then WordEnd(s, k + 1) else k
  }

  /** Whether the group `(?:\.\w+)` can match once more at `e`. */
  predicate ContinuesToken(s: string, e: nat)
    requires e <= |s|
  {
    e + 1 < |s| && s[e] == '.' && IsWordChar(s[e + 1])
  }

  /** End of the greedy match of `\w+(?:\.\w+)*` whose first character is at
      `k`: what it spans is a token, and it cannot be extended. */
  function TokenEnd(s: string, k: nat): (e: nat)
    requires k < |s| && IsWordChar(s[k])
    ensures k < e <= |s|
    ensures IsToken(s[k..e])
    ensures e == |s| || (!IsWordChar(s[e]) && !ContinuesToken(s, e))
    decreases |s| - k
  {
    var w := WordEnd(s, k);
    if ContinuesToken(s, w) then
      var e := TokenEnd(s, w + 1);
      assert s[k..e] == s[k..w] + ['.'] + s[w + 1..e];
      TokenJoin(s[k..w], s[w + 1..e]);
      e
    else
      w
  }

  /** A run of word characters, a `.` and a token form a token. */
  lemma TokenJoin(x: string, y: string)
    requires |x| > 0 && forall i :: 0 <= i < |x| ==> IsWordChar(x[i])
    requires IsToken(y)
    ensures IsToken(x + ['.'] + y)
  {
    var t := x + ['.'] + y;
    forall i | 0 <= i < |t|
      ensures TokenCharOk(t, i)
    {
      if i < |x| {
        assert t[i] == x[i];
      } else if i == |x| {
        assert t[i] == '.' && t[i + 1] == y[0];
      } else {
        var j := i - |x| - 1;
        assert t[i] == y[j];
        assert TokenCharOk(y, j);
        if j + 1 < |y| {
          assert t[i + 1] == y[j + 1];
        }
      }
    }
  }

  /** Two runs of word characters joined by a `.`, as in `first.last`. */
  lemma DottedToken(first: string, last: string)
    requires |first| > 0 && forall i :: 0 <= i < |first| ==> IsWordChar(first[i])
    requires |last| > 0 && forall i :: 0 <= i < |last| ==> IsWordChar(last[i])
    ensures IsToken(first + "." + last)
  {
    TokenJoin(first, last);
  }

  /** What follows a `.` inside a token is a token. */
  lemma TokenAfterDot(t: string, j: nat)
    requires IsToken(t) && 0 < j < |t| && t[j - 1] == '.'
    ensures IsToken(t[j..])
  {
    var u := t[j..];
    assert TokenCharOk(t, j - 1);
    forall i | 0 <= i < |u|
      ensures TokenCharOk(u, i)
    {
      assert u[i] == t[j + i];
      assert TokenCharOk(t, j + i);
      if i + 1 < |u| {
        assert u[i + 1] == t[j + i + 1];
      }
    }
  }

  /** The greedy match is the only token starting at `k` that cannot be
      extended: any such span ends where `TokenEnd` says. */
  lemma {:induction false} TokenEndUnique(s: string, k: nat, e: nat)
    requires k < e <= |s|
    requires IsToken(s[k..e])
    requires e == |s| || (!IsWordChar(s[e]) && !ContinuesToken(s, e))
    ensures TokenEnd(s, k) == e
    decreases |s| - k
  {
    var t := s[k..e];
    assert IsWordChar(t[0]);
    var w := WordEnd(s, k);
    if w < e {
      assert t[w - k] == s[w];
      assert s[w] == '.' && w + 1 < e && IsWordChar(s[w + 1]) by {
        var j := w - k;
        assert t[j] == s[w] && !IsWordChar(s[w]);
        assert TokenCharOk(t, j);
        assert t[j] == '.' && j + 1 < |t| && IsWordChar(t[j + 1]);
        assert t[j + 1] == s[w + 1];
      }
      assert ContinuesToken(s, w);
      TokenAfterDot(t, w + 1 - k);
      assert t[w + 1 - k..] == s[w + 1..e];
      TokenEndUnique(s, w + 1, e);
    } else {
      forall j | k <= j < e
        ensures IsWordChar(s[j])
      {
        assert s[j] == t[j - k];
      }
    }
  }

  /** A match of the expression begins at the front of `s`. */
  predicate StartsMention(s: string) {
    |s| >= 2 && s[0] == '@' && IsWordChar(s[1])
  }

  /** `(content.match(/@(\w+(?:\.\w+)*)/g) || []).map(m => m.substring(1))`:
      the captured tokens, without their `@`, in textual order, duplicates
      kept. */
  function Extract(s: string): (ms: seq<string>)
    ensures forall i :: 0 <= i < |ms| ==> IsToken(ms[i])
    decreases |s|
  {
    if |s| == 0 then []
    else if StartsMention(s) then
      var e := TokenEnd(s, 1);
      [s[1..e]] + Extract(s[e..])
    else
      Extract(s[1..])
  }

  /** No match at all exactly when no `@` is followed by a word character. */
  lemma {:induction false} ExtractEmptyIff(s: string)
    ensures Extract(s) == [] <==> forall i :: 0 <= i < |s| - 1 ==> !(s[i] == '@' && IsWordChar(s[i + 1]))
    decreases |s|
  {
    if |s| == 0 {
    } else if StartsMention(s) {
    } else {
      ExtractEmptyIff(s[1..]);
      assert forall i :: 1 <= i < |s| - 1 ==> s[i] == s[1..][i - 1] && s[i + 1] == s[1..][i];
    }
  }

  /** A character that can neither start, continue nor end a match. */
  predicate Inert(c: char) {
    c != '@' && c != '.' && !IsWordChar(c)
  }

  lemma {:induction false} WordEndAppend(a: string, b: string, k: nat)
    requires k <= |a|
    requires |b| == 0 || !IsWordChar(b[0])
    ensures WordEnd(a + b, k) == WordEnd(a, k)
    decreases |a| - k
  {
    if k < |a| && IsWordChar(a[k]) {
      WordEndAppend(a, b, k + 1);
    }
  }

  lemma {:induction false} TokenEndAppend(a: string, b: string, k: nat)
    requires k < |a| && IsWordChar(a[k])
    requires |b| == 0 || (!IsWordChar(b[0]) && b[0] != '.')
    ensures TokenEnd(a + b, k) == TokenEnd(a, k)
    decreases |a| - k
  {
    var s := a + b;
    var w := WordEnd(a, k);
    WordEndAppend(a, b, k);
    assert ContinuesToken(s, w) == ContinuesToken(a, w);
    if ContinuesToken(a, w) {
      TokenEndAppend(a, b, w + 1);
    }
  }

  /** A mention at the front of `a` is still the first match once `b` is
      appended, and scanning resumes at the same place. */
  lemma ExtractAppendMention(a: string, b: string)
    requires StartsMention(a)
    requires |b| == 0 || (!IsWordChar(b[0]) && b[0] != '.')
    ensures Extract(a + b) == [a[1..TokenEnd(a, 1)]] + Extract(a[TokenEnd(a, 1)..] + b)
  {
    var s := a + b;
    assert StartsMention(s) by {
      assert s[0] == a[0] && s[1] == a[1];
    }
    var e := TokenEnd(a, 1);
    TokenEndAppend(a, b, 1);
    AppendSlices(a, b, e);
    ExtractMentionAtFront(s);
  }

  lemma AppendSlices(a: string, b: string, e: nat)
    requires 1 <= e <= |a|
    ensures (a + b)[1..e] == a[1..e] && (a + b)[e..] == a[e..] + b
  {
  }

  /** A match at the front is taken whole and scanning resumes after it. */
  lemma ExtractMentionAtFront(s: string)
    requires StartsMention(s)
    ensures Extract(s) == [s[1..TokenEnd(s, 1)]] + Extract(s[TokenEnd(s, 1)..])
  {
  }

  /** Without a mention at the front of `a`, neither `a` nor `a + b` matches
      at the first character. */
  lemma ExtractAppendSkip(a: string, b: string)
    requires |a| > 0 && !StartsMention(a)
    requires |b| == 0 || (!IsWordChar(b[0]) && b[0] != '.')
    ensures Extract(a + b) == Extract(a[1..] + b)
    ensures Extract(a) == Extract(a[1..])
  {
    var s := a + b;
    assert !StartsMention(s) by {
      if |a| >= 2 {
        assert s[0] == a[0] && s[1] == a[1];
      }
    }
    assert s[1..] == a[1..] + b;
    ExtractNoMentionFront(s);
    ExtractNoMentionFront(a);
  }

  /** Scanning moves past a first character that starts no match. */
  lemma ExtractNoMentionFront(s: string)
    requires |s| > 0 && !StartsMention(s)
    ensures Extract(s) == Extract(s[1..])
  {
  }

  /** Text appended after a character that cannot extend a match does not
      change the matches already found, and adds its own. */
  lemma {:induction false} ExtractAppend(a: string, b: string)
    requires |b| == 0 || (!IsWordChar(b[0]) && b[0] != '.')
    ensures Extract(a + b) == Extract(a) + Extract(b)
    decreases |a|
  {
    if |a| == 0 {
      assert a + b == b;
    } else if StartsMention(a) {
      var e := TokenEnd(a, 1);
      ExtractAppendMention(a, b);
      ExtractMentionAtFront(a);
      ExtractAppend(a[e..], b);
    } else {
      ExtractAppendSkip(a, b);
      ExtractAppend(a[1..], b);
    }
  }

  /** Text with no `@` holds no mention. */
  lemma NoAtNoMention(s: string)
    requires '@' !in s
    ensures Extract(s) == []
  {
    ExtractEmptyIff(s);
  }

  lemma SpaceIsInert(c: char)
    requires IsSpace(c)
    ensures Inert(c)
  {
  }

  /** Text without `@` placed in front adds no match and shifts none. */
  lemma {:induction false} ExtractSkipsPrefix(pre: string, t: string)
    requires '@' !in pre
    ensures Extract(pre + t) == Extract(t)
    decreases |pre|
  {
    if |pre| > 0 {
      assert (pre + t)[0] == pre[0];
      assert (pre + t)[1..] == pre[1..] + t;
      ExtractSkipsPrefix(pre[1..], t);
    } else {
      assert pre + t == t;
    }
  }

  /** `@`, a token and a character that cannot extend it: the token is the
      first mention and scanning continues after it. */
  lemma ExtractMentionFront(t: string, rest: string)
    requires IsToken(t)
    requires |rest| == 0 || (!IsWordChar(rest[0]) && !(|rest| >= 2 && rest[0] == '.' && IsWordChar(rest[1])))
    ensures Extract("@" + t + rest) == [t] + Extract(rest)
  {
    var s := "@" + t + rest;
    assert s[1..1 + |t|] == t;
    assert s[1 + |t|..] == rest;
    assert s[1] == t[0];
    TokenEndUnique(s, 1, 1 + |t|);
  }

  /** Trimming the text never changes what is extracted from it, because
      white space can neither start nor extend a match. */
  lemma ExtractTrim(s: string)
    ensures Extract(Trim(s)) == Extract(s)
  {
    var a, b :| 0 <= a <= b <= |s| && Trim(s) == s[a..b] && AllSpace(s[..a]) && AllSpace(s[b..]);
    assert s == s[..a] + (s[a..b] + s[b..]);
    var post := s[b..];
    assert AllSpace(post);
    if 0 < |post| {
      assert IsSpace(post[0]);
      SpaceIsInert(post[0]);
    }
    forall i | 0 <= i < |post|
      ensures post[i] != '@'
    {
      assert IsSpace(post[i]);
      SpaceIsInert(post[i]);
    }
    var pre := s[..a];
    assert AllSpace(pre);
    forall i | 0 <= i < |pre|
      ensures pre[i] != '@'
    {
      assert IsSpace(pre[i]);
      SpaceIsInert(pre[i]);
    }
    ExtractSkipsPrefix(pre, s[a..b] + s[b..]);
    ExtractAppend(s[a..b], s[b..]);
    NoAtNoMention(s[b..]);
  }

  /** Text without `@`, then one mention, then the rest: the mention is the
      first extracted token. */
  lemma ExtractWithMention(pre: string, t: string, rest: string)
    requires '@' !in pre
    requires IsToken(t)
    requires |rest| == 0 || (!IsWordChar(rest[0]) && !(|rest| >= 2 && rest[0] == '.' && IsWordChar(rest[1])))
    ensures Extract(pre + "@" + t + rest) == [t] + Extract(rest)
  {
    assert pre + "@" + t + rest == pre + ("@" + t + rest);
    ExtractSkipsPrefix(pre, "@" + t + rest);
    ExtractMentionFront(t, rest);
  }

  /** The example of a mention inside an e-mail address: no word boundary
      is needed before the `@`. */
  lemma ExtractEmailExample()
    ensures Extract("user" + "@" + "company.com") == ["company.com"]
  {
    assert "company.com" == "company" + "." + "com";
    DottedToken("company", "com");
    ExtractWithMention("user", "company.com", "");
    assert "user" + "@" + "company.com" + "" == "user" + "@" + "company.com";
    assert Extract("") == [];
  }

  /** Two dotted usernames come out in the order they are written, and a
      trailing `.` is not captured. */
  lemma ExtractTwoMentionsExample()
    ensures Extract("hi " + "@" + "sarah.chen" + (" and " + "@" + "mike.rodriguez" + ".")) == ["sarah.chen", "mike.rodriguez"]
  {
    assert "sarah.chen" == "sarah" + "." + "chen";
    DottedToken("sarah", "chen");
    assert "mike.rodriguez" == "mike" + "." + "rodriguez";
    DottedToken("mike", "rodriguez");
    ExtractWithMention("hi ", "sarah.chen", " and " + "@" + "mike.rodriguez" + ".");
    ExtractWithMention(" and ", "mike.rodriguez", ".");
    NoAtNoMention(".");
  }

  /** A comment body split the way `renderCommentContent` sees it: single
      characters left alone and matched mentions (token without `@`). */
  datatype Piece = Plain(c: char) | Mention(token: string)

  function Segment(s: string): (ps: seq<Piece>)
    decreases |s|
  {
    if |s| == 0 then []
    else if StartsMention(s) then
      var e := TokenEnd(s, 1);
      [Mention(s[1..e])] + Segment(s[e..])
    else
      [Plain(s[0])] + Segment(s[1..])
  }

  /** The text a sequence of pieces stands for. */
  function Flatten(ps: seq<Piece>): string
    decreases |ps|
  {
    if |ps| == 0 then []
    else
      match ps[0]
      case Plain(c) => [c] + Flatten(ps[1..])
      case Mention(t) => "@" + t + Flatten(ps[1..])
  }

  function Tokens(ps: seq<Piece>): seq<string>
    decreases |ps|
  {
    if |ps| == 0 then []
    else
      match ps[0]
      case Plain(_) => Tokens(ps[1..])
      case Mention(t) => [t] + Tokens(ps[1..])
  }

  /** Segmenting loses nothing: the pieces spell out the original text. */
  lemma {:induction false} FlattenSegment(s: string)
    ensures Flatten(Segment(s)) == s
    decreases |s|
  {
    if |s| == 0 {
    } else if StartsMention(s) {
      var e := TokenEnd(s, 1);
      FlattenSegment(s[e..]);
      assert s == "@" + s[1..e] + s[e..];
    } else {
      FlattenSegment(s[1..]);
      assert s == [s[0]] + s[1..];
    }
  }

  /** The highlighted pieces are exactly the extracted mentions, in order. */
  lemma {:induction false} TokensSegment(s: string)
    ensures Tokens(Segment(s)) == Extract(s)
    decreases |s|
  {
    if |s| == 0 {
    } else if StartsMention(s) {
      TokensSegment(s[TokenEnd(s, 1)..]);
    } else {
      TokensSegment(s[1..]);
    }
  }

  const SpanOpen: string := "<span class=\"bg-blue-100 text-blue-800 px-1 rounded\">"
  const SpanClose: string := "</span>"

  function RenderPieces(ps: seq<Piece>): string
    decreases |ps|
  {
    if |ps| == 0 then []
    else
      match ps[0]
      case Plain(c) => [c] + RenderPieces(ps[1..])
      case Mention(t) => SpanOpen + "@" + t + SpanClose + RenderPieces(ps[1..])
  }

  /** `renderCommentContent`: every match, `@` included, wrapped in a span. */
  function RenderCommentContent(content: string): string {
    RenderPieces(Segment(content))
  }

  /** The rendering is the text cut into single characters and mentions,
      where the characters are copied unchanged and each mention, which is
      one of the extracted tokens in order, is wrapped in a span. */
  lemma RenderCommentContentSpec(content: string)
    ensures exists ps :: Flatten(ps) == content && Tokens(ps) == Extract(content)
                         && RenderCommentContent(content) == RenderPieces(ps)
  {
    FlattenSegment(content);
    TokensSegment(content);
  }

  predicate AllPlain(ps: seq<Piece>) {
    forall i :: 0 <= i < |ps| ==> ps[i].Plain?
  }

  lemma {:induction false} NoAtPlain(s: string)
    requires '@' !in s
    ensures AllPlain(Segment(s))
    decreases |s|
  {
    if |s| > 0 {
      NoAtPlain(s[1..]);
    }
  }

  lemma {:induction false} RenderAllPlain(ps: seq<Piece>)
    requires AllPlain(ps)
    ensures RenderPieces(ps) == Flatten(ps)
    decreases |ps|
  {
    if |ps| > 0 {
      RenderAllPlain(ps[1..]);
    }
  }

  /** Text without an `@` is rendered exactly as written. */
  lemma RenderWithoutMentions(content: string)
    requires '@' !in content
    ensures RenderCommentContent(content) == content
  {
    NoAtPlain(content);
    RenderAllPlain(Segment(content));
    FlattenSegment(content);
  }
}

=== FILE: person_avatar.dfy ===
/** The person avatar: a placeholder for an absent person, otherwise the
    person's initials on a colour chosen by a 32-bit string hash. */
module PersonAvatar {
  import opened Wrappers
  import opened Text

  /** `"ab c".split(" ")`: the pieces between single separators, empty
      pieces included. */
  function SplitOn(s: string, sep: char): (parts: seq<string>)
    ensures |parts| >= 1
    ensures JoinWith(parts, sep) == s
    ensures forall i :: 0 <= i < |parts| ==> sep !in parts[i]
    decreases |s|
  {
    if |s| == 0 then [""]
    else
      var rest := SplitOn(s[1..], sep);
      if s[0] == sep then
        assert s == [sep] + s[1..];
        [""] + rest
      else
        var parts := [[s[0]] + rest[0]] + rest[1..];
        assert JoinWith(parts, sep) == s by {
          if |rest| == 1 {
            assert s == [s[0]] + s[1..];
          } else {
            assert JoinWith(rest, sep) == rest[0] + [sep] + JoinWith(rest[1..], sep);
            assert parts[1..] == rest[1..];
            assert s == [s[0]] + s[1..];
          }
        }
        parts
  }

  /** A first character other than the separator joins the first piece of
      the rest. */
  lemma SplitOnWordChar(s: string, sep: char)
    requires |s| > 0 && s[0] != sep
    ensures var rest := SplitOn(s[1..], sep);
            SplitOn(s, sep) == [[s[0]] + rest[0]] + rest[1..]
  {
  }

  /** `parts.join(sep)`. */
  function JoinWith(parts: seq<string>, sep: char): string
    requires |parts| >= 1
    decreases |parts|
  {
    if |parts| == 1 then parts[0] else parts[0] + [sep] + JoinWith(parts[1..], sep)
  }

  /** `parts.map(p => p.charAt(0)).join("")`: the first character of each
      non-empty part; an empty part contributes nothing. */
  function FirstChars(parts: seq<string>): string
    decreases |parts|
  {
    if |parts| == 0 then []
    else (if |parts[0]| > 0 then [parts[0][0]] else []) + FirstChars(parts[1..])
  }

  /** Independent reading of the same thing: each character that is not a
      space and follows a space (or the start of the name). `prev` is the
      character before `s`. */
  function WordStarts(prev: char, s: string): (r: string)
    ensures |r| <= |s|
    decreases |s|
  {
    if |s| == 0 then []
    else (if s[0] != ' ' && prev == ' ' then [s[0]] else []) + WordStarts(s[0], s[1..])
  }

  /** Splitting on spaces and taking first characters picks out exactly the
      word starts; after a non-space, the first part is a continuation and
      contributes nothing. */
  lemma {:induction false} FirstCharsAreWordStarts(prev: char, s: string)
    ensures prev == ' ' ==> FirstChars(SplitOn(s, ' ')) == WordStarts(prev, s)
    ensures prev != ' ' ==> FirstChars(SplitOn(s, ' ')[1..]) == WordStarts(prev, s)
    decreases |s|
  {
    if |s| > 0 {
      var rest := SplitOn(s[1..], ' ');
      FirstCharsAreWordStarts(s[0], s[1..]);
      if s[0] == ' ' {
        assert SplitOn(s, ' ') == [""] + rest;
        assert (["" ] + rest)[1..] == rest;
      } else {
        var parts := [[s[0]] + rest[0]] + rest[1..];
        assert SplitOn(s, ' ') == parts;
        assert parts[1..] == rest[1..];
        assert FirstChars(parts) == [s[0]] + FirstChars(rest[1..]);
      }
    }
  }

  /** `getInitials`: the first character of each space-separated part,
      upper-cased, at most two of them. */
  function Initials(name: string): (r: string)
    ensures |r| == if |WordStarts(' ', name)| < 2 then |WordStarts(' ', name)| else 2
    ensures r == Upper(WordStarts(' ', name))[..|r|]
  {
    FirstCharsAreWordStarts(' ', name);
    var all := Upper(FirstChars(SplitOn(name, ' ')));
    if |all| <= 2 then all else all[..2]
  }

  /** A word with no space in it, after a non-space, starts nothing. */
  lemma {:induction false} NoSpaceNoStarts(prev: char, s: string)
    requires prev != ' ' && ' ' !in s
    ensures WordStarts(prev, s) == []
    decreases |s|
  {
    if |s| > 0 {
      assert ' ' !in s[1..] by {
        assert forall i :: 0 <= i < |s[1..]| ==> s[1..][i] == s[i + 1];
      }
      NoSpaceNoStarts(s[0], s[1..]);
    }
  }

  /** "First Last" gives the capitals of both words. */
  lemma TwoWordInitials(first: string, last: string)
    requires |first| > 0 && |last| > 0
    requires ' ' !in first && ' ' !in last
    ensures Initials(first + " " + last) == [UpperChar(first[0]), UpperChar(last[0])]
  {
    var name := first + " " + last;
    assert name == [first[0]] + (first[1..] + (" " + last));
    assert ' ' !in first[1..] by {
      assert forall i :: 0 <= i < |first[1..]| ==> first[1..][i] == first[i + 1];
    }
    assert ' ' !in last[1..] by {
      assert forall i :: 0 <= i < |last[1..]| ==> last[1..][i] == last[i + 1];
    }
    StartsAfterWord(first[0], first[1..], last);
    assert WordStarts(' ', name) == [first[0]] + WordStarts(first[0], first[1..] + (" " + last));
    assert WordStarts(' ', last) == [last[0]] + WordStarts(last[0], last[1..]);
    NoSpaceNoStarts(last[0], last[1..]);
  }

  /** After a non-space, the rest of a word, a single space and a second
      word start exactly the second word. */
  lemma {:induction false} StartsAfterWord(prev: char, rest: string, last: string)
    requires prev != ' ' && ' ' !in rest
    ensures WordStarts(prev, rest + (" " + last)) == WordStarts(' ', last)
    decreases |rest|
  {
    if |rest| == 0 {
      assert rest + (" " + last) == [' '] + last;
    } else {
      assert rest + (" " + last) == [rest[0]] + (rest[1..] + (" " + last));
      assert ' ' !in rest[1..] by {
        assert forall i :: 0 <= i < |rest[1..]| ==> rest[1..][i] == rest[i + 1];
      }
      StartsAfterWord(rest[0], rest[1..], last);
    }
  }

  const TwoTo31: int := 0x8000_0000
  const TwoTo32: int := 0x1_0000_0000

  predicate IsInt32(x: int) {
    -TwoTo31 <= x < TwoTo31
  }

  /** ECMAScript ToInt32 on an integral value: wrap into [-2^31, 2^31). */
  function ToInt32(x: int): (r: int)
    ensures IsInt32(r)
    ensures (r - x) % TwoTo32 == 0
  {
    (x + TwoTo31) % TwoTo32 - TwoTo31
  }

  /** Two values that agree modulo 2^32 wrap to the same 32-bit value. */
  lemma ToInt32Congruent(x: int, y: int)
    requires (x - y) % TwoTo32 == 0
    ensures ToInt32(x) == ToInt32(y)
  {
    var q := (x - y) / TwoTo32;
    assert x + TwoTo31 == (y + TwoTo31) + q * TwoTo32;
    ModShift(y + TwoTo31, q);
  }

  lemma ModShift(a: int, q: int)
    ensures (a + q * TwoTo32) % TwoTo32 == a % TwoTo32
  {
  }

  /** One step of the reducer as written: `a = ((a << 5) - a) + code` and then
      `a & a`. `a << 5` wraps `32 * a` to 32 bits; the `&` wraps the sum. */
  function HashStep(a: int, c: char): (r: int)
    requires IsInt32(a)
    ensures IsInt32(r)
  {
    ToInt32(ToInt32(a * 32) - a + (c as int))
  }

  /** The step is the classic multiply-by-31 hash step modulo 2^32. */
  lemma HashStepIsTimes31(a: int, c: char)
    requires IsInt32(a)
    ensures HashStep(a, c) == ToInt32(31 * a + (c as int))
  {
    var w := ToInt32(a * 32);
    assert (w - a * 32) % TwoTo32 == 0;
    assert ((w - a + (c as int)) - (31 * a + (c as int))) == w - a * 32;
    ToInt32Congruent(w - a + (c as int), 31 * a + (c as int));
  }

  /** `name.split("").reduce(step, 0)`: the hash of every character, left to
      right. */
  function Hash(name: string): (h: int)
    ensures IsInt32(h)
    decreases |name|
  {
    if |name| == 0 then 0 else HashStep(Hash(name[..|name| - 1]), name[|name| - 1])
  }

  /** The polynomial the hash approximates: the character codes as digits in
      base 31, without any wrapping. */
  function Poly(s: string): int
    decreases |s|
  {
    if |s| == 0 then 0 else 31 * Poly(s[..|s| - 1]) + (s[|s| - 1] as int)
  }

  /** The fold with its intermediate wrapping is the polynomial hash wrapped
      once at the end. */
  lemma {:induction false} HashIsWrappedPoly(s: string)
    ensures Hash(s) == ToInt32(Poly(s))
    decreases |s|
  {
    if |s| > 0 {
      var init := s[..|s| - 1];
      var c := s[|s| - 1];
      HashIsWrappedPoly(init);
      HashStepIsTimes31(Hash(init), c);
      var h := Hash(init);
      assert (h - Poly(init)) % TwoTo32 == 0;
      MulCongruent(h - Poly(init), 31);
      assert (31 * h + (c as int)) - (31 * Poly(init) + (c as int)) == 31 * (h - Poly(init));
      ToInt32Congruent(31 * h + (c as int), 31 * Poly(init) + (c as int));
    }
  }

  lemma MulCongruent(d: int, k: int)
    requires d % TwoTo32 == 0
    ensures (k * d) % TwoTo32 == 0
  {
    var q := d / TwoTo32;
    assert d == q * TwoTo32;
    assert k * d == (k * q) * TwoTo32;
  }

  /** The Tailwind classes of a gradient between two colours. */
  function Gradient(from: string, to: string): string {
    "bg-gradient-to-br " + "from-" + from + " to-" + to
  }

  const AvatarColors: seq<string> := [
    Gradient("primary", "primary-600"),
    Gradient("secondary", "secondary-600"),
    Gradient("accent", "accent-600"),
    Gradient("warning", "orange-600"),
    Gradient("info", "blue-600"),
    Gradient("purple-500", "purple-600")]

  function Abs(x: int): (r: nat)
    ensures r == x || r == -x
  {
    if x < 0 then -x else x
  }

  /** `Math.abs(hash) % colors.length`: a valid index for every hash, the
      most negative 32-bit value included (its absolute value does not
      wrap in a JavaScript number). */
  function ColorIndex(name: string): (i: nat)
    ensures i < |AvatarColors|
    ensures i == Abs(ToInt32(Poly(name))) % 6
  {
    HashIsWrappedPoly(name);
    Abs(Hash(name)) % |AvatarColors|
  }

  lemma MostNegativeHashIndex()
    ensures Abs(-TwoTo31) % 6 == 2
  {
  }

  /** `getAvatarColor`: one of the six gradients, the same for equal names. */
  function AvatarColor(name: string): (c: string)
    ensures c in AvatarColors
    ensures c == AvatarColors[Abs(ToInt32(Poly(name))) % 6]
  {
    AvatarColors[ColorIndex(name)]
  }

  /** What the avatar renders. */
  datatype Avatar = Placeholder | Badge(initials: string, color: string)

  /** An absent person, or an empty name (falsy), gets the `?` placeholder;
      anyone else their initials on their colour. */
  function Render(person: Option<string>): (a: Avatar)
    ensures a.Placeholder? <==> person.None? || person.value == ""
    ensures a.Badge? ==> a.initials == Initials(person.value) && a.color == AvatarColor(person.value)
  {
    match person
    case None => Placeholder
    case Some(name) => if name == "" then Placeholder else Badge(Initials(name), AvatarColor(name))
  }

  /** Names whose character codes agree as base-31 numbers modulo 2^32
      get the same colour: colour depends on nothing else. */
  lemma SameColorWhenCongruent(a: string, b: string)
    requires (Poly(a) - Poly(b)) % TwoTo32 == 0
    ensures AvatarColor(a) == AvatarColor(b)
  {
    var x, y := Poly(a), Poly(b);
    ToInt32Congruent(x, y);
    assert ColorIndex(a) == Abs(ToInt32(x)) % 6;
    assert ColorIndex(b) == Abs(ToInt32(y)) % 6;
  }

  /** What a caller hands the avatar: a bare name, or a record (a comment's
      author, a team member) that carries one. */
  datatype Person = NameText(text: string) | Record(name: string)

  /** The avatar as written, for every kind of value a caller passes. A
      record is truthy, so it goes straight to `getAvatarColor`, whose
      `name.split` is not a function on an object: the render throws. */
  function RenderAsWritten(person: Option<Person>): (r: Result<Avatar, string>)
    ensures person.Some? && person.value.Record? ==> r.Failure?
    ensures person.None? ==> r == Success(Render(None))
    ensures person.Some? && person.value.NameText? ==> r == Success(Render(Some(person.value.text)))
  {
    match person
    case None => Success(Render(None))
    case Some(NameText(t)) => Success(Render(Some(t)))
    case Some(Record(_)) => Failure("name.split is not a function")
  }

  /** The avatar as intended: a record is drawn from its `name`. */
  function RenderPerson(person: Option<Person>): (a: Avatar)
    ensures person.None? ==> a.Placeholder?
    ensures person.Some? && person.value.Record? ==> a.Badge?
  {
    match person
    case None => Placeholder
    case Some(NameText(t)) => Render(Some(t))
    case Some(Record(n)) => Badge(Initials(n), AvatarColor(n))
  }

  /** The intended render never throws, agrees with the written one wherever
      that one does not throw, and draws a record exactly as its name alone
      would be drawn when the name is not empty. */
  lemma RenderPersonExtendsAsWritten(person: Option<Person>)
    ensures RenderAsWritten(person).Success? ==> RenderAsWritten(person).value == RenderPerson(person)
    ensures person.Some? && person.value.Record? && person.value.name != "" ==>
              RenderPerson(person) == Render(Some(person.value.name))
  {
  }

  /** The written avatar fails on any record, whatever its name. */
  lemma RecordThrowsAsWritten(name: string)
    ensures RenderAsWritten(Some(Record(name))).Failure?
    ensures RenderPerson(Some(Record(name))).Badge?
  {
  }
}

=== FILE: seqs.dfy ===
/** The `Array.prototype` operations the application uses on its lists:
    `filter`, `find`/`findIndex`, `some`, and a comparator `sort`. */
module Seqs {
  import opened Wrappers

  /** `a` is `b` with some elements left out, the rest in the same order. */
  predicate IsSubseq<T(==)>(a: seq<T>, b: seq<T>)
    decreases |b|
  {
    if |a| == 0 then true
    else if |b| == 0 then false
    else if a[0] == b[0] then IsSubseq(a[1..], b[1..])
    else IsSubseq(a, b[1..])
  }

  predicate NoDuplicates<T(==)>(s: seq<T>) {
    forall i, j :: 0 <= i < j < |s| ==> s[i] != s[j]
  }

  /** `Array.prototype.filter`. */
  function Filter<T(==,!new)>(s: seq<T>, p: T -> bool): (r: seq<T>)
    ensures forall x :: x in r <==> x in s && p(x)
    ensures |r| <= |s|
    ensures IsSubseq(r, s)
    ensures multiset(r) <= multiset(s)
    decreases |s|
  {
    if |s| == 0 then []
    else
      var rest := Filter(s[1..], p);
      assert s == [s[0]] + s[1..];
      if p(s[0]) then
        assert ([s[0]] + rest)[1..] == rest;
        [s[0]] + rest
      else
        rest
  }

  /** `filter` distributes over concatenation. */
  lemma {:induction false} FilterAppend<T(!new)>(a: seq<T>, b: seq<T>, p: T -> bool)
    ensures Filter(a + b, p) == Filter(a, p) + Filter(b, p)
    decreases |a|
  {
    if |a| > 0 {
      var ab := a + b;
      assert ab[0] == a[0];
      assert ab[1..] == a[1..] + b;
      FilterAppend(a[1..], b, p);
      if p(a[0]) {
        assert Filter(ab, p) == [a[0]] + Filter(ab[1..], p);
        assert Filter(a, p) == [a[0]] + Filter(a[1..], p);
      } else {
        assert Filter(ab, p) == Filter(ab[1..], p);
        assert Filter(a, p) == Filter(a[1..], p);
      }
    } else {
      assert a + b == b;
    }
  }

  /** The multiplicity fact for every value at once. */
  lemma FilterCounts<T(!new)>(s: seq<T>, p: T -> bool)
    ensures forall x :: multiset(Filter(s, p))[x] == if p(x) then multiset(s)[x] else 0
  {
    forall x
      ensures multiset(Filter(s, p))[x] == if p(x) then multiset(s)[x] else 0
    {
      FilterMultiplicity(s, p, x);
    }
  }

  /** How often `filter` keeps a value: as often as the input holds it when
      the predicate accepts it, never otherwise. */
  lemma {:induction false} FilterMultiplicity<T(!new)>(s: seq<T>, p: T -> bool, x: T)
    ensures multiset(Filter(s, p))[x] == if p(x) then multiset(s)[x] else 0
    decreases |s|
  {
    if |s| > 0 {
      FilterMultiplicity(s[1..], p, x);
      assert s == [s[0]] + s[1..];
      assert multiset(s) == multiset{s[0]} + multiset(s[1..]);
      var rest := Filter(s[1..], p);
      if p(s[0]) {
        assert Filter(s, p) == [s[0]] + rest;
        assert multiset(Filter(s, p)) == multiset{s[0]} + multiset(rest);
      } else {
        assert Filter(s, p) == rest;
      }
    }
  }

  /** Filtering keeps everything when the predicate accepts every element. */
  lemma {:induction false} FilterAll<T(!new)>(s: seq<T>, p: T -> bool)
    requires forall x :: x in s ==> p(x)
    ensures Filter(s, p) == s
    decreases |s|
  {
    if |s| > 0 {
      assert forall x :: x in s[1..] ==> x in s;
      FilterAll(s[1..], p);
      assert s == [s[0]] + s[1..];
    }
  }

  /** `Array.prototype.findIndex`, with `None` for `-1`. */
  function FindIndex<T>(s: seq<T>, p: T -> bool): (r: Option<nat>)
    ensures r.Some? ==> r.value < |s| && p(s[r.value])
    ensures r.Some? ==> forall j :: 0 <= j < r.value ==> !p(s[j])
    ensures r.None? <==> forall j :: 0 <= j < |s| ==> !p(s[j])
    decreases |s|
  {
    if |s| == 0 then None
    else if p(s[0]) then Some(0)
    else
      match FindIndex(s[1..], p)
      case None => None
      case Some(k) => Some(k + 1)
  }

  /** The relation a comparator-driven sort needs: total and transitive. */
  ghost predicate TotalPreorder<T(!new)>(le: (T, T) -> bool) {
    && (forall a, b :: le(a, b) || le(b, a))
    && (forall a, b, c :: le(a, b) && le(b, c) ==> le(a, c))
  }

  ghost predicate SortedBy<T>(s: seq<T>, le: (T, T) -> bool) {
    forall i, j :: 0 <= i < j < |s| ==> le(s[i], s[j])
  }

  /** Places `x` in front of the first element it may precede. */
  function Insert<T>(x: T, s: seq<T>, le: (T, T) -> bool): (r: seq<T>)
    ensures multiset(r) == multiset(s) + multiset{x}
    ensures |r| == |s| + 1
    decreases |s|
  {
    if |s| == 0 then [x]
    else if le(x, s[0]) then [x] + s
    else
      assert s == [s[0]] + s[1..];
      [s[0]] + Insert(x, s[1..], le)
  }

  lemma {:induction false} InsertSorted<T(!new)>(x: T, s: seq<T>, le: (T, T) -> bool)
    requires TotalPreorder(le)
    requires SortedBy(s, le)
    ensures SortedBy(Insert(x, s, le), le)
    decreases |s|
  {
    if |s| == 0 {
    } else if le(x, s[0]) {
      var r := [x] + s;
      forall i, j | 0 <= i < j < |r|
        ensures le(r[i], r[j])
      {
        if i == 0 && j > 1 {
          assert le(s[0], s[j - 1]);
        }
      }
    } else {
      var tail := Insert(x, s[1..], le);
      InsertSorted(x, s[1..], le);
      var r := [s[0]] + tail;
      HeadBelowInsert(x, s, le);
      forall i, j | 0 <= i < j < |r|
        ensures le(r[i], r[j])
      {
        if i == 0 {
          assert r[j] == tail[j - 1];
        } else {
          assert r[i] == tail[i - 1] && r[j] == tail[j - 1];
        }
      }
    }
  }

  /** When `x` goes after the head, the head may precede everything the
      insertion into the tail yields. */
  lemma HeadBelowInsert<T(!new)>(x: T, s: seq<T>, le: (T, T) -> bool)
    requires TotalPreorder(le) && SortedBy(s, le)
    requires |s| > 0 && !le(x, s[0])
    ensures forall j :: 0 <= j < |Insert(x, s[1..], le)| ==> le(s[0], Insert(x, s[1..], le)[j])
  {
    var tail := Insert(x, s[1..], le);
    assert le(s[0], x);
    forall j | 0 <= j < |tail|
      ensures le(s[0], tail[j])
    {
      assert tail[j] in multiset(tail);
      assert tail[j] in multiset(s[1..]) + multiset{x};
      if tail[j] != x {
        assert tail[j] in s[1..];
        var k :| 0 <= k < |s[1..]| && s[1..][k] == tail[j];
        assert le(s[0], s[k + 1]);
      }
    }
  }

  /** A comparator sort: the result is a permutation of the input ordered by
      `le`. Ties keep their input order, as the engine's stable sort does. */
  function SortBy<T(!new)>(s: seq<T>, le: (T, T) -> bool): (r: seq<T>)
    requires TotalPreorder(le)
    ensures multiset(r) == multiset(s)
    ensures |r| == |s|
    ensures SortedBy(r, le)
    decreases |s|
  {
    if |s| == 0 then []
    else
      var tail := SortBy(s[1..], le);
      InsertSorted(s[0], tail, le);
      assert s == [s[0]] + s[1..];
      Insert(s[0], tail, le)
  }
}

=== FILE: sidebar.dfy ===
/** The sidebar: which navigation sections are expanded, and its "new board"
    button, which creates a board from the template and opens it. */
module Sidebar {
  import opened Wrappers
  import opened Text
  import opened Seqs
  import opened BoardModel
  import BoardService
  import BoardList

  /** The sections expanded when the sidebar first renders. */
  const InitialExpanded: seq<string> := ["workspace"]

  /** On first render only the workspace section is open: its toggle empties
      the list, and any other section's toggle opens it after the
      workspace. */
  lemma InitialToggles(section: string)
    ensures ToggleSection(InitialExpanded, "workspace") == []
    ensures section != "workspace" ==> ToggleSection(InitialExpanded, section) == ["workspace", section]
  {
    assert "workspace" in InitialExpanded;
  }

  /** `toggleSection`: an expanded section is collapsed (every copy of it
      leaves the list), a collapsed one is appended. */
  function ToggleSection(expanded: seq<string>, section: string): (r: seq<string>)
    ensures section in expanded ==>
              && section !in r
              && IsSubseq(r, expanded)
              && (forall s :: s != section ==> (s in r <==> s in expanded))
              && forall s :: multiset(r)[s] == if s != section then multiset(expanded)[s] else 0
    ensures section !in expanded ==> r == expanded + [section]
  {
    if section in expanded then
      var keep := (s: string) => s != section;
      FilterCounts(expanded, keep);
      Filter(expanded, keep)
    else expanded + [section]
  }

  /** Opening a collapsed section and closing it again gives back the very
      same list. */
  lemma ToggleTwiceRestoresAbsent(expanded: seq<string>, section: string)
    requires section !in expanded
    ensures ToggleSection(ToggleSection(expanded, section), section) == expanded
  {
    var p := (s: string) => s != section;
    FilterAppend(expanded, [section], p);
    FilterAll(expanded, p);
    assert Filter([section], p) == [];
  }

  /** Closing an expanded section and opening it again restores every
      section's membership; the section moves to the end and loses any
      duplicate copies. */
  lemma ToggleTwiceRestoresMembership(expanded: seq<string>, section: string)
    ensures forall s :: s in ToggleSection(ToggleSection(expanded, section), section) <==> s in expanded
  {
    if section in expanded {
      var once := ToggleSection(expanded, section);
      assert section !in once;
      assert ToggleSection(once, section) == once + [section];
    } else {
      ToggleTwiceRestoresAbsent(expanded, section);
    }
  }

  /** The toast the button leaves. */
  datatype Toast = NoToast | Created | InvalidResult | Threw

  /** What one press of the button leaves: the request sent, where the
      router goes, the toast, and whether a creation is still in flight. */
  datatype Press = Press(request: Option<BoardService.BoardDraft>, navigateTo: Option<string>,
                         toast: Toast, creating: bool)

  /** The route of a board's page. */
  function BoardPath(id: int): string {
    "/board/" + IntToString(id)
  }

  /** `handleCreateBoard`: a press while a creation is in flight does
      nothing. Otherwise the template is sent; a thrown error, a missing
      result or one whose `Id` is falsy (absent or 0) is reported without
      navigating; a result with an `Id` opens its page. The in-flight flag is
      cleared in every case. */
  function HandleCreateBoard(creating: bool, created: Result<Option<Board>, Error>): (p: Press)
    ensures creating ==> p == Press(None, None, NoToast, true)
    ensures !creating ==> p.request == Some(BoardList.NewBoardTemplate()) && !p.creating
    ensures !creating ==> (p.navigateTo.Some? <==> created.Success? && created.value.Some? && created.value.value.Id != 0)
    ensures p.navigateTo.Some? ==> p.navigateTo.value == BoardPath(created.value.value.Id) && p.toast == Created
    ensures !creating && created.Failure? ==> p.toast == Threw
    ensures !creating && created.Success? && p.navigateTo.None? ==> p.toast == InvalidResult
  {
    if creating then Press(None, None, NoToast, true)
    else
      var req := Some(BoardList.NewBoardTemplate());
      match created
      case Failure(_) => Press(req, None, Threw, false)
      case Success(None) => Press(req, None, InvalidResult, false)
      case Success(Some(b)) =>
        if b.Id == 0 then Press(req, None, InvalidResult, false)
        else Press(req, Some(BoardPath(b.Id)), Created, false)
  }

  /** With the service's `create`, whose boards are numbered from a positive
      counter, the press opens the page of the board just created, and the
      route's number reads back as that board's `Id`. */
  lemma CreateOpensNewBoard(st: BoardService.Store, now: int)
    requires st.nextId > 0
    ensures var rep := BoardService.Create(st, BoardList.NewBoardTemplate(), now);
            var p := HandleCreateBoard(false, Success(Some(rep.result.value)));
            && p.navigateTo == Some(BoardPath(st.nextId))
            && rep.store.boards[0].Id == st.nextId
            && p.toast == Created && !p.creating
            && var digits := p.navigateTo.value[|"/board/"|..];
               && (forall i :: 0 <= i < |digits| ==> '0' <= digits[i] <= '9')
               && ParseNat(digits) == st.nextId
  {
    var path := BoardPath(st.nextId);
    assert path[|"/board/"|..] == NatToString(st.nextId);
    ParseNatToString(st.nextId);
  }
}

=== FILE: text.dfy ===
/** The few string primitives of the JavaScript runtime the application
    relies on, restricted to what the model needs: the regular-expression
    class `\w`, `String.prototype.trim`, ASCII `toLowerCase`/`toUpperCase`,
    `includes`, and the decimal rendering of an integer inside a template
    literal. */
module Text {

  /** `\w` without the `u` flag: `[A-Za-z0-9_]`. */
  predicate IsWordChar(c: char) {
    ('a' <= c <= 'z') || ('A' <= c <= 'Z') || ('0' <= c <= '9') || c == '_'
  }

  /** The characters `trim` removes: white space (tab, vertical tab, form
      feed, space, no-break space, byte order mark and the other space
      separators) and line terminators. */
  predicate IsSpace(c: char) {
    var n := c as int;
    n == 0x09 || n == 0x0A || n == 0x0B || n == 0x0C || n == 0x0D || n == 0x20
    || n == 0xA0 || n == 0x1680 || (0x2000 <= n <= 0x200A) || n == 0x2028
    || n == 0x2029 || n == 0x202F || n == 0x205F || n == 0x3000 || n == 0xFEFF
  }

  ghost predicate AllSpace(s: string) {
    forall i :: 0 <= i < |s| ==> IsSpace(s[i])
  }

  /** Number of leading `trim` characters. */
  function LeadingSpaces(s: string): (k: nat)
    ensures k <= |s| && AllSpace(s[..k])
    ensures k == |s| || !IsSpace(s[k])
    decreases |s|
  {
    if |s| > 0 && IsSpace(s[0]) then
      var k := LeadingSpaces(s[1..]);
      assert s[..k + 1] == [s[0]] + s[1..][..k];
      k + 1
    else 0
  }

  /** Index at which the trailing run of `trim` characters starts. */
  function TrailingStart(s: string): (k: nat)
    ensures k <= |s| && AllSpace(s[k..])
    ensures k == 0 || !IsSpace(s[k - 1])
    decreases |s|
  {
    if |s| > 0 && IsSpace(s[|s| - 1]) then
      var k := TrailingStart(s[..|s| - 1]);
      assert s[k..] == s[..|s| - 1][k..] + [s[|s| - 1]];
      k
    else |s|
  }

  /** `String.prototype.trim`: the input with its leading and trailing
      white space removed, and nothing else changed. */
  function Trim(s: string): (r: string)
    ensures exists a, b :: 0 <= a <= b <= |s| && r == s[a..b] && AllSpace(s[..a]) && AllSpace(s[b..])
    ensures |r| == 0 || (!IsSpace(r[0]) && !IsSpace(r[|r| - 1]))
  {
    var a := LeadingSpaces(s);
    var t := s[a..];
    var k := TrailingStart(t);
    assert s[a + k..] == t[k..];
    s[a..a + k]
  }

  function LowerChar(c: char): char {
    if 'A' <= c <= 'Z' then (c as int + 32) as char else c
  }

  function UpperChar(c: char): char {
    if 'a' <= c <= 'z' then (c as int - 32) as char else c
  }

  /** ASCII `toLowerCase`. */
  function Lower(s: string): (r: string)
    ensures |r| == |s|
    ensures forall i :: 0 <= i < |s| ==> r[i] == LowerChar(s[i])
  {
    seq(|s|, i requires 0 <= i < |s| => LowerChar(s[i]))
  }

  /** ASCII `toUpperCase`. */
  function Upper(s: string): (r: string)
    ensures |r| == |s|
    ensures forall i :: 0 <= i < |s| ==> r[i] == UpperChar(s[i])
  {
    seq(|s|, i requires 0 <= i < |s| => UpperChar(s[i]))
  }

  predicate IsPrefix(p: string, s: string) {
    |p| <= |s| && s[..|p|] == p
  }

  ghost predicate OccursAt(s: string, t: string, i: int) {
    0 <= i && i + |t| <= |s| && s[i..i + |t|] == t
  }

  /** `s.includes(t)`: `t` occurs in `s` at some offset. */
  predicate Contains(s: string, t: string)
    decreases |s|
  {
    IsPrefix(t, s) || (|s| > 0 && Contains(s[1..], t))
  }

  lemma {:induction false} ContainsIffOccurs(s: string, t: string)
    ensures Contains(s, t) <==> exists i :: OccursAt(s, t, i)
    decreases |s|
  {
    if IsPrefix(t, s) {
      assert OccursAt(s, t, 0);
    } else if |s| == 0 {
    } else {
      ContainsIffOccurs(s[1..], t);
      if exists i :: OccursAt(s, t, i) {
        var i :| OccursAt(s, t, i);
        assert i != 0;
        assert OccursAt(s[1..], t, i - 1);
      }
      if Contains(s[1..], t) {
        var i :| OccursAt(s[1..], t, i);
        assert OccursAt(s, t, i + 1);
      }
    }
  }

  function DigitChar(d: nat): char
    requires d < 10
  {
    "0123456789"[d]
  }

  /** The decimal rendering of a natural number, as a template literal prints it. */
  function NatToString(n: nat): (r: string)
    ensures |r| > 0
    ensures forall i :: 0 <= i < |r| ==> '0' <= r[i] <= '9'
    decreases n
  {
    if n < 10 then [DigitChar(n)] else NatToString(n / 10) + [DigitChar(n % 10)]
  }

  function IntToString(i: int): (r: string)
    ensures |r| > 0
  {
    if i < 0 then "-" + NatToString(-i) else NatToString(i)
  }

  function ParseNat(s: string): nat
    requires forall i :: 0 <= i < |s| ==> '0' <= s[i] <= '9'
  {
    if |s| == 0 then 0 else 10 * ParseNat(s[..|s| - 1]) + (s[|s| - 1] as int - '0' as int)
  }

  /** Reading the decimal rendering back yields the number. */
  lemma {:induction false} ParseNatToString(n: nat)
    ensures ParseNat(NatToString(n)) == n
    decreases n
  {
    if n >= 10 {
      ParseNatToString(n / 10);
      var s := NatToString(n);
      assert s[..|s| - 1] == NatToString(n / 10);
    }
  }
}

=== FILE: wrappers.dfy ===
/** Optional values and success/failure results shared by the whole model.
    An absent JavaScript property or a `null` becomes `None`; a thrown
    `Error` becomes `Failure`. */
module Wrappers {

  datatype Option<+T> = None | Some(value: T) {

    /** The value, or the given default when absent. */
    function GetOr(default: T): T {
      match this
      case Some(v) => v
      case None => default
    }
  }

  datatype Result<+R, +E> = Success(value: R) | Failure(error: E) {

    predicate IsFailure() {
      Failure?
    }

    function PropagateFailure<U>(): Result<U, E>
      requires Failure?
    {
      Failure(error)
    }

    function Extract(): R
      requires Success?
    {
      value
    }
  }
}
